=== FILE: README.md ===
# Indian IPO Tracker — a Dafny model of its ingestion, store and table helpers

The tracker scrapes a list of IPOs (initial public offerings) from an external
site. Each scraped item is normalised into an IPO record: the company name comes
out of an HTML snippet, the grey-market premium is parsed from text like
`35 (14.3%)`, snake_case and camelCase keys are aliased, and the exchange is
classified. The records are kept in an in-memory store, `MemStorage`. The store
counts its ids from 1 and supports create, lookup, partial update, status filter,
case-insensitive search and newest-first listing. A React client shows the
records in a paginated table, with status filter tabs that carry counts.

The model has one module per concern:

- `Wrappers`: `Option` and `Result`.
- `Text`: the JavaScript string primitives the code relies on:
  - `\s` and `trim`;
  - `includes`;
  - global literal `replace`;
  - `\s+` collapse;
  - ASCII `toLowerCase`;
  - `String(int)`.
- `Decimal`:
  - `parseFloat` of a `[0-9.]+` capture, and of general text (sign, exponent,
    `Infinity`, `NaN`);
  - the JavaScript rendering of the resulting number;
  - its exact value as a `real`.
- `Schema`: the insert and stored shapes of IPOs, contacts and users.
- `Ordering`: stable newest-first sort, filter, and their commutation.
- `Storage`: `MemStorage` as an immutable state value. Every operation returns the
  new state and its result.
- `JsValue`: loosely typed scraped values, truthiness and `String(v)`.
- `NameExtraction`, `Premium` and `Ingest`: `parseAndStoreIpo` and `extractExchange`.
- `Batch`: the per-item loop of `fetchAndSyncIpos`, the envelope checks around it,
  and the counts of `getIpoStats`.
- `IpoTable`:
  - pagination;
  - the price, lot-size, premium-badge and status-class cells;
  - the action-button decision table.
- `IpoFilters`: the tab counts and the tab colour classes.

Each regular expression of the normaliser is a hand-written scanner. Each scanner
is proved equal to a declarative description of a match, and proved to find the
leftmost match. A JavaScript `Map` iterates in insertion order; ids are inserted in
increasing order, so a listing is ascending-id order. `Array.prototype.sort` is
stable. Timestamps are naturals supplied by the caller.

A scraped name made only of whitespace and `&nbsp;` is truthy, but it cleans to the
empty string. The stored name is then `""`, not "Unknown Company". Other entities
decode to visible characters (`&amp;` gives "&"), so a name of other entities does
not clean to `""`. The model keeps this behaviour (`NameExtraction.BlankMarkupCleansEmpty`).

## Model

| member | source | states |
|---|---|---|
| Text.TrimStart | server/services/ipo-service.ts:84 | Strips exactly the leading JavaScript whitespace. The result is a suffix and starts with a non-space. |
| Text.Trim | server/services/ipo-service.ts:80 | The result is the input without its leading and trailing whitespace run. It neither starts nor ends with whitespace. |
| Text.ContainsIff | server/storage.ts:71-73 | `includes` holds exactly when the pattern occurs at some index. |
| Text.ContainsEmpty | server/storage.ts:71 | Every string includes the empty string. |
| Text.ReplaceAll | server/services/ipo-service.ts:73-78 | A global literal replace never lengthens the text when the replacement is no longer than the pattern, and the empty text stays empty. |
| Text.ReplaceAllAbsent | server/services/ipo-service.ts:73-78 | A global replace of an absent pattern returns the text unchanged. |
| Text.CollapseTrimNormalizes | server/services/ipo-service.ts:79-80 | Collapsing `\s+` to one space and trimming leaves no edge whitespace, no whitespace other than a plain space, and no two adjacent spaces. Text already in that form is returned unchanged. |
| Text.CollapseSpaces | server/services/ipo-service.ts:79 | `replace(/\s+/g, ' ')` never lengthens the text and keeps it empty exactly when it was. It starts with a space exactly when the input starts with whitespace, and otherwise with the same character. No whitespace but a plain space remains, and no two spaces are adjacent. |
| Text.CollapseKeepsVisible | server/services/ipo-service.ts:79 | Collapsing whitespace keeps every non-space character, in order. |
| Text.Lower | server/storage.ts:68-73 | ASCII lower-casing: length kept, `A`–`Z` mapped to `a`–`z`, everything else kept. |
| Text.NatToString | server/services/ipo-service.ts:107-108 | `String(n)` is a non-empty digit string without a leading zero whose value is `n`. |
| Text.NatToStringUnique | server/services/ipo-service.ts:107-108 | A digit string without a superfluous leading zero is exactly the rendering of its value, so each natural has one such spelling. |
| Decimal.ParseUnsigned | server/services/ipo-service.ts:93 | `parseFloat` of a digits-and-dots capture takes the longest `digits[.digits]` prefix. It is NaN exactly when no digit comes before or right after the first dot. |
| Decimal.ParseFloat | client/src/components/ipo-table.tsx:82 | `parseFloat` of general text, after leading whitespace and one optional sign. The result is `Infinity` exactly when `Infinity` follows, with the sign's direction. It is NaN exactly when neither `Infinity` nor a number follows. Otherwise it is the decimal literal's value scaled by ten to its exponent, negated after a minus sign. |
| Decimal.Magnitude | client/src/components/ipo-table.tsx:82 | An unsigned literal is `Infinity`, NaN when no digit starts it, or the non-negative value of `digits[.digits]` scaled by its `e` exponent. |
| Decimal.ScaleUp | client/src/components/ipo-table.tsx:82 | A non-negative exponent `n` multiplies the value by ten to the `n`. |
| Decimal.Render | server/services/ipo-service.ts:111 | The text a number prints as is non-empty and starts with a digit. |
| Decimal.RenderThen | server/services/ipo-service.ts:111 | A rendering followed by text that does not continue the literal parses to the canonical literal, and the literal ends where the rendering ends. |
| Decimal.ParseFloatOfRender | client/src/components/ipo-table.tsx:82 | `parseFloat` reads back the text a number prints as: the same value. |
| Decimal.ExponentScales | client/src/components/ipo-table.tsx:82 | A rendering followed by `e` and a digit string parses to the number scaled by that exponent, so "5e1" reads as fifty. |
| Decimal.Canonical | server/services/ipo-service.ts:111 | The shortest spelling: a non-empty whole part without a superfluous leading zero, and a fraction without a trailing zero. |
| Decimal.CanonicalKeepsValue | server/services/ipo-service.ts:111 | Dropping leading and trailing zeros keeps the number. |
| Decimal.RenderRoundTrip | server/services/ipo-service.ts:111 | The text a number prints as parses back to the canonical literal, whose value is the number's. |
| Decimal.ZeroIff | server/services/ipo-service.ts:111 | A literal is zero exactly when all its digits are zero, and exactly when it prints as "0". |
| Decimal.DigitsValueAppend | server/services/ipo-service.ts:93 | The value of concatenated digit strings is the positional sum. |
| Schema.InsertIpo | shared/schema.ts:5-37 | The IPO columns: name, scriptCode, openDate, closeDate and currentStatus are required; every other column is nullable. The insert shape has no id and no timestamps. |
| Ordering.Filter | server/storage.ts:62-63 | A filter never yields more than it is given. |
| Ordering.FilterMembers | server/storage.ts:63 | An element is kept exactly when it is in the list and satisfies the predicate. |
| Ordering.SortNewest | server/storage.ts:56-58 | The sort is a permutation of its input and is non-increasing in creation time. |
| Ordering.SortStable | server/storage.ts:56-58 | Records with equal creation time keep their relative order. |
| Ordering.SortFilterCommute | server/storage.ts:61-65 | Filtering then sorting equals sorting then filtering. |
| Ordering.DisjointCounts | server/services/ipo-service.ts:141-143 | For pairwise exclusive predicates the three counts add up to at most the length, with equality exactly when every element satisfies one of them. |
| Storage.NewStorage | server/storage.ts:29-36 | The new store is empty and valid, with all three counters at 1. |
| Storage.KeysBelow | server/storage.ts:43 | The iteration order of a map: the stored ids below the counter, strictly ascending, each once. |
| Storage.KeysBelowCount | server/storage.ts:43 | The listing has as many entries as ids in use. |
| Storage.KeyPosition | server/storage.ts:43 | Every stored id below the counter has a place in the listing, and that place holds its record. |
| Storage.EarlierPosition | server/storage.ts:43-45 | A stored id smaller than the one at some place of the listing is listed before it. |
| Storage.GetUser | server/storage.ts:38-40 | A user is found exactly when the id is stored, and it is the stored one. |
| Storage.GetUserByUsername | server/storage.ts:42-46 | Returns a stored user with that username and no user of smaller id has it. It returns none exactly when no stored user has it. Uniqueness is not assumed. |
| Storage.FirstUserFound | server/storage.ts:43-45 | The first hit of the listing scan is stored under its id, and no earlier id holds the username. |
| Storage.NoUserFound | server/storage.ts:43-45 | When the scan finds nothing, no stored user has the username. |
| Storage.CreateUser | server/storage.ts:48-53 | The user counter issues the id, then advances. The store stays valid and the id was unused. |
| Storage.GetAllIpos | server/storage.ts:55-59 | Newest first, a permutation of the stored records, one entry per stored id, and a record is listed exactly when it is stored. |
| Storage.IpoListingMembers | server/storage.ts:56 | `Array.from(values())` lists exactly the stored records. |
| Storage.GetIposByStatus | server/storage.ts:61-65 | The records of `getAllIpos` with exactly that status, in the same order, newest first. |
| Storage.StatusMembers | server/storage.ts:61-65 | A record is listed for a status exactly when it is stored with that status. |
| Storage.Matches | server/storage.ts:69-74 | The search predicate; the empty query matches every record. |
| Storage.SearchIpos | server/storage.ts:67-76 | The records of `getAllIpos` that match the query, in the same order, newest first. |
| Storage.SearchMembers | server/storage.ts:67-76 | A record is found exactly when it is stored and the lower-cased query occurs in its lower-cased name, script code or non-null, non-empty exchange. |
| Storage.EmptySearchListsAll | server/storage.ts:67-76 | An empty query returns every record, in `getAllIpos` order. |
| Storage.GetIpoById | server/storage.ts:78-80 | A record is found exactly when the id is stored, and it carries that id. |
| Storage.CreateIpo | server/storage.ts:82-112 | The IPO counter issues the id. The record is the input plus the id and one instant in both timestamps. The store stays valid and the id is above every id in use. |
| Storage.IdsStartAtOne | server/storage.ts:33-35 | Each kind counts its own ids from 1: the first IPO, user and contact each get 1, and the second IPO gets 2. |
| Storage.CreateThenGet | server/storage.ts:78-112 | After create, lookup of the new id returns the created record. Its data is the input, `createdAt == updatedAt`, and the listing grows by one. |
| Storage.PatchLaws | server/storage.ts:118-122 | The spread merge: an empty patch is the identity, a patch is idempotent, and a patch naming every field replaces the data. |
| Storage.ApplyPatch | server/storage.ts:118-122 | The spread `{ ...existing, ...updates }`: for every one of the twenty columns, a supplied value replaces the old one and an absent key keeps it (`Merged`). An empty patch therefore keeps the data, and a patch naming every field replaces it. |
| Storage.MergedUnique | server/storage.ts:118-122 | The column-by-column merge determines the record: a record takes exactly the supplied keys over the old data iff it is the spread's result. |
| Storage.UpdateIpo | server/storage.ts:114-125 | An absent id leaves the store unchanged and yields nothing. A present id takes exactly the supplied columns and keeps every other column (`Merged`), as well as its id and `createdAt`. Only `updatedAt` is refreshed, no other record changes, and validity is kept. |
| Storage.UpdateThenGet | server/storage.ts:114-125 | Lookup after update returns the updated record; after an update of an absent id the lookup still finds nothing. |
| Storage.CreateContact | server/storage.ts:127-136 | The contact counter issues the id; the creation time is the given instant. |
| Storage.GetAllContacts | server/storage.ts:138-142 | Newest first, a permutation of the stored messages, one entry per stored id. |
| Storage.OnlyGrows | server/storage.ts:3-19 | No operation removes a key or lowers a counter. `createIpo` keeps every stored record, and `updateIpo` changes no record but its own. |
| JsValue.ToText | server/services/ipo-service.ts:53 | `String(v)` of a string is the string; of an integer, its decimal text. |
| JsValue.TruthyTextNonEmpty | server/services/ipo-service.ts:107-108 | A truthy value never prints as the empty string. |
| NameExtraction.IndexOf | server/services/ipo-service.ts:57 | The first occurrence of a character at or after a position, or none. |
| NameExtraction.AnchorAtIff | server/services/ipo-service.ts:57 | The anchor scanner matches at a position exactly when `<a[^>]*>([^<]+)<\/a>` matches there, with those bounds. |
| NameExtraction.FindAnchor | server/services/ipo-service.ts:57 | The first anchor match: no earlier position matches, and none means no match anywhere. |
| NameExtraction.FirstAnchor | server/services/ipo-service.ts:57 | When no earlier position matches, the scan stops at the first anchor match and reports its bounds. |
| NameExtraction.FragmentAtIff | server/services/ipo-service.ts:62 | The fragment scanner matches exactly when `>([^<]+)<` matches there. |
| NameExtraction.FindFragment | server/services/ipo-service.ts:62 | The first fragment match, or none anywhere. |
| NameExtraction.Winner | server/services/ipo-service.ts:57-69 | Anchor wins when it matches; otherwise the fragment when it matches; otherwise the raw text. |
| NameExtraction.SelectAnchor | server/services/ipo-service.ts:57-59 | With a leftmost anchor match, the name is its captured text, trimmed. |
| NameExtraction.SelectFragment | server/services/ipo-service.ts:62-64 | With no anchor anywhere and a leftmost fragment, the name is the fragment text, trimmed. |
| NameExtraction.SelectRaw | server/services/ipo-service.ts:66-67 | With neither pattern matching, the name is the whole string, trimmed. |
| NameExtraction.DecodeEntities | server/services/ipo-service.ts:73-78 | The six entity replacements, in the order `parseAndStoreIpo` applies them, never lengthen the text. |
| NameExtraction.CleanName | server/services/ipo-service.ts:72-80 | The cleaned name is normalised: no edge whitespace and no two adjacent whitespace characters. |
| NameExtraction.CompanyName | server/services/ipo-service.ts:51-81 | A falsy name yields exactly "Unknown Company". Otherwise the name is the cleaned text the winning strategy selects. Either way it is normalised. |
| NameExtraction.DecodeWithoutAmpersand | server/services/ipo-service.ts:73-78 | Text without `&` has no entity to decode. |
| NameExtraction.BlankNameCleansEmpty | server/services/ipo-service.ts:72-80 | A name of whitespace only cleans to the empty string. |
| NameExtraction.NbspToSpaces | server/services/ipo-service.ts:73 | In markup of whitespace and `&nbsp;` only, the `&nbsp;` replacement leaves whitespace only. |
| NameExtraction.BlankMarkupCleansEmpty | server/services/ipo-service.ts:72-80 | A name made of any mix of whitespace and `&nbsp;` entities cleans to the empty string. |
| NameExtraction.CleanNameFixedPoint | server/services/ipo-service.ts:72-80 | A normalised name without `&` is left unchanged. |
| NameExtraction.AmpersandFirst | server/services/ipo-service.ts:73-75 | Because `&amp;` is decoded before `&lt;`, "&amp;lt;" becomes "<". |
| Premium.RunEnd | server/services/ipo-service.ts:90 | The end of the longest run of a character class: everything before is in the class, the next character is not. |
| Premium.PercentAtIff | server/services/ipo-service.ts:90 | The scanner matches at a position exactly when `(\d+)\s*\(([0-9.]+)%\)` matches there, with those group bounds. |
| Premium.FindPercent | server/services/ipo-service.ts:90 | The leftmost match: no earlier position matches, and none means no match anywhere. |
| Premium.LeftmostPercentMatch | server/services/ipo-service.ts:90-92 | The leftmost match is a match, and its first group is a whole digit run (no digit just before it). |
| Premium.FirstDigitRun | server/services/ipo-service.ts:96 | The first maximal digit run, or none when the text has no digit. |
| Premium.PremiumText | server/services/ipo-service.ts:84 | The premium text is trimmed at both ends, and empty for a falsy premium. |
| Premium.NoPremium | server/services/ipo-service.ts:88 | The guard catches any text containing "N/A". On trimmed text it holds exactly for "", "0" and "N/A"-containing text, so its `"0  "` test never fires. |
| Premium.PercentText | server/services/ipo-service.ts:111 | A percentage is stored exactly when the parsed number is neither NaN nor zero, as the number's JavaScript text. |
| Premium.ZeroPercentIsNull | server/services/ipo-service.ts:111 | A percentage of zero is stored as null, never as "0". |
| Premium.PercentTextRoundTrip | server/services/ipo-service.ts:111 | The stored percentage parses back to the parsed number. |
| Premium.ScanGroups | server/services/ipo-service.ts:90-99 | The percent pattern is tried first and the bare-number pattern only without it, so a percentage capture only ever comes with a premium capture. |
| Premium.Stored | server/services/ipo-service.ts:92-93 | The premium capture is stored unchanged, and a percentage is stored only when the percent pattern captured one. |
| Premium.ScanPremium | server/services/ipo-service.ts:90-100 | A percentage is only ever stored with a premium. |
| Premium.ScanPremiumDigits | server/services/ipo-service.ts:90-98 | A premium is a non-empty digit string that occurs in the text. |
| Premium.ParsePremium | server/services/ipo-service.ts:84-101 | Empty, "0", "N/A"-containing text yields both null. A premium is a non-empty digit string found in the trimmed text; a percentage comes only with a premium. |
| Premium.ParsePremiumScans | server/services/ipo-service.ts:88-100 | Past the guard, the two patterns decide the result. |
| Premium.PercentBranch | server/services/ipo-service.ts:90-93 | With a percent match, the premium is group 1 and the percentage comes from group 2. |
| Premium.PercentCapture | server/services/ipo-service.ts:90-93 | With a percent match whose groups are the given texts, the premium is the first group and the percentage is the stored text of the second. |
| Premium.DigitBranch | server/services/ipo-service.ts:94-99 | With no percent match, the premium is the first digit run and the percentage is null. |
| Premium.PremiumNeedsDigit | server/services/ipo-service.ts:90-100 | Text without a digit yields no premium. |
| Premium.ZeroSpacesTestIsDead | server/services/ipo-service.ts:84-88 | After trimming, the text can never equal "0  ". |
| Premium.PercentExample | server/services/ipo-service.ts:89-93 | "35 (14.3%)" gives premium "35" and percentage "14.3". |
| Premium.BareNumberExample | server/services/ipo-service.ts:95-99 | "120" gives premium "120" and no percentage. |
| Premium.NotAvailableExample | server/services/ipo-service.ts:88 | "N/A" gives both null. |
| Premium.ZeroPremiumExample | server/services/ipo-service.ts:88 | "0" gives both null. |
| Premium.NullPremiumExample | server/services/ipo-service.ts:84 | A null premium gives both null. |
| Ingest.ExtractExchange | server/services/ipo-service.ts:132-137 | Always one of the three boards, decided case-sensitively in priority MAINBOARD > BSE SME > NSE SME, with MAINBOARD as the default; one iff per board. |
| Ingest.ExchangeNamed | server/services/ipo-service.ts:132-137 | A non-default board occurs in the name. A name naming BSE SME is classified MAINBOARD only when it also names MAINBOARD. |
| Ingest.ExchangeCaseSensitive | server/services/ipo-service.ts:133-135 | "bse sme" is classified MAINBOARD. |
| Ingest.FirstTruthy | server/services/ipo-service.ts:105-123 | `a \|\| b`: the snake_case value when truthy, else the camelCase value when truthy, else none. |
| Ingest.TextOr | server/services/ipo-service.ts:112-117 | `item.snake \|\| item.camel \|\| d` on text: the snake_case value when non-empty, else the camelCase value when non-empty, else the default. |
| Ingest.OptionalText | server/services/ipo-service.ts:114-116 | `item.snake \|\| item.camel \|\| null` on text: null exactly when neither key holds a non-empty string; otherwise the snake_case value when non-empty, else the camelCase value. |
| Ingest.TextOfTruthy | server/services/ipo-service.ts:107-108 | `x ? x.toString() : null`: present exactly when truthy, and then non-empty. |
| Ingest.Flag | server/services/ipo-service.ts:121-123 | A flag is true exactly when one of its keys holds `true`; otherwise it is the column default `false` (`Schema.FlagDefault`). |
| Ingest.Build | server/services/ipo-service.ts:103-124 | Field by field: the company name of the item's name, and the premium and percentage of the premium text. Script code, status and dates are the aliased text or its default. Icon URL, allotment and listing dates and the allotment link are the optional aliased text. The lot size is the first non-zero alias. Prices, listing price and premium timestamp are the truthy text. Each flag holds when either key holds `true`. The exchange is the name's classification. The status is never empty and a percentage comes only with a premium. |
| Ingest.Assemble | server/services/ipo-service.ts:103-124 | Given the name and premium fields, every other field is read from its keys with its alias rule and default, and the exchange is the name's classification. |
| Ingest.Normalize | server/services/ipo-service.ts:48-130 | Fails exactly on a null element; otherwise yields the built record. |
| Ingest.Defaults | server/services/ipo-service.ts:104-123 | With every key absent: "Unknown Company" on MAINBOARD, '' for script code and dates, "unknown" status, false flags, null elsewhere. |
| Ingest.AliasFallThrough | server/services/ipo-service.ts:105-117 | The snake_case key wins when truthy; a lot size 0 or an empty string falls through to camelCase, then to the default. |
| Batch.StoreEntry | server/services/ipo-service.ts:126-129 | A failing entry leaves the store as it was; a parsed one is created. |
| Batch.SyncFrom | server/services/ipo-service.ts:38-40 | The loop leaves users, contacts and their counters alone, and advances the IPO counter by exactly the number of parsed entries. |
| Batch.Successes | server/services/ipo-service.ts:38-40 | The parsed records, at most one per entry. Each is its entry's parse, and the entry positions strictly increase. |
| Batch.SuccessesComplete | server/services/ipo-service.ts:38-40 | Every entry that parses has its record in the list. |
| Batch.SuccessCount | server/services/ipo-service.ts:127-129 | Every entry is either parsed or null. |
| Batch.SyncAdds | server/services/ipo-service.ts:38-40 | The loop stores one record per parsed entry, in order, under consecutive new ids, each stamped with its entry's instant. Failing entries are skipped; earlier records, users and contacts are untouched. |
| Batch.SyncAll | server/services/ipo-service.ts:38-40 | With `Ingest.Normalize` as the parser the store grows by the number of non-null entries and stays valid. |
| Batch.SkipsFailingEntry | server/services/ipo-service.ts:38-40 | Five entries with a null third one give four records: the loop goes on after a failure. |
| Batch.AllEntriesSucceed | server/services/ipo-service.ts:38-40 | When every entry parses, each gives a record, in order. |
| Batch.NoDeduplication | server/services/ipo-service.ts:38-40 | Two equal entries are stored twice, under consecutive ids with equal data. |
| Batch.FetchAndSync | server/services/ipo-service.ts:25-40 | A failed request and a missing data array fail before anything is stored, one iff each; otherwise the loop runs. |
| Batch.GetIpoStats | server/services/ipo-service.ts:139-157 | The total is the number of stored records. Each status count is the length of the exact-status listing, and the three add up to at most the total. |
| Batch.StatsSumIff | server/services/ipo-service.ts:140-155 | The three counts add up to the total exactly when every stored record is open, upcoming or closed. |
| Batch.EmptyStats | server/services/ipo-service.ts:139-157 | An empty store has all counts zero. |
| IpoTable.TotalPages | client/src/components/ipo-table.tsx:18 | `ceil(n / 10)`: the least page count whose pages hold `n` rows. |
| IpoTable.Slice | client/src/components/ipo-table.tsx:21 | `slice` with clamped bounds: its length and its rows, read from `start` on. |
| IpoTable.StartIndex | client/src/components/ipo-table.tsx:19 | The first row of a page is a multiple of ten, and that multiple is the page number minus one. |
| IpoTable.Page | client/src/components/ipo-table.tsx:19-21 | At most ten rows, read in order from `startIndex`. The page is non-empty exactly when `startIndex` is inside the list. |
| IpoTable.PageBounds | client/src/components/ipo-table.tsx:16-21 | A page has at most ten rows. It is non-empty exactly when `1 <= page <= totalPages`, and then it is the rows from `startIndex` to `min(endIndex, n)`. |
| IpoTable.PagesPrefix | client/src/components/ipo-table.tsx:16-21 | The first `k` pages laid end to end are the first `min(10 k, n)` rows. |
| IpoTable.PagesPartition | client/src/components/ipo-table.tsx:16-21 | All the pages, in order, are the whole list. |
| IpoTable.CaptionFor | client/src/components/ipo-table.tsx:292-294 | The caption counts from `startIndex + 1` and ends at most ten rows later and never past the total. A page with ten rows after it spans exactly ten. |
| IpoTable.CaptionMatchesPage | client/src/components/ipo-table.tsx:292-294 | On a real page the caption "start+1 to min(end, n) of n" names exactly the rows shown. |
| IpoTable.PageButtons | client/src/components/ipo-table.tsx:309-310 | The numbered buttons are 1 to `min(5, totalPages)`. |
| IpoTable.PageButtonsAreRealPages | client/src/components/ipo-table.tsx:309-322 | A number has a button exactly when it is between 1 and `min(5, totalPages)`. Every button is a page that exists. |
| IpoTable.PreviousDisabled | client/src/components/ipo-table.tsx:276 | Previous is disabled exactly on page 1: disabled there, enabled from page 2 on. |
| IpoTable.NextDisabled | client/src/components/ipo-table.tsx:283 | As written, Next is disabled exactly on the last page: disabled there, enabled before it and past it. |
| IpoTable.Navigate | client/src/components/ipo-table.tsx:274-329 | A click never takes the page below 1. |
| IpoTable.NavigateStaysInRange | client/src/components/ipo-table.tsx:276-328 | While the list is unchanged, every click keeps the page between 1 and `totalPages`. |
| IpoTable.NextPastLastPage | client/src/components/ipo-table.tsx:281-285 | As written: five rows on page 3 give an empty page, the caption "21 to 5 of 5" and an enabled Next. |
| IpoTable.NextEnabledIffNextPage | client/src/components/ipo-table.tsx:281-285 | With `page >= totalPages` as the disabling test, Next is enabled exactly when the next page has rows. |
| IpoTable.FormatPrice | client/src/components/ipo-table.tsx:92-96 | "TBA" exactly when both prices are falsy; otherwise the text starts with the rupee sign. |
| IpoTable.FormatPriceReadsBack | client/src/components/ipo-table.tsx:92-96 | For prices without a dash the cell reads back as "TBA", as the single price when both are equal, or as the two prices. |
| IpoTable.LotSizeText | client/src/components/ipo-table.tsx:214 | "TBA" exactly when the lot size is missing or zero. |
| IpoTable.LotSizeReadsBack | client/src/components/ipo-table.tsx:214 | The cell gives back every lot size except zero. |
| IpoTable.StatusClass | client/src/components/ipo-table.tsx:23-30 | `ipo-status-` followed by the status for open, upcoming and closed; the empty class exactly for any other status. |
| IpoTable.PremiumBadge | client/src/components/ipo-table.tsx:77-89 | Neutral exactly when premium or percentage is falsy. Otherwise high exactly when `parseFloat` of the percentage is above 30 (`Infinity` is), and positive when it is not, NaN and `-Infinity` included. |
| IpoTable.BadgeOfStoredPercentage | client/src/components/ipo-table.tsx:77-89 | For a percentage as ingestion stores it, the badge is never neutral, and high exactly when the number is above 30. |
| IpoTable.BadgeReadsExponent | client/src/components/ipo-table.tsx:82-83 | A percentage with an exponent is high exactly when the scaled number is above 30. |
| IpoTable.ActionFor | client/src/components/ipo-table.tsx:32-75 | The decision table, one iff per action: open → Apply; upcoming → Pre-Apply when `isPreApply`, else disabled Upcoming; closed → Check Allotment with the link when there is one, else disabled Waiting; any other status → disabled N/A. |
| IpoTable.ActionEnabledIff | client/src/components/ipo-table.tsx:32-75 | The button is enabled exactly for an open issue, a pre-apply upcoming one, and a closed one with an allotment link. |
| IpoTable.StatusClassMatchesAction | client/src/components/ipo-table.tsx:23-75 | A row has a status colour exactly when its button is not "N/A". |
| IpoFilters.FilterCount | client/src/components/ipo-filters.tsx:22-32 | No count without stats or for an unknown key. "all", "open", "upcoming" and "closed" map to the total and the three status counts. |
| IpoFilters.CountMatchesListing | client/src/components/ipo-filters.tsx:22-32 | Each tab's count equals the number of rows listed under it. |
| IpoFilters.ListedFor | server/routes.ts:15-22 | Under "all" and under an empty key (no status sent, a falsy status ignored) the listing is every record, as `getAllIpos` gives it. Under any other key it is the records with exactly that status, in listing order. It is newest first and never longer than the full listing. |
| IpoFilters.KeyClass | client/src/components/ipo-filters.tsx:39-48 | Open and upcoming tabs have their own colours; closed and unknown keys share the gray one; none is the active colour. |
| IpoFilters.FilterClass | client/src/components/ipo-filters.tsx:34-49 | The active colour exactly for the active key; otherwise the per-key colour. |
| IpoFilters.OneTabHighlighted | client/src/components/ipo-filters.tsx:14-37 | A tab is highlighted exactly when it is the active filter; with an unknown active filter none is. |
| IpoFilters.ClosedLooksLikeUnknown | client/src/components/ipo-filters.tsx:44-47 | An inactive "closed" tab looks like an unknown key. |

## Left out

- The HTTP request, its headers and the JSON decoding are not modelled. The
  fetch's result is a `Batch.Response`: the `ok` flag and the `data` member when it
  is an array. Logging, `async`, the startup trigger, and reads that run
  concurrently with a sync are also left out.
- Clocks: `new Date()` becomes a caller-supplied instant. `premium_last_updated_at`
  is kept as its text; `new Date(…)` parsing is not modelled.
- Floating point:
  - `avgPremium` and its `toFixed(1)` are not modelled;
  - percentages are exact decimals (`real`);
  - number rendering has no exponent form, no `Infinity` and no rounding beyond 15
    significant digits.
- Decimal.ParseFloat: values are exact reals. A magnitude that overflows a double
  (`1e400`) is not turned into `Infinity`, one that underflows is not turned into
  0, and there is no rounding to the nearest double.
- Scraped numbers are integers (`JsValue.Num(int)`); a fractional price or lot size,
  and objects or arrays as field values, are not modelled.
- Raw items are typed per key. Text keys hold strings, `lot_size` a number, and the
  flags booleans; a value of another type is stored unconverted by `parseAndStoreIpo`, and
  the model does not represent that case. A non-null primitive array element
  (a number or a string) is treated as an item with every key absent.
- Lower-casing is ASCII only; Unicode `toLowerCase` is not modelled.
- Patches: a key supplied with the value `undefined` is treated as not supplied.
- `MemStorage` does not apply the table defaults, and neither does the model.
  `Schema.FlagDefault` records the column default, which the `|| false` fallback of
  the normaliser agrees with (`Ingest.Flag`).
- Express handlers (HTTP status mapping, query parsing) are not modelled. Only the
  status-or-all choice used by `IpoFilters.ListedFor` is kept.
- React rendering, page and filter state in the home page, the search debounce, the
  contact form, SEO data, the sitemap and the static pages are not modelled.
- Each badge is reduced to its class. The badge text `+premium (pct%)` is not
  rendered.
- `Storage.GetAllContacts`: states order, permutation and count, but not the
  membership iff that `Storage.GetAllIpos` states.

## Findings

| source | as written | input that shows it | evidently intended | confidence | as-written member | corrected member |
|---|---|---|---|---|---|---|
| client/src/components/ipo-table.tsx:281-285 | The page counter (`useState(1)` at line 15) is never reset when a new filter or query shrinks the list, and Next is disabled only when `currentPage === totalPages`. | 25 rows, go to page 3, then pick a tab with 5 rows. The table is empty, the caption reads "Showing 21 to 5 of 5", and Next stays enabled, going on to further empty pages. | Next disabled on the last page and on every page past it (`currentPage >= totalPages`); then Next is enabled exactly when the next page has rows. | medium, not executed | IpoTable.NextPastLastPage | IpoTable.NextEnabledIffNextPage |

=== FILE: batch.dfy ===
/** The per-item loop of `fetchAndSyncIpos` and the counting part of `getIpoStats`.
    The fetch itself is replaced by an already-decoded response; the instant at
    which entry `i` is stored is `clock(i)`. */
module Batch {
  import opened Wrappers
  import opened Schema
  import opened Storage
  import Ingest
  import Ordering

  // ---------------------------------------------------------------------------
  // The per-item loop

  /** The loop is stated for any per-item parser; `parseAndStoreIpo` uses
      `Ingest.Normalize`. */
  type Parser = Ingest.RawEntry -> Result<InsertIpo, Ingest.ParseError>

  /** The parser throws on a null element and on nothing else. */
  ghost predicate FailsOnNullOnly(norm: Parser) {
    forall e :: norm(e).Err? <==> e.NullEntry?
  }

  lemma {:induction false} NormalizeFailsOnNullOnly()
    ensures FailsOnNullOnly(Ingest.Normalize)
  {
  }

  /** `parseAndStoreIpo` on one entry: a failing entry is logged and stores
      nothing. */
  function StoreEntry(st: MemStorage, e: Ingest.RawEntry, now: nat, norm: Parser): (st': MemStorage)
    ensures norm(e).Err? ==> st' == st
    ensures norm(e).Ok? ==> st' == CreateIpo(st, norm(e).value, now).0
  {
    match norm(e)
    case Ok(x) => CreateIpo(st, x, now).0
    case Err(_) => st
  }

  /** The loop from entry `from` on, in array order. */
  function SyncFrom(st: MemStorage, entries: seq<Ingest.RawEntry>, clock: nat -> nat, from: nat, norm: Parser): (st': MemStorage)
    ensures st'.users == st.users && st'.contacts == st.contacts
    ensures st'.currentUserId == st.currentUserId && st'.currentContactId == st.currentContactId
    ensures st'.currentIpoId == st.currentIpoId + |Successes(entries, from, norm)|
    decreases |entries| - from
  {
    if from >= |entries| then st
    else SyncFrom(StoreEntry(st, entries[from], clock(from), norm), entries, clock, from + 1, norm)
  }

  /** The records parsed from entry `from` on, each with its entry's position;
      entries whose parsing fails are skipped. */
  function Successes(entries: seq<Ingest.RawEntry>, from: nat, norm: Parser): (s: seq<(nat, InsertIpo)>)
    ensures |s| <= |entries| - from || from > |entries|
    ensures forall k :: 0 <= k < |s| ==> from <= s[k].0 < |entries|
    ensures forall k :: 0 <= k < |s| ==> norm(entries[s[k].0]) == Ok(s[k].1)
    ensures forall k, l :: 0 <= k < l < |s| ==> s[k].0 < s[l].0
    decreases |entries| - from
  {
    if from >= |entries| then []
    else
      match norm(entries[from])
      case Ok(x) => [(from, x)] + Successes(entries, from + 1, norm)
      case Err(_) => Successes(entries, from + 1, norm)
  }

  /** Every entry from `from` on that parses has its record in the list. */
  lemma {:induction false} SuccessesComplete(entries: seq<Ingest.RawEntry>, from: nat, norm: Parser, i: nat)
    requires from <= i < |entries| && norm(entries[i]).Ok?
    ensures (i, norm(entries[i]).value) in Successes(entries, from, norm)
    decreases |entries| - from
  {
    var s := Successes(entries, from, norm);
    if i == from {
      assert s[0] == (i, norm(entries[i]).value);
    } else {
      SuccessesComplete(entries, from + 1, norm, i);
      var s1 := Successes(entries, from + 1, norm);
      assert s == s1 || s == [(from, norm(entries[from]).value)] + s1;
    }
  }

  /** The number of entries from `from` on that are null. */
  function NullCount(entries: seq<Ingest.RawEntry>, from: nat): nat
    decreases |entries| - from
  {
    if from >= |entries| then 0
    else (if entries[from].NullEntry? then 1 else 0) + NullCount(entries, from + 1)
  }

  /** Every entry is either parsed or null. */
  lemma {:induction false} SuccessCount(entries: seq<Ingest.RawEntry>, from: nat, norm: Parser)
    requires from <= |entries|
    requires FailsOnNullOnly(norm)
    ensures |Successes(entries, from, norm)| + NullCount(entries, from) == |entries| - from
    decreases |entries| - from
  {
    if from < |entries| {
      SuccessCount(entries, from + 1, norm);
      if entries[from].NullEntry? {
        assert Successes(entries, from, norm) == Successes(entries, from + 1, norm);
      } else {
        assert |Successes(entries, from, norm)| == 1 + |Successes(entries, from + 1, norm)|;
      }
    }
  }

  /** Every record of `st` is still in `st'`, unchanged. */
  ghost predicate Keeps(st: MemStorage, st': MemStorage) {
    forall k :: k in st.ipos ==> k in st'.ipos && st'.ipos[k] == st.ipos[k]
  }

  /** The only new keys of `st'` are the `n` ids from `st`'s counter on. */
  ghost predicate NewKeysFrom(st: MemStorage, st': MemStorage, n: nat) {
    forall k :: k in st'.ipos ==> k in st.ipos || st.currentIpoId <= k < st.currentIpoId + n
  }

  /** The `j`-th parsed record is stored under the `j`-th new id, stamped with the
      instant of its entry. */
  ghost predicate StoredInOrder(st: MemStorage, st': MemStorage, s: seq<(nat, InsertIpo)>, clock: nat -> nat) {
    forall j :: 0 <= j < |s| ==> StoredAtIndex(st.currentIpoId, st', s, clock, j)
  }

  /** The `j`-th parsed record sits under id `base + j`. */
  ghost predicate StoredAtIndex(base: nat, st': MemStorage, s: seq<(nat, InsertIpo)>, clock: nat -> nat, j: nat)
    requires j < |s|
  {
    base + j in st'.ipos
    && st'.ipos[base + j] == Ipo(base + j, s[j].1, clock(s[j].0), clock(s[j].0))
  }

  /** The records the loop adds, relative to the state before it. */
  ghost predicate Added(st: MemStorage, st': MemStorage, s: seq<(nat, InsertIpo)>, clock: nat -> nat) {
    && st'.currentIpoId == st.currentIpoId + |s|
    && |st'.ipos| == |st.ipos| + |s|
    && st'.users == st.users && st'.contacts == st.contacts
    && st'.currentUserId == st.currentUserId && st'.currentContactId == st.currentContactId
    && Keeps(st, st')
    && NewKeysFrom(st, st', |s|)
    && StoredInOrder(st, st', s, clock)
  }

  /** The loop adds one record per parsed entry, in order, with consecutive new
      ids; failing entries are skipped without stopping the loop, and earlier
      records are untouched. */
  lemma {:induction false} SyncAdds(st: MemStorage, entries: seq<Ingest.RawEntry>, clock: nat -> nat, from: nat,
                                    norm: Parser)
    requires Valid(st)
    ensures Valid(SyncFrom(st, entries, clock, from, norm))
    ensures Added(st, SyncFrom(st, entries, clock, from, norm), Successes(entries, from, norm), clock)
    decreases |entries| - from
  {
    if from < |entries| {
      var st1 := StoreEntry(st, entries[from], clock(from), norm);
      SyncAdds(st1, entries, clock, from + 1, norm);
      var st' := SyncFrom(st, entries, clock, from, norm);
      var s1 := Successes(entries, from + 1, norm);
      assert st' == SyncFrom(st1, entries, clock, from + 1, norm);
      match norm(entries[from])
      case Ok(x) =>
        assert Successes(entries, from, norm) == [(from, x)] + s1;
        AddedStep(st, st', x, from, s1, clock);
      case Err(_) =>
        assert Successes(entries, from, norm) == s1;
    }
  }

  /** One stored record followed by the rest of the loop. */
  lemma {:induction false} AddedStep(st: MemStorage, st': MemStorage, x: InsertIpo, i: nat, s1: seq<(nat, InsertIpo)>, clock: nat -> nat)
    requires Valid(st)
    requires Added(CreateIpo(st, x, clock(i)).0, st', s1, clock)
    ensures Added(st, st', [(i, x)] + s1, clock)
  {
    var st1 := CreateIpo(st, x, clock(i)).0;
    var base := st.currentIpoId;
    assert st1.ipos == st.ipos[base := Ipo(base, x, clock(i), clock(i))];
    assert base !in st.ipos;
    KeepsStep(st, st1, st');
    NewKeysStep(st, st1, st', |s1|);
    StoredStep(st, st1, st', x, i, s1, clock);
  }

  lemma {:induction false} KeepsStep(st: MemStorage, st1: MemStorage, st': MemStorage)
    requires Keeps(st, st1) && Keeps(st1, st')
    ensures Keeps(st, st')
  {
  }

  lemma {:induction false} NewKeysStep(st: MemStorage, st1: MemStorage, st': MemStorage, n: nat)
    requires st1.currentIpoId == st.currentIpoId + 1
    requires forall k :: k in st1.ipos ==> k in st.ipos || k == st.currentIpoId
    requires NewKeysFrom(st1, st', n)
    ensures NewKeysFrom(st, st', n + 1)
  {
  }

  lemma {:induction false} StoredStep(st: MemStorage, st1: MemStorage, st': MemStorage, x: InsertIpo, i: nat,
                   s1: seq<(nat, InsertIpo)>, clock: nat -> nat)
    requires st1.currentIpoId == st.currentIpoId + 1
    requires st.currentIpoId in st1.ipos
    requires st1.ipos[st.currentIpoId] == Ipo(st.currentIpoId, x, clock(i), clock(i))
    requires Keeps(st1, st')
    requires StoredInOrder(st1, st', s1, clock)
    ensures StoredInOrder(st, st', [(i, x)] + s1, clock)
  {
    var base := st.currentIpoId;
    var s := [(i, x)] + s1;
    forall j | 0 <= j < |s|
      ensures StoredAtIndex(base, st', s, clock, j)
    {
      if j > 0 {
        assert StoredAtIndex(base + 1, st', s1, clock, j - 1);
        assert s[j] == s1[j - 1];
        assert base + j == (base + 1) + (j - 1);
      } else {
        assert s[0] == (i, x);
      }
    }
  }

  /** The whole batch with the parser of `parseAndStoreIpo`. */
  function SyncAll(st: MemStorage, entries: seq<Ingest.RawEntry>, clock: nat -> nat): (st': MemStorage)
    requires Valid(st)
    ensures Valid(st')
    ensures Added(st, st', Successes(entries, 0, Ingest.Normalize), clock)
    ensures |st'.ipos| == |st.ipos| + |entries| - NullCount(entries, 0)
  {
    SyncAdds(st, entries, clock, 0, Ingest.Normalize);
    NormalizeFailsOnNullOnly();
    SuccessCount(entries, 0, Ingest.Normalize);
    SyncFrom(st, entries, clock, 0, Ingest.Normalize)
  }

  /** Five entries of which the third is null leave four new records, for any
      parser that fails exactly on null entries (as `Ingest.Normalize` does). */
  lemma {:induction false} SkipsFailingEntry(st: MemStorage, entries: seq<Ingest.RawEntry>, clock: nat -> nat, norm: Parser)
    requires Valid(st) && FailsOnNullOnly(norm)
    requires |entries| == 5 && entries[2].NullEntry?
    requires entries[0].Entry? && entries[1].Entry? && entries[3].Entry? && entries[4].Entry?
    ensures |SyncFrom(st, entries, clock, 0, norm).ipos| == |st.ipos| + 4
  {
    SyncAdds(st, entries, clock, 0, norm);
    SuccessCount(entries, 0, norm);
    assert NullCount(entries, 5) == 0;
    assert NullCount(entries, 4) == 0;
    assert NullCount(entries, 3) == 0;
    assert NullCount(entries, 2) == 1;
  }

  /** Unfolds the record list at an entry that parses. */
  lemma {:induction false} SuccessesAtEntry(entries: seq<Ingest.RawEntry>, from: nat, norm: Parser)
    requires from < |entries| && norm(entries[from]).Ok?
    ensures Successes(entries, from, norm) == [(from, norm(entries[from]).value)] + Successes(entries, from + 1, norm)
  {
  }

  /** When every entry parses, every entry gives a record, in order. */
  lemma {:induction false} AllEntriesSucceed(entries: seq<Ingest.RawEntry>, from: nat, norm: Parser)
    requires from <= |entries|
    requires forall i :: from <= i < |entries| ==> norm(entries[i]).Ok?
    ensures |Successes(entries, from, norm)| == |entries| - from
    ensures forall k :: 0 <= k < |entries| - from ==>
              Successes(entries, from, norm)[k] == (from + k, norm(entries[from + k]).value)
    decreases |entries| - from
  {
    if from < |entries| {
      AllEntriesSucceed(entries, from + 1, norm);
      SuccessesAtEntry(entries, from, norm);
      var s1 := Successes(entries, from + 1, norm);
      var s := Successes(entries, from, norm);
      forall k | 0 <= k < |entries| - from
        ensures s[k] == (from + k, norm(entries[from + k]).value)
      {
        if k > 0 {
          assert s[k] == s1[k - 1];
          assert s1[k - 1] == (from + 1 + (k - 1), norm(entries[from + 1 + (k - 1)]).value);
          assert from + 1 + (k - 1) == from + k;
        } else {
          assert s[0] == (from, norm(entries[from]).value);
        }
      }
    }
  }

  /** Two equal entries are both stored, under two consecutive ids with equal
      data: the loop does not deduplicate. */
  lemma {:induction false} NoDeduplication(st: MemStorage, entries: seq<Ingest.RawEntry>, clock: nat -> nat, norm: Parser)
    requires Valid(st) && FailsOnNullOnly(norm)
    requires |entries| == 2 && entries[0] == entries[1] && entries[0].Entry?
    ensures var st' := SyncFrom(st, entries, clock, 0, norm);
            var base := st.currentIpoId;
            && base in st'.ipos && base + 1 in st'.ipos
            && st'.ipos[base].data == st'.ipos[base + 1].data
  {
    TwoEqualParsed(entries, norm);
    SyncAdds(st, entries, clock, 0, norm);
    EqualPairStored(st, SyncFrom(st, entries, clock, 0, norm), Successes(entries, 0, norm), clock);
  }

  lemma {:induction false} EqualPairStored(st: MemStorage, st': MemStorage, s: seq<(nat, InsertIpo)>, clock: nat -> nat)
    requires StoredInOrder(st, st', s, clock)
    requires |s| == 2 && s[0].1 == s[1].1
    ensures st.currentIpoId in st'.ipos && st.currentIpoId + 1 in st'.ipos
    ensures st'.ipos[st.currentIpoId].data == st'.ipos[st.currentIpoId + 1].data
  {
    StoredAt(st, st', s, clock, 0);
    StoredAt(st, st', s, clock, 1);
  }

  lemma {:induction false} TwoEqualParsed(entries: seq<Ingest.RawEntry>, norm: Parser)
    requires FailsOnNullOnly(norm)
    requires |entries| == 2 && entries[0] == entries[1] && entries[0].Entry?
    ensures |Successes(entries, 0, norm)| == 2
    ensures Successes(entries, 0, norm)[0].1 == Successes(entries, 0, norm)[1].1
  {
    assert norm(entries[0]).Ok? && norm(entries[1]).Ok?;
    AllEntriesSucceed(entries, 0, norm);
    var s := Successes(entries, 0, norm);
    assert s[0] == (0, norm(entries[0]).value) && s[1] == (1, norm(entries[1]).value);
  }

  lemma {:induction false} StoredAt(st: MemStorage, st': MemStorage, s: seq<(nat, InsertIpo)>, clock: nat -> nat, j: nat)
    requires StoredInOrder(st, st', s, clock) && j < |s|
    ensures st.currentIpoId + j in st'.ipos
    ensures st'.ipos[st.currentIpoId + j].data == s[j].1
  {
    assert StoredAtIndex(st.currentIpoId, st', s, clock, j);
  }

  // ---------------------------------------------------------------------------
  // fetchAndSyncIpos around the loop

  /** What the fetch produced: the HTTP outcome and the `data` member of the decoded
      JSON body, `None` when it is missing or not an array. */
  datatype Response = Response(ok: bool, data: Option<seq<Ingest.RawEntry>>)

  datatype SyncError = FetchFailed | InvalidResponse

  /** A failed request and a malformed envelope throw before anything is stored;
      otherwise every entry goes through the loop. */
  function FetchAndSync(st: MemStorage, resp: Response, clock: nat -> nat): (r: Result<MemStorage, SyncError>)
    requires Valid(st)
    ensures !resp.ok <==> r == Err(FetchFailed)
    ensures resp.ok && resp.data.None? <==> r == Err(InvalidResponse)
    ensures r.Ok? ==> resp.data.Some? && Valid(r.value) && Added(st, r.value, Successes(resp.data.value, 0, Ingest.Normalize), clock)
  {
    if !resp.ok then Err(FetchFailed)
    else if resp.data.None? then Err(InvalidResponse)
    else Ok(SyncAll(st, resp.data.value, clock))
  }

  // ---------------------------------------------------------------------------
  // getIpoStats (counts)

  datatype Stats = Stats(totalIpos: nat, openIpos: nat, upcomingIpos: nat, closedIpos: nat)

  /** The four counts; `avgPremium` is not modelled. */
  function GetIpoStats(st: MemStorage): (r: Stats)
    ensures r.totalIpos == |GetAllIpos(st)|
    ensures Valid(st) ==> r.totalIpos == |st.ipos|
    ensures r.openIpos == |GetIposByStatus(st, "open")|
    ensures r.upcomingIpos == |GetIposByStatus(st, "upcoming")|
    ensures r.closedIpos == |GetIposByStatus(st, "closed")|
    ensures r.openIpos + r.upcomingIpos + r.closedIpos <= r.totalIpos
  {
    var all := GetAllIpos(st);
    Ordering.DisjointCounts(all, HasStatus("open"), HasStatus("upcoming"), HasStatus("closed"));
    Stats(|all|,
          |Ordering.Filter(all, HasStatus("open"))|,
          |Ordering.Filter(all, HasStatus("upcoming"))|,
          |Ordering.Filter(all, HasStatus("closed"))|)
  }

  /** The statuses the three counters look for. */
  predicate Counted(r: Ipo) {
    r.data.currentStatus == "open" || r.data.currentStatus == "upcoming" || r.data.currentStatus == "closed"
  }

  /** The three counts add up to the total exactly when every record is open,
      upcoming or closed; a record with status "unknown" makes the sum fall short. */
  lemma {:induction false} StatsSumIff(st: MemStorage)
    requires Valid(st)
    ensures var r := GetIpoStats(st);
            r.openIpos + r.upcomingIpos + r.closedIpos == r.totalIpos
            <==> forall k :: k in st.ipos ==> Counted(st.ipos[k])
  {
    var all := GetAllIpos(st);
    var r := GetIpoStats(st);
    var o, u, c := HasStatus("open"), HasStatus("upcoming"), HasStatus("closed");
    assert r.openIpos == |Ordering.Filter(all, o)|;
    assert r.upcomingIpos == |Ordering.Filter(all, u)|;
    assert r.closedIpos == |Ordering.Filter(all, c)|;
    assert r.totalIpos == |all|;
    Ordering.DisjointCounts(all, o, u, c);
    CountedIff(st, all);
  }

  lemma {:induction false} CountedIff(st: MemStorage, all: seq<Ipo>)
    requires Valid(st)
    requires forall x :: x in all <==> x.id in st.ipos && st.ipos[x.id] == x
    ensures (forall x :: x in all ==> HasStatus("open")(x) || HasStatus("upcoming")(x) || HasStatus("closed")(x))
            <==> forall k :: k in st.ipos ==> Counted(st.ipos[k])
  {
    if forall k :: k in st.ipos ==> Counted(st.ipos[k]) {
      forall x | x in all
        ensures HasStatus("open")(x) || HasStatus("upcoming")(x) || HasStatus("closed")(x)
      {
        assert Counted(st.ipos[x.id]);
      }
    }
    if forall x :: x in all ==> HasStatus("open")(x) || HasStatus("upcoming")(x) || HasStatus("closed")(x) {
      forall k | k in st.ipos
        ensures Counted(st.ipos[k])
      {
        assert st.ipos[k].id == k;
        assert st.ipos[k] in all;
      }
    }
  }

  /** An empty store has all counts zero. */
  lemma {:induction false} EmptyStats()
    ensures GetIpoStats(NewStorage()) == Stats(0, 0, 0, 0)
  {
  }
}

=== FILE: decimal.dfy ===
/** Decimal numbers as the ingestion code meets them: `parseFloat` applied to a run of
    digits and dots, the JavaScript rendering of the resulting number, and the exact
    value, kept as a `real` so that no floating-point rounding enters the model. */
module Decimal {
  import opened Wrappers
  import opened Text

  /** An unsigned decimal literal `whole.frac`; either part may be empty. */
  datatype Dec = Dec(whole: string, frac: string)

  predicate Valid(d: Dec) {
    AllDigits(d.whole) && AllDigits(d.frac)
  }

  function Pow10(n: nat): (r: nat)
    ensures r >= 1
  {
    if n == 0 then 1 else 10 * Pow10(n - 1)
  }

  /** The exact number a literal denotes. */
  function Value(d: Dec): (v: real)
    requires Valid(d)
    ensures v >= 0.0
  {
    var q := Pow10(|d.frac|) as real;
    assert DigitsValue(d.frac) as real / q >= 0.0;
    DigitsValue(d.whole) as real + DigitsValue(d.frac) as real / q
  }

  // ---------------------------------------------------------------------------
  // parseFloat

  /** `parseFloat(s)` for a string made only of digits and dots (the text the
      percentage pattern captures): the longest prefix of the form `digits[.digits]`
      containing at least one digit; `None` is `NaN`. */
  function ParseUnsigned(s: string): (r: Option<Dec>)
    ensures r.Some? ==> Valid(r.value)
    ensures r.Some? <==> DigitPrefix(s) > 0
                         || (DigitPrefix(s) < |s| && s[DigitPrefix(s)] == '.'
                             && DigitPrefix(s[DigitPrefix(s) + 1..]) > 0)
    ensures r.Some? ==> r.value.whole == s[..DigitPrefix(s)]
    ensures r.Some? && r.value.frac != [] ==>
              var w := DigitPrefix(s);
              w < |s| && s[w] == '.' && r.value.frac == s[w + 1..w + 1 + DigitPrefix(s[w + 1..])]
    ensures r.Some? && r.value.frac == [] ==>
              var w := DigitPrefix(s);
              !(w < |s| && s[w] == '.' && DigitPrefix(s[w + 1..]) > 0)
  {
    var w := DigitPrefix(s);
    DigitRunSlice(s, 0, w);
    assert s[..w] == s[0..w];
    if w < |s| && s[w] == '.' then
      var rest := s[w + 1..];
      var k := DigitPrefix(rest);
      DigitRunSlice(rest, 0, k);
      assert rest[..k] == rest[0..k] == s[w + 1..w + 1 + k];
      if w == 0 && k == 0 then None else Some(Dec(s[..w], rest[..k]))
    else
      if w == 0 then None else Some(Dec(s[..w], []))
  }

  /** A slice of a digit run is a digit string. */
  lemma {:induction false} DigitRunSlice(s: string, i: nat, e: nat)
    requires i <= e <= |s|
    requires forall m :: i <= m < e ==> IsDigit(s[m])
    ensures AllDigits(s[i..e])
  {
    forall m | 0 <= m < e - i
      ensures IsDigit(s[i..e][m])
    {
      assert s[i..e][m] == s[i + m];
    }
  }

  /** A JavaScript number as `parseFloat` can return it. */
  datatype Number = NaN | Finite(value: real) | Infinity(negative: bool)

  /** The length of the `digits[.digits]` literal that `ParseUnsigned` reads; a dot
      right after the whole part belongs to it even without fraction digits. */
  function LiteralEnd(s: string): (n: nat)
    requires ParseUnsigned(s).Some?
    ensures 0 < n <= |s|
    ensures n >= DigitPrefix(s)
  {
    var w := DigitPrefix(s);
    if w < |s| && s[w] == '.' then w + 1 + DigitPrefix(s[w + 1..]) else w
  }

  /** The exponent `(e|E)[+-]?digits` at position `p`, or 0 when there is none,
      including when the letter is not followed by a digit. */
  function ExponentAt(s: string, p: nat): (e: int)
    ensures e != 0 ==> p < |s| && (s[p] == 'e' || s[p] == 'E')
  {
    if p < |s| && (s[p] == 'e' || s[p] == 'E') then
      var r := s[p + 1..];
      var u := SignFree(r);
      var k := DigitPrefix(u);
      DigitRunSlice(u, 0, k);
      if k == 0 then 0
      else if r[0] == '-' then -(DigitsValue(u[0..k]) as int)
      else DigitsValue(u[0..k])
    else 0
  }

  /** `v` times ten to the power `e`, one decimal place at a time. */
  function Scale(v: real, e: int): (r: real)
    ensures v >= 0.0 ==> r >= 0.0
    decreases if e >= 0 then e else -e
  {
    if e == 0 then v
    else if e > 0 then Scale(v, e - 1) * 10.0
    else Scale(v, e + 1) / 10.0
  }

  /** A zero exponent leaves the value alone. */
  lemma {:induction false} ScaleZero(v: real)
    ensures Scale(v, 0) == v
  {
  }

  /** A non-negative exponent multiplies by a power of ten. */
  lemma {:induction false} ScaleUp(v: real, n: nat)
    ensures Scale(v, n) == v * Pow10(n) as real
  {
    if n > 0 {
      ScaleUp(v, n - 1);
      assert Pow10(n) as real == 10.0 * Pow10(n - 1) as real;
    }
  }

  /** The text after leading whitespace starts with a minus sign. */
  predicate MinusSign(s: string) {
    TrimStart(s) != [] && TrimStart(s)[0] == '-'
  }

  /** `parseFloat(s)`: leading whitespace is skipped and one sign is honoured; then
      either `Infinity`, or the longest prefix `digits[.digits][(e|E)[+-]digits]`
      with at least one digit before the exponent; anything else is `NaN`. */
  function ParseFloat(s: string): (r: Number)
    ensures r.Infinity? <==> StartsWith(SignFree(TrimStart(s)), "Infinity")
    ensures r.Infinity? ==> r.negative == MinusSign(s)
    ensures r.NaN? <==> !StartsWith(SignFree(TrimStart(s)), "Infinity")
                        && ParseUnsigned(SignFree(TrimStart(s))).None?
    ensures r.Finite? ==>
              var u := SignFree(TrimStart(s));
              ParseUnsigned(u).Some?
              && var m := Scale(Value(ParseUnsigned(u).value), ExponentAt(u, LiteralEnd(u)));
                 r.value == if MinusSign(s) then -m else m
    ensures r.Finite? && MinusSign(s) ==> r.value <= 0.0
    ensures r.Finite? && !MinusSign(s) ==> r.value >= 0.0
  {
    var x := Magnitude(SignFree(TrimStart(s)));
    if MinusSign(s) then Negate(x) else x
  }

  /** The number an unsigned literal denotes: `Infinity`, a scaled decimal, or `NaN`. */
  function Magnitude(u: string): (r: Number)
    ensures r.Infinity? <==> StartsWith(u, "Infinity")
    ensures r.Infinity? ==> !r.negative
    ensures r.NaN? <==> !StartsWith(u, "Infinity") && ParseUnsigned(u).None?
    ensures r.Finite? ==>
              ParseUnsigned(u).Some?
              && r.value == Scale(Value(ParseUnsigned(u).value), ExponentAt(u, LiteralEnd(u)))
    ensures r.Finite? ==> r.value >= 0.0
  {
    if StartsWith(u, "Infinity") then Infinity(false)
    else
      match ParseUnsigned(u)
      case None => NaN
      case Some(d) => Finite(Scale(Value(d), ExponentAt(u, LiteralEnd(u))))
  }

  /** Unary minus on a number. */
  function Negate(x: Number): (r: Number)
    ensures r.NaN? <==> x.NaN?
    ensures r.Finite? <==> x.Finite?
    ensures r.Finite? ==> r.value == -x.value
    ensures r.Infinity? <==> x.Infinity?
    ensures r.Infinity? ==> r.negative != x.negative
  {
    match x
    case NaN => NaN
    case Finite(v) => Finite(-v)
    case Infinity(n) => Infinity(!n)
  }

  /** The text after an optional leading sign. */
  function SignFree(t: string): (u: string)
    ensures |u| <= |t|
  {
    if t != [] && (t[0] == '-' || t[0] == '+') then t[1..] else t
  }

  // ---------------------------------------------------------------------------
  // Number.prototype.toString

  function StripLeadingZeros(s: string): (r: string)
    ensures |r| <= |s| && r == s[|s| - |r|..]
    ensures forall i :: 0 <= i < |s| - |r| ==> s[i] == '0'
    ensures r == [] || r[0] != '0'
  {
    if s != [] && s[0] == '0' then StripLeadingZeros(s[1..]) else s
  }

  function StripTrailingZeros(s: string): (r: string)
    ensures |r| <= |s| && r == s[..|r|]
    ensures forall i :: |r| <= i < |s| ==> s[i] == '0'
    ensures r == [] || r[|r| - 1] != '0'
  {
    if s != [] && s[|s| - 1] == '0' then StripTrailingZeros(s[..|s| - 1]) else s
  }

  /** The canonical literal of a number: no superfluous leading zero in the whole part,
      no trailing zero in the fraction, and no fraction at all for an integer. */
  function Canonical(d: Dec): (c: Dec)
    requires Valid(d)
    ensures Valid(c) && c.whole != []
    ensures |c.whole| > 1 ==> c.whole[0] != '0'
    ensures c.frac == [] || c.frac[|c.frac| - 1] != '0'
  {
    var w := StripLeadingZeros(d.whole);
    Dec(if w == [] then "0" else w, StripTrailingZeros(d.frac))
  }

  /** The text JavaScript prints for the number (plain decimal notation). */
  function Render(d: Dec): (s: string)
    requires Valid(d)
    ensures s != [] && IsDigit(s[0])
  {
    var c := Canonical(d);
    var s := c.whole + (if c.frac == [] then "" else "." + c.frac);
    assert s[0] == c.whole[0];
    s
  }

  // ---------------------------------------------------------------------------
  // Lemmas

  lemma {:induction false} Pow10Add(a: nat, b: nat)
    ensures Pow10(a + b) == Pow10(a) * Pow10(b)
    decreases b
  {
    if b > 0 {
      Pow10Add(a, b - 1);
    }
  }

  /** The value of a concatenation of digit strings. */
  lemma {:induction false} DigitsValueAppend(a: string, b: string)
    requires AllDigits(a) && AllDigits(b)
    ensures AllDigits(a + b)
    ensures DigitsValue(a + b) == DigitsValue(a) * Pow10(|b|) + DigitsValue(b)
    decreases |b|
  {
    var ab := a + b;
    if b == [] {
      assert ab == a;
    } else {
      var b' := b[..|b| - 1];
      assert ab[..|ab| - 1] == a + b';
      assert ab[|ab| - 1] == b[|b| - 1];
      DigitsValueAppend(a, b');
      var d := DigitValue(b[|b| - 1]);
      assert DigitsValue(ab) == DigitsValue(a + b') * 10 + d;
      assert DigitsValue(b) == DigitsValue(b') * 10 + d;
      assert Pow10(|b|) == 10 * Pow10(|b'|);
      ShiftDigit(DigitsValue(a), Pow10(|b'|), DigitsValue(b'), d);
    }
  }

  /** Appending one digit to `x * p + y` multiplies both terms by ten. */
  lemma {:induction false} ShiftDigit(x: nat, p: nat, y: nat, d: nat)
    ensures (x * p + y) * 10 + d == x * (10 * p) + (y * 10 + d)
  {
  }

  /** A digit string denotes zero exactly when it is all zeros. */
  lemma {:induction false} DigitsValueZero(s: string)
    requires AllDigits(s)
    ensures DigitsValue(s) == 0 <==> forall i :: 0 <= i < |s| ==> s[i] == '0'
    decreases |s|
  {
    if s != [] {
      var p := s[..|s| - 1];
      DigitsValueZero(p);
      if DigitsValue(s) == 0 {
        forall i | 0 <= i < |s|
          ensures s[i] == '0'
        {
          if i < |s| - 1 {
            assert s[i] == p[i];
          }
        }
      }
      if forall i :: 0 <= i < |s| ==> s[i] == '0' {
        forall i | 0 <= i < |p|
          ensures p[i] == '0'
        {
          assert p[i] == s[i];
        }
      }
    }
  }

  /** Removing leading zeros keeps the value of the whole part. */
  lemma {:induction false} LeadingZerosKeepValue(s: string)
    requires AllDigits(s)
    ensures DigitsValue(StripLeadingZeros(s)) == DigitsValue(s)
  {
    var r := StripLeadingZeros(s);
    var z := s[..|s| - |r|];
    assert s == z + r;
    assert forall i :: 0 <= i < |z| ==> z[i] == '0' by {
      forall i | 0 <= i < |z| ensures z[i] == '0' {
        assert z[i] == s[i];
      }
    }
    ZeroPrefixValue(z, r);
  }

  /** Zeros in front of a digit string do not change its value. */
  lemma {:induction false} ZeroPrefixValue(z: string, r: string)
    requires AllDigits(r)
    requires forall i :: 0 <= i < |z| ==> z[i] == '0'
    ensures AllDigits(z + r) && DigitsValue(z + r) == DigitsValue(r)
  {
    assert AllDigits(z);
    DigitsValueZero(z);
    DigitsValueAppend(z, r);
    var v := DigitsValue(z);
    assert v == 0;
    assert v * Pow10(|r|) == 0;
  }

  /** Removing trailing zeros keeps the value of the fraction. */
  lemma {:induction false} TrailingZerosKeepValue(s: string)
    requires AllDigits(s)
    ensures DigitsValue(StripTrailingZeros(s)) as real / Pow10(|StripTrailingZeros(s)|) as real
         == DigitsValue(s) as real / Pow10(|s|) as real
  {
    var r := StripTrailingZeros(s);
    var z := s[|r|..];
    assert s == r + z;
    DigitsValueAppend(r, z);
    DigitsValueZero(z);
    Pow10Add(|r|, |z|);
    var n := DigitsValue(r);
    var p := Pow10(|r|);
    var q := Pow10(|z|);
    assert DigitsValue(s) == n * q;
    assert Pow10(|s|) == p * q;
    CancelFactor(n, p, q);
  }

  lemma {:induction false} CancelFactor(n: nat, p: nat, q: nat)
    requires p >= 1 && q >= 1
    ensures (n * q) as real / (p * q) as real == n as real / p as real
  {
    var nr, pr, qr := n as real, p as real, q as real;
    assert (n * q) as real == nr * qr;
    assert (p * q) as real == pr * qr;
    assert nr * qr == (nr / pr) * (pr * qr);
  }

  /** Canonicalising keeps the value. */
  lemma {:induction false} CanonicalKeepsValue(d: Dec)
    requires Valid(d)
    ensures Value(Canonical(d)) == Value(d)
  {
    LeadingZerosKeepValue(d.whole);
    TrailingZerosKeepValue(d.frac);
  }

  /** A dot-free digit string followed by more text: the digit prefix is the string. */
  lemma {:induction false} DigitPrefixOfDigitsThen(a: string, b: string)
    requires AllDigits(a)
    requires b == [] || !IsDigit(b[0])
    ensures DigitPrefix(a + b) == |a|
    decreases |a|
  {
    if a != [] {
      assert (a + b)[1..] == a[1..] + b;
      DigitPrefixOfDigitsThen(a[1..], b);
    } else {
      assert a + b == b;
    }
  }

  /** Reading back the rendered text gives the canonical literal: `Render` and
      `ParseUnsigned` form a round trip, so the value survives being stored as text. */
  lemma {:induction false} RenderRoundTrip(d: Dec)
    requires Valid(d)
    ensures ParseUnsigned(Render(d)) == Some(Canonical(d))
    ensures Value(Canonical(d)) == Value(d)
  {
    RenderThen(d, []);
    assert Render(d) + [] == Render(d);
    CanonicalKeepsValue(d);
  }

  /** The rendering followed by text that cannot continue a literal (an exponent
      letter, say) reads as the canonical literal, and the literal ends where the
      rendering ends. */
  lemma {:induction false} RenderThen(d: Dec, tail: string)
    requires Valid(d)
    requires tail == [] || (!IsDigit(tail[0]) && tail[0] != '.')
    ensures ParseUnsigned(Render(d) + tail) == Some(Canonical(d))
    ensures LiteralEnd(Render(d) + tail) == |Render(d)|
  {
    var c := Canonical(d);
    if c.frac == [] {
      assert Render(d) == c.whole + [];
      assert Render(d) + tail == c.whole + tail;
      WholeThen(c.whole, tail);
    } else {
      assert Render(d) == c.whole + "." + c.frac;
      assert Render(d) + tail == c.whole + ("." + c.frac + tail);
      FractionThen(c.whole, c.frac, tail);
    }
  }

  /** Digits followed by text that cannot continue a literal. */
  lemma {:induction false} WholeThen(a: string, tail: string)
    requires a != [] && AllDigits(a)
    requires tail == [] || (!IsDigit(tail[0]) && tail[0] != '.')
    ensures ParseUnsigned(a + tail) == Some(Dec(a, []))
    ensures LiteralEnd(a + tail) == |a|
  {
    var s := a + tail;
    DigitPrefixOfDigitsThen(a, tail);
    assert s[..|a|] == a;
  }

  /** Digits, a dot and digits, followed by text that cannot continue them. */
  lemma {:induction false} FractionThen(a: string, f: string, tail: string)
    requires a != [] && AllDigits(a) && f != [] && AllDigits(f)
    requires tail == [] || !IsDigit(tail[0])
    ensures ParseUnsigned(a + ("." + f + tail)) == Some(Dec(a, f))
    ensures LiteralEnd(a + ("." + f + tail)) == |a| + 1 + |f|
  {
    var rest := "." + f + tail;
    var s := a + rest;
    DigitPrefixOfDigitsThen(a, rest);
    assert s[..|a|] == a;
    assert s[|a|] == '.';
    assert s[|a| + 1..] == f + tail;
    DigitPrefixOfDigitsThen(f, tail);
    assert (f + tail)[..|f|] == f;
  }

  /** Text that starts with a digit and holds a literal is read without sign and
      without `Infinity`: the literal scaled by its exponent. */
  lemma {:induction false} ParseFloatOfDigits(s: string)
    requires s != [] && IsDigit(s[0])
    requires ParseUnsigned(s).Some?
    ensures ParseFloat(s) == Finite(Scale(Value(ParseUnsigned(s).value), ExponentAt(s, LiteralEnd(s))))
  {
    TrimStartOfNonSpace(s);
    assert SignFree(s) == s;
    assert !StartsWith(s, "Infinity") by { assert "Infinity"[0] == 'I'; }
    assert !MinusSign(s);
  }

  /** `parseFloat` reads back the text a number prints as. */
  lemma {:induction false} ParseFloatOfRender(d: Dec)
    requires Valid(d)
    ensures ParseFloat(Render(d)) == Finite(Value(d))
  {
    var s := Render(d);
    RenderThen(d, []);
    assert s + [] == s;
    RenderRoundTrip(d);
    ParseFloatOfDigits(s);
    assert ExponentAt(s, |s|) == 0;
    ScaleZero(Value(d));
  }

  /** An exponent `e<n>` after a rendered number scales it by ten to the `n`
      (`ScaleUp`: for `n >= 0` that is multiplication by `Pow10(n)`). */
  lemma {:induction false} ExponentScales(d: Dec, digits: string)
    requires Valid(d)
    requires digits != [] && AllDigits(digits)
    ensures ParseFloat(Render(d) + "e" + digits) == Finite(Scale(Value(d), DigitsValue(digits)))
  {
    var r := Render(d);
    var n := DigitsValue(digits);
    var tail := "e" + digits;
    var s := Render(d) + "e" + digits;
    assert s == r + tail;
    assert ParseUnsigned(s) == Some(Canonical(d)) && LiteralEnd(s) == |r| by {
      RenderThen(d, tail);
    }
    assert ExponentAt(s, |r|) == n by {
      assert s[|r|] == 'e';
      assert s[|r| + 1..] == digits;
      ExponentOfDigits(s, |r|, digits);
    }
    assert ParseFloat(s) == Finite(Scale(Value(Canonical(d)), n)) by {
      assert s[0] == r[0];
      ParseFloatOfDigits(s);
    }
    CanonicalKeepsValue(d);
  }

  /** An `e` followed by a digit string up to the end is that exponent. */
  lemma {:induction false} ExponentOfDigits(s: string, p: nat, digits: string)
    requires digits != [] && AllDigits(digits)
    requires p < |s| && s[p] == 'e' && s[p + 1..] == digits
    ensures ExponentAt(s, p) == DigitsValue(digits)
  {
    assert SignFree(digits) == digits;
    DigitPrefixOfDigitsThen(digits, []);
    assert digits + [] == digits;
    assert digits[0..|digits|] == digits;
  }

  /** A literal denotes zero exactly when all its digits are zeros, which is exactly
      when its rendering is "0". */
  lemma {:induction false} ZeroIff(d: Dec)
    requires Valid(d)
    ensures Value(d) == 0.0 <==> (DigitsValue(d.whole) == 0 && DigitsValue(d.frac) == 0)
    ensures Value(d) == 0.0 <==> Render(d) == "0"
  {
    var n := DigitsValue(d.frac) as real;
    var p := Pow10(|d.frac|) as real;
    assert n / p >= 0.0;
    assert n / p == 0.0 <==> n == 0.0;
    var c := Canonical(d);
    LeadingZerosKeepValue(d.whole);
    DigitsValueZero(StripLeadingZeros(d.whole));
    var f := StripTrailingZeros(d.frac);
    TrailingZerosKeepValue(d.frac);
    DigitsValueZero(f);
    DigitsValueZero(d.frac);
    if Render(d) == "0" {
      assert c.whole + (if c.frac == [] then "" else "." + c.frac) == "0";
      assert c.frac == [];
      assert c.whole == "0";
    }
  }
}

=== FILE: ingest.dfy ===
/** `parseAndStoreIpo` minus the store call: one scraped item becomes one
    `InsertIpo`, and `extractExchange` classifies the cleaned company name. */
module Ingest {
  import opened Wrappers
  import opened Text
  import opened JsValue
  import opened Schema
  import NameExtraction
  import Premium

  // ---------------------------------------------------------------------------
  // extractExchange

  const MainBoard := "MAINBOARD"
  const BseSme := "BSE SME"
  const NseSme := "NSE SME"

  /** The first board named in `name`, tried in the order MAINBOARD, BSE SME,
      NSE SME, case-sensitively; MAINBOARD when none is named. */
  function ExtractExchange(name: string): (r: string)
    ensures r == MainBoard || r == BseSme || r == NseSme
    ensures r == BseSme <==> !Contains(name, MainBoard) && Contains(name, BseSme)
    ensures r == NseSme <==> !Contains(name, MainBoard) && !Contains(name, BseSme) && Contains(name, NseSme)
    ensures r == MainBoard <==>
              Contains(name, MainBoard) || (!Contains(name, BseSme) && !Contains(name, NseSme))
  {
    if Contains(name, MainBoard) then MainBoard
    else if Contains(name, BseSme) then BseSme
    else if Contains(name, NseSme) then NseSme
    else MainBoard
  }

  /** A board the result names occurs in the name, unless it is the default. */
  lemma {:induction false} ExchangeNamed(name: string)
    ensures ExtractExchange(name) != MainBoard ==> exists i :: OccursAt(name, ExtractExchange(name), i)
    ensures ExtractExchange(name) == MainBoard && Contains(name, BseSme) ==> Contains(name, MainBoard)
  {
    ContainsIff(name, ExtractExchange(name));
  }

  /** Matching is case-sensitive: a lower-case board name falls back to MAINBOARD. */
  lemma {:induction false} ExchangeCaseSensitive()
    ensures ExtractExchange("bse sme") == MainBoard
  {
    var s := "bse sme";
    AbsentLead(s, MainBoard);
    AbsentLead(s, BseSme);
    AbsentLead(s, NseSme);
  }

  // ---------------------------------------------------------------------------
  // The scraped item

  /** One field read under its snake_case key and, second, its camelCase key.
      `None` is an absent (or null) key. */
  datatype Alias<T> = Alias(snake: Option<T>, camel: Option<T>)

  /** An element of the scraped `data` array. Text-valued keys hold strings,
      `lot_size` a number and the flags booleans; `name`, `premium`, the prices and
      `premium_last_updated_at` are converted with `toString` and may hold any
      value. `min_price`, `max_price` and `listing_price` have no camelCase key,
      and the dates are read from `open` / `openDate` and `close` / `closeDate`. */
  datatype RawItem = RawItem(
    name: Value,
    premium: Value,
    scriptCode: Alias<string>,
    iconUrl: Alias<string>,
    minPrice: Value,
    maxPrice: Value,
    lotSize: Alias<int>,
    openDate: Alias<string>,
    closeDate: Alias<string>,
    allotmentDate: Alias<string>,
    listingDate: Alias<string>,
    allotmentLink: Alias<string>,
    currentStatus: Alias<string>,
    premiumLastUpdatedAt: Value,
    listingPrice: Value,
    isBuyer: Alias<bool>,
    isSeller: Alias<bool>,
    isPreApply: Alias<bool>)

  /** A `null` (or `undefined`) array element, on which reading `item.name` throws. */
  datatype RawEntry = NullEntry | Entry(item: RawItem)

  datatype ParseError = NullItem

  // ---------------------------------------------------------------------------
  // Aliasing: `item.snake || item.camel || default`

  /** The first truthy value among the two keys. */
  function FirstTruthy<T>(a: Alias<T>, truthy: T -> bool): (r: Option<T>)
    ensures r.Some? ==> truthy(r.value)
    ensures a.snake.Some? && truthy(a.snake.value) ==> r == a.snake
    ensures !(a.snake.Some? && truthy(a.snake.value)) && a.camel.Some? && truthy(a.camel.value) ==> r == a.camel
    ensures r.None? <==> !(a.snake.Some? && truthy(a.snake.value)) && !(a.camel.Some? && truthy(a.camel.value))
  {
    if a.snake.Some? && truthy(a.snake.value) then a.snake
    else if a.camel.Some? && truthy(a.camel.value) then a.camel
    else None
  }

  predicate NonEmpty(s: string) { s != "" }
  predicate NonZero(n: int) { n != 0 }
  predicate IsTrue(b: bool) { b }

  /** A required text field with default `d`. */
  function TextOr(a: Alias<string>, d: string): (r: string)
    ensures r == d || r == a.snake.GetOr("") || r == a.camel.GetOr("")
    ensures r != "" ==> r == d || FirstTruthy(a, NonEmpty) == Some(r)
    ensures a.snake.Some? && a.snake.value != "" ==> r == a.snake.value
    ensures !(a.snake.Some? && a.snake.value != "") && a.camel.Some? && a.camel.value != "" ==> r == a.camel.value
    ensures !(a.snake.Some? && a.snake.value != "") && !(a.camel.Some? && a.camel.value != "") ==> r == d
  {
    FirstTruthy(a, NonEmpty).GetOr(d)
  }

  /** An optional text field: null when neither key holds a non-empty string. */
  function OptionalText(a: Alias<string>): (r: Option<string>)
    ensures r.Some? ==> r.value != "" && (a.snake == r || a.camel == r)
    ensures r.None? <==> !(a.snake.Some? && a.snake.value != "") && !(a.camel.Some? && a.camel.value != "")
    ensures a.snake.Some? && a.snake.value != "" ==> r == a.snake
    ensures !(a.snake.Some? && a.snake.value != "") && a.camel.Some? && a.camel.value != "" ==> r == a.camel
  {
    FirstTruthy(a, NonEmpty)
  }

  /** `x ? x.toString() : null`. */
  function TextOfTruthy(v: Value): (r: Option<string>)
    ensures r.Some? <==> Truthy(v)
    ensures r.Some? ==> r.value != "" && r.value == ToText(v)
  {
    if Truthy(v) then Some(ToText(v)) else None
  }

  /** `item.is_x || item.isX || false`. */
  function Flag(a: Alias<bool>): (r: bool)
    ensures r <==> a.snake == Some(true) || a.camel == Some(true)
    ensures a.snake != Some(true) && a.camel != Some(true) ==> r == FlagDefault
  {
    FirstTruthy(a, IsTrue).Some?
  }

  // ---------------------------------------------------------------------------
  // Normalisation

  /** The insert record built from one scraped item. */
  function Build(item: RawItem): (r: InsertIpo)
    ensures IsNormalized(r.name)
    ensures r.exchange == Some(ExtractExchange(r.name))
    ensures r.currentStatus != ""
    ensures r.isBuyer.Some? && r.isSeller.Some? && r.isPreApply.Some?
    ensures r.premiumPercentage.Some? ==> r.premium.Some?
    ensures r.name == NameExtraction.CompanyName(item.name)
    ensures r.premium == Premium.ParsePremium(item.premium).premium
    ensures r.premiumPercentage == Premium.ParsePremium(item.premium).percentage
    ensures r.scriptCode == TextOr(item.scriptCode, "") && r.currentStatus == TextOr(item.currentStatus, "unknown")
    ensures r.openDate == TextOr(item.openDate, "") && r.closeDate == TextOr(item.closeDate, "")
    ensures r.minPrice == TextOfTruthy(item.minPrice) && r.maxPrice == TextOfTruthy(item.maxPrice)
    ensures r.isPreApply == Some(item.isPreApply.snake == Some(true) || item.isPreApply.camel == Some(true))
    ensures r.isBuyer == Some(item.isBuyer.snake == Some(true) || item.isBuyer.camel == Some(true))
    ensures r.isSeller == Some(item.isSeller.snake == Some(true) || item.isSeller.camel == Some(true))
    ensures r.iconUrl == OptionalText(item.iconUrl) && r.allotmentLink == OptionalText(item.allotmentLink)
    ensures r.allotmentDate == OptionalText(item.allotmentDate) && r.listingDate == OptionalText(item.listingDate)
    ensures r.lotSize == FirstTruthy(item.lotSize, NonZero)
    ensures r.premiumLastUpdated == TextOfTruthy(item.premiumLastUpdatedAt)
    ensures r.listingPrice == TextOfTruthy(item.listingPrice)
  {
    var name := NameExtraction.CompanyName(item.name);
    var prem := Premium.ParsePremium(item.premium);
    Assemble(item, name, prem.premium, prem.percentage)
  }

  /** The record of `parseAndStoreIpo` once the name and the premium fields are
      worked out: every other field comes from its keys. */
  function Assemble(item: RawItem, name: string, premium: Option<string>, percentage: Option<string>): (r: InsertIpo)
    ensures r.name == name && r.premium == premium && r.premiumPercentage == percentage
    ensures r.exchange == Some(ExtractExchange(name))
    ensures r.scriptCode == TextOr(item.scriptCode, "") && r.currentStatus == TextOr(item.currentStatus, "unknown")
    ensures r.currentStatus != ""
    ensures r.openDate == TextOr(item.openDate, "") && r.closeDate == TextOr(item.closeDate, "")
    ensures r.minPrice == TextOfTruthy(item.minPrice) && r.maxPrice == TextOfTruthy(item.maxPrice)
    ensures r.isPreApply == Some(item.isPreApply.snake == Some(true) || item.isPreApply.camel == Some(true))
    ensures r.isBuyer == Some(item.isBuyer.snake == Some(true) || item.isBuyer.camel == Some(true))
    ensures r.isSeller == Some(item.isSeller.snake == Some(true) || item.isSeller.camel == Some(true))
    ensures r.iconUrl == OptionalText(item.iconUrl) && r.allotmentLink == OptionalText(item.allotmentLink)
    ensures r.allotmentDate == OptionalText(item.allotmentDate) && r.listingDate == OptionalText(item.listingDate)
    ensures r.lotSize == FirstTruthy(item.lotSize, NonZero)
    ensures r.premiumLastUpdated == TextOfTruthy(item.premiumLastUpdatedAt)
    ensures r.listingPrice == TextOfTruthy(item.listingPrice)
  {
    InsertIpo(
      name := name,
      scriptCode := TextOr(item.scriptCode, ""),
      iconUrl := OptionalText(item.iconUrl),
      minPrice := TextOfTruthy(item.minPrice),
      maxPrice := TextOfTruthy(item.maxPrice),
      lotSize := FirstTruthy(item.lotSize, NonZero),
      premium := premium,
      premiumPercentage := percentage,
      openDate := TextOr(item.openDate, ""),
      closeDate := TextOr(item.closeDate, ""),
      allotmentDate := OptionalText(item.allotmentDate),
      listingDate := OptionalText(item.listingDate),
      allotmentLink := OptionalText(item.allotmentLink),
      currentStatus := TextOr(item.currentStatus, "unknown"),
      exchange := Some(ExtractExchange(name)),
      premiumLastUpdated := TextOfTruthy(item.premiumLastUpdatedAt),
      listingPrice := TextOfTruthy(item.listingPrice),
      isBuyer := Some(Flag(item.isBuyer)),
      isSeller := Some(Flag(item.isSeller)),
      isPreApply := Some(Flag(item.isPreApply)))
  }

  /** A null element makes `parseAndStoreIpo` throw before anything is stored; any other
      element normalises. */
  function Normalize(e: RawEntry): (r: Result<InsertIpo, ParseError>)
    ensures r.Err? <==> e.NullEntry?
    ensures r.Ok? ==> r.value == Build(e.item)
  {
    match e
    case NullEntry => Err(NullItem)
    case Entry(item) => Ok(Build(item))
  }

  /** The item with every key absent. */
  function EmptyItem(): RawItem {
    var none := Alias(None, None);
    RawItem(Undefined, Undefined, none, none, Undefined, Undefined, Alias(None, None),
            none, none, none, none, none, none, Undefined, Undefined,
            Alias(None, None), Alias(None, None), Alias(None, None))
  }

  /** With every key absent, each field takes its default: '' for the script code
      and dates, "unknown" for the status, false for the flags, null elsewhere, and
      the name "Unknown Company" on the MAINBOARD. */
  lemma {:induction false} Defaults()
    ensures Build(EmptyItem()) == InsertIpo(
              NameExtraction.UnknownCompany, "", None, None, None, None, None, None, "", "",
              None, None, None, "unknown", Some(MainBoard), None, None,
              Some(false), Some(false), Some(false))
  {
    var n := NameExtraction.UnknownCompany;
    assert NameExtraction.CompanyName(Undefined) == n;
    EmptyPremium();
    UnknownCompanyOnMainBoard(NameExtraction.CompanyName(Undefined));
  }

  lemma {:induction false} EmptyPremium()
    ensures Premium.ParsePremium(Undefined) == Premium.PremiumInfo(None, None)
  {
    TrimIdentity("");
    assert Premium.PremiumText(Undefined) == "";
  }

  lemma {:induction false} UnknownCompanyOnMainBoard(n: string)
    requires n == "Unknown Company"
    ensures ExtractExchange(n) == "MAINBOARD"
  {
    NoLetterIn(n, 'B');
    AbsentLead(n, "BSE SME");
    NoLetterIn(n, 'N');
    AbsentLead(n, "NSE SME");
  }

  /** "Unknown Company" has no capital B and no capital N. */
  lemma {:induction false} NoLetterIn(n: string, c: char)
    requires n == "Unknown Company" && (c == 'B' || c == 'N')
    ensures forall i :: 0 <= i < |n| ==> n[i] != c
  {
  }

  /** The snake_case key wins; a falsy one (lot size 0, an empty string) falls
      through to the camelCase key and then to the default. */
  lemma {:induction false} AliasFallThrough(snake: int, camel: int, ss: string, cs: string)
    ensures snake != 0 ==> FirstTruthy(Alias(Some(snake), Some(camel)), NonZero) == Some(snake)
    ensures FirstTruthy(Alias(Some(0), Some(camel)), NonZero) == (if camel != 0 then Some(camel) else None)
    ensures TextOr(Alias(Some(""), Some(cs)), "unknown") == (if cs != "" then cs else "unknown")
    ensures ss != "" ==> TextOr(Alias(Some(ss), Some(cs)), "") == ss
  {
  }
}

=== FILE: ipo_filters.dfy ===
/** The filter tabs above the table: the count badge of each tab and its colour
    class. */
module IpoFilters {
  import opened Wrappers
  import opened Storage
  import opened Batch
  import Ordering

  /** The four tabs, in display order. */
  const FilterKeys: seq<string> := ["all", "open", "upcoming", "closed"]

  /** `getFilterCount`: no badge before the stats have arrived or for an unknown
      key. */
  function FilterCount(stats: Option<Stats>, key: string): (r: Option<nat>)
    ensures stats.None? ==> r.None?
    ensures r.Some? <==> stats.Some? && key in FilterKeys
    ensures stats.Some? && key == "all" ==> r == Some(stats.value.totalIpos)
    ensures stats.Some? && key == "open" ==> r == Some(stats.value.openIpos)
    ensures stats.Some? && key == "upcoming" ==> r == Some(stats.value.upcomingIpos)
    ensures stats.Some? && key == "closed" ==> r == Some(stats.value.closedIpos)
  {
    if stats.None? then None
    else if key == "all" then Some(stats.value.totalIpos)
    else if key == "open" then Some(stats.value.openIpos)
    else if key == "upcoming" then Some(stats.value.upcomingIpos)
    else if key == "closed" then Some(stats.value.closedIpos)
    else None
  }

  /** The rows the page asks the store for under a tab (no search query): every
      record for "all" and for an empty key (the page sends no status, and the
      route treats a falsy status as absent), the records with that status
      otherwise. */
  function ListedFor(st: MemStorage, key: string): (r: seq<Schema.Ipo>)
    ensures key == "all" || key == "" ==> r == GetAllIpos(st)
    ensures key != "all" && key != "" ==> r == Ordering.Filter(GetAllIpos(st), HasStatus(key))
    ensures |r| <= |GetAllIpos(st)|
    ensures Ordering.NewestFirst(r, CreatedAt)
  {
    if key == "all" || key == "" then GetAllIpos(st) else GetIposByStatus(st, key)
  }

  /** The badge on each tab counts exactly the rows the table lists under it. */
  lemma {:induction false} CountMatchesListing(st: MemStorage, key: string)
    requires key in FilterKeys
    ensures FilterCount(Some(GetIpoStats(st)), key) == Some(|ListedFor(st, key)|)
  {
  }

  const ActiveClass := "bg-blue-600 text-white hover:bg-blue-700"
  const OpenClass := "bg-green-50 text-green-600 border border-green-200 hover:bg-green-100"
  const UpcomingClass := "bg-yellow-50 text-yellow-600 border border-yellow-200 hover:bg-yellow-100"
  const GrayClass := "bg-gray-50 text-gray-600 border border-gray-200 hover:bg-gray-100"

  /** The colour of an inactive tab. */
  function KeyClass(key: string): (r: string)
    ensures r == OpenClass <==> key == "open"
    ensures r == UpcomingClass <==> key == "upcoming"
    ensures r == GrayClass <==> key != "open" && key != "upcoming"
    ensures r != ActiveClass
  {
    if key == "open" then OpenClass
    else if key == "upcoming" then UpcomingClass
    else GrayClass
  }

  /** `getFilterClass`: the active tab's colour wins over the per-key one. */
  function FilterClass(activeFilter: string, key: string): (r: string)
    ensures r == ActiveClass <==> activeFilter == key
    ensures activeFilter != key ==> r == KeyClass(key)
  {
    if activeFilter == key then ActiveClass else KeyClass(key)
  }

  /** Whatever the active filter, exactly one of the four tabs is highlighted
      when it is one of them, and none otherwise. */
  lemma {:induction false} OneTabHighlighted(activeFilter: string, i: nat)
    requires i < |FilterKeys|
    ensures FilterClass(activeFilter, FilterKeys[i]) == ActiveClass <==> activeFilter == FilterKeys[i]
    ensures activeFilter !in FilterKeys ==> FilterClass(activeFilter, FilterKeys[i]) != ActiveClass
  {
  }

  /** An inactive "closed" tab looks like a tab with an unknown key. */
  lemma {:induction false} ClosedLooksLikeUnknown(activeFilter: string, key: string)
    requires activeFilter != "closed" && activeFilter != key
    requires key != "open" && key != "upcoming"
    ensures FilterClass(activeFilter, "closed") == FilterClass(activeFilter, key) == GrayClass
  {
  }
}

=== FILE: ipo_table.dfy ===
/** The decision and arithmetic helpers of the IPO table component: pagination
    (ten rows a page), the price cell, the lot-size cell, the premium badge, the
    row's status class and the action button. JSX is dropped; each helper becomes
    a pure function of the record fields it reads. */
module IpoTable {
  import opened Wrappers
  import opened Text
  import opened Schema
  import Decimal

  // ---------------------------------------------------------------------------
  // Pagination

  const PageSize: nat := 10

  function Min(a: int, b: int): int {
    if a <= b then a else b
  }

  /** `Math.ceil(n / 10)`. */
  function TotalPages(n: nat): (r: nat)
    ensures n <= r * PageSize
    ensures r > 0 ==> (r - 1) * PageSize < n
  {
    (n + PageSize - 1) / PageSize
  }

  /** `s.slice(start, end)` for non-negative bounds: both are clamped to the length,
      and an empty range gives the empty list. */
  function Slice<T>(s: seq<T>, start: nat, end: nat): (r: seq<T>)
    ensures |r| == if start < Min(end, |s|) then Min(end, |s|) - start else 0
    ensures forall i :: 0 <= i < |r| ==> start + i < |s| && r[i] == s[start + i]
  {
    var hi := Min(end, |s|);
    if start < hi then s[start..hi] else []
  }

  /** `startIndex`; the component's page counter starts at 1 and no button takes it
      below 1 (`Navigate` keeps it there). */
  function StartIndex(page: nat): (r: nat)
    requires page >= 1
    ensures r % PageSize == 0 && r / PageSize + 1 == page
  {
    (page - 1) * PageSize
  }

  /** `currentIpos`: the rows shown on `page`. */
  function Page<T>(s: seq<T>, page: nat): (r: seq<T>)
    requires page >= 1
    ensures |r| <= PageSize
    ensures forall i :: 0 <= i < |r| ==> StartIndex(page) + i < |s| && r[i] == s[StartIndex(page) + i]
    ensures StartIndex(page) < |s| <==> r != []
  {
    Slice(s, StartIndex(page), StartIndex(page) + PageSize)
  }

  /** A page holds at most ten rows; it is non-empty exactly when it is one of the
      `totalPages` pages, and it is the run of rows that starts at `startIndex`. */
  lemma {:induction false} PageBounds<T>(s: seq<T>, page: nat)
    requires page >= 1
    ensures |Page(s, page)| <= PageSize
    ensures Page(s, page) != [] <==> page <= TotalPages(|s|)
    ensures page <= TotalPages(|s|) ==>
              Page(s, page) == s[StartIndex(page)..Min(StartIndex(page) + PageSize, |s|)]
  {
    var tp := TotalPages(|s|);
    if page <= tp {
      assert (page - 1) * PageSize <= (tp - 1) * PageSize;
    } else {
      assert (page - 1) * PageSize >= tp * PageSize;
    }
  }

  /** Pages `1..k` laid end to end. */
  function Pages<T>(s: seq<T>, k: nat): seq<T> {
    if k == 0 then [] else Pages(s, k - 1) + Page(s, k)
  }

  /** The first `k` pages are the first `10 k` rows (or all of them). */
  lemma {:induction false} PagesPrefix<T>(s: seq<T>, k: nat)
    ensures Pages(s, k) == s[..Min(k * PageSize, |s|)]
  {
    if k > 0 {
      PagesPrefix(s, k - 1);
      var lo := (k - 1) * PageSize;
      if lo < |s| {
        assert Page(s, k) == s[lo..Min(lo + PageSize, |s|)];
        assert s[..lo] + s[lo..Min(lo + PageSize, |s|)] == s[..Min(lo + PageSize, |s|)];
      } else {
        assert Page(s, k) == [];
      }
    }
  }

  /** Every row is on exactly one page: the pages, in order, are the whole list. */
  lemma {:induction false} PagesPartition<T>(s: seq<T>)
    ensures Pages(s, TotalPages(|s|)) == s
  {
    PagesPrefix(s, TotalPages(|s|));
    assert s[..|s|] == s;
  }

  /** "Showing `first` to `last` of `total` results". */
  datatype Caption = Caption(first: nat, last: nat, total: nat)

  function CaptionFor(n: nat, page: nat): (c: Caption)
    requires page >= 1
    ensures c.total == n && c.first == StartIndex(page) + 1
    ensures c.last <= n && c.last < c.first + PageSize
    ensures StartIndex(page) + PageSize <= n ==> c.last - c.first + 1 == PageSize
  {
    Caption(StartIndex(page) + 1, Min(StartIndex(page) + PageSize, n), n)
  }

  /** On a real page the caption names exactly the rows shown: positions `first`
      to `last`, counted from 1, inclusive. */
  lemma {:induction false} CaptionMatchesPage<T>(s: seq<T>, page: nat)
    requires 1 <= page <= TotalPages(|s|)
    ensures var c := CaptionFor(|s|, page);
            && 1 <= c.first <= c.last <= c.total == |s|
            && Page(s, page) == s[c.first - 1..c.last]
            && |Page(s, page)| == c.last - c.first + 1
  {
    PageBounds(s, page);
  }

  /** The numbered buttons: pages 1 to `min(5, totalPages)`, whatever the current
      page is. */
  function PageButtons(totalPages: nat): (r: seq<nat>)
    ensures |r| == Min(5, totalPages)
    ensures forall i :: 0 <= i < |r| ==> r[i] == i + 1
  {
    seq(Min(5, totalPages), i => i + 1)
  }

  /** Every numbered button is a page that exists, and every page up to the fifth
      has one. */
  lemma {:induction false} PageButtonsAreRealPages(totalPages: nat, n: nat)
    ensures n in PageButtons(totalPages) <==> 1 <= n <= Min(5, totalPages)
    ensures n in PageButtons(totalPages) ==> n <= totalPages
  {
    var r := PageButtons(totalPages);
    if 1 <= n <= Min(5, totalPages) {
      assert r[n - 1] == n;
    }
  }

  /** `disabled={currentPage === 1}`. */
  predicate PreviousDisabled(page: nat)
    ensures PreviousDisabled(page) ==> page == 1
    ensures page == 1 ==> PreviousDisabled(page)
    ensures page >= 2 ==> !PreviousDisabled(page)
  {
    page == 1
  }

  /** `disabled={currentPage === totalPages}`, as written. */
  predicate NextDisabled(page: nat, totalPages: nat)
    ensures page == totalPages ==> NextDisabled(page, totalPages)
    ensures page < totalPages ==> !NextDisabled(page, totalPages)
    ensures page > totalPages ==> !NextDisabled(page, totalPages)
  {
    page == totalPages
  }

  datatype Click = Previous | Next | Numbered(index: nat)

  /** The page after a click; a disabled or missing button changes nothing. */
  function Navigate(page: nat, totalPages: nat, c: Click): (r: nat)
    requires page >= 1
    ensures r >= 1
  {
    match c
    case Previous => if PreviousDisabled(page) then page else page - 1
    case Next => if NextDisabled(page, totalPages) then page else page + 1
    case Numbered(i) => if i < |PageButtons(totalPages)| then PageButtons(totalPages)[i] else page
  }

  /** While the list does not change, the buttons keep the page among the real
      ones. */
  lemma {:induction false} NavigateStaysInRange(page: nat, totalPages: nat, c: Click)
    requires 1 <= page <= totalPages
    ensures 1 <= Navigate(page, totalPages, c) <= totalPages
  {
  }

  /** The page counter is not reset when the list shrinks (a new filter or query
      hands the component fewer rows): with five rows on page 3 the table is empty,
      the caption reads "21 to 5 of 5", and Next stays enabled, leading to more
      empty pages. */
  lemma {:induction false} NextPastLastPage(s: seq<int>)
    requires |s| == 5
    ensures TotalPages(|s|) == 1
    ensures Page(s, 3) == [] && Page(s, 4) == []
    ensures CaptionFor(|s|, 3) == Caption(21, 5, 5)
    ensures !NextDisabled(3, TotalPages(|s|))
    ensures Navigate(3, TotalPages(|s|), Next) == 4
  {
    PageBounds(s, 3);
    PageBounds(s, 4);
  }

  /** Next disabled on the last page and on any page past it. */
  predicate NextDisabledFixed(page: nat, totalPages: nat) {
    page >= totalPages
  }

  /** With the corrected test Next is enabled exactly when the next page has rows. */
  lemma {:induction false} NextEnabledIffNextPage<T>(s: seq<T>, page: nat)
    requires page >= 1
    ensures !NextDisabledFixed(page, TotalPages(|s|)) <==> Page(s, page + 1) != []
  {
    PageBounds(s, page + 1);
  }

  // ---------------------------------------------------------------------------
  // Cells

  /** A nullable text is truthy when present and non-empty. */
  predicate Present(o: Option<string>) {
    o.Some? && o.value != ""
  }

  /** A template literal prints `null` for a missing value. */
  function Show(o: Option<string>): string {
    if o.None? then "null" else o.value
  }

  const Rupee: char := '₹'

  /** `formatPrice`. */
  function FormatPrice(minPrice: Option<string>, maxPrice: Option<string>): (r: string)
    ensures r == "TBA" <==> !Present(minPrice) && !Present(maxPrice)
    ensures r != "TBA" ==> r != [] && r[0] == Rupee
  {
    if !Present(minPrice) && !Present(maxPrice) then "TBA"
    else
      var r := [Rupee] + (if minPrice == maxPrice then Show(minPrice) else Show(minPrice) + "-" + Show(maxPrice));
      assert r[0] != "TBA"[0];
      r
  }

  /** What a reader makes of a price cell. */
  datatype PriceText = Tba | Single(price: string) | Range(low: string, high: string)

  predicate NoDash(t: string) {
    forall i :: 0 <= i < |t| ==> t[i] != '-'
  }

  /** Index of the first `-`, or the length. */
  function DashAt(t: string): (k: nat)
    ensures k <= |t|
    ensures forall i :: 0 <= i < k ==> t[i] != '-'
    ensures k < |t| ==> t[k] == '-'
  {
    if t == [] || t[0] == '-' then 0 else 1 + DashAt(t[1..])
  }

  /** Reads a price cell back: "TBA", or the rupee sign and a price, or two prices
      around the first dash. */
  function ReadPrice(r: string): Option<PriceText> {
    if r == "TBA" then Some(Tba)
    else if r == [] || r[0] != Rupee then None
    else
      var t := r[1..];
      var k := DashAt(t);
      if k == |t| then Some(Single(t)) else Some(Range(t[..k], t[k + 1..]))
  }

  /** The price cell is unambiguous when neither price contains a dash: it tells
      "to be announced", a single price and a range apart, and gives back the
      prices. */
  lemma {:induction false} FormatPriceReadsBack(minPrice: Option<string>, maxPrice: Option<string>)
    requires NoDash(Show(minPrice)) && NoDash(Show(maxPrice))
    ensures ReadPrice(FormatPrice(minPrice, maxPrice)) ==
              Some(if !Present(minPrice) && !Present(maxPrice) then Tba
                   else if minPrice == maxPrice then Single(Show(minPrice))
                   else Range(Show(minPrice), Show(maxPrice)))
  {
    var r := FormatPrice(minPrice, maxPrice);
    if r != "TBA" {
      var a, b := Show(minPrice), Show(maxPrice);
      var t := r[1..];
      var k := DashAt(t);
      if minPrice == maxPrice {
        assert t == a;
        assert k == |t|;
        assert ReadPrice(r) == Some(Single(a));
      } else {
        assert t == a + "-" + b;
        assert t[|a|] == '-';
        assert forall i :: 0 <= i < |a| ==> t[i] == a[i];
        assert k == |a|;
        assert t[..|a|] == a && t[|a| + 1..] == b;
        assert ReadPrice(r) == Some(Range(a, b));
      }
    }
  }

  /** `ipo.lotSize || 'TBA'`: a missing or zero lot size is shown as "TBA". */
  function LotSizeText(lotSize: Option<int>): (r: string)
    ensures r == "TBA" <==> lotSize.None? || lotSize.value == 0
  {
    if lotSize.None? || lotSize.value == 0 then "TBA"
    else
      var r := IntToString(lotSize.value);
      assert r[0] == '-' || IsDigit(r[0]);
      assert r != "TBA" by { assert "TBA"[0] == 'T'; }
      r
  }

  /** Reads a lot-size cell back. */
  function ReadLotSize(r: string): Option<int> {
    if r == "TBA" then None
    else if r != [] && r[0] == '-' && AllDigits(r[1..]) then Some(-(DigitsValue(r[1..]) as int))
    else if AllDigits(r) then Some(DigitsValue(r))
    else None
  }

  /** The lot-size cell gives back every lot size except zero, which it hides. */
  lemma {:induction false} LotSizeReadsBack(lotSize: Option<int>)
    ensures ReadLotSize(LotSizeText(lotSize)) == if lotSize == Some(0) then None else lotSize
  {
    if lotSize.Some? && lotSize.value != 0 {
      var r := LotSizeText(lotSize);
      if lotSize.value < 0 {
        assert r[1..] == NatToString(-lotSize.value);
      } else {
        assert r[0] != '-' by {
          assert IsDigit(r[0]);
        }
      }
    }
  }

  /** `getStatusClass`. */
  function StatusClass(status: string): (r: string)
    ensures r == "" <==> status != "open" && status != "upcoming" && status != "closed"
    ensures status == "open" || status == "upcoming" || status == "closed" ==> r == "ipo-status-" + status
  {
    if status == "open" then "ipo-status-open"
    else if status == "upcoming" then "ipo-status-upcoming"
    else if status == "closed" then "ipo-status-closed"
    else ""
  }

  // ---------------------------------------------------------------------------
  // Premium badge

  datatype Badge = Neutral | High | Positive

  function BadgeClass(b: Badge): string {
    match b
    case Neutral => "premium-neutral"
    case High => "premium-high"
    case Positive => "premium-positive"
  }

  /** `getPremiumBadge`, reduced to its class: neutral "N/A" without a premium or a
      percentage; otherwise high exactly when `parseFloat` of the percentage is
      above 30 (`Infinity` is, `NaN` and `-Infinity` are not). */
  function PremiumBadge(premium: Option<string>, percentage: Option<string>): (b: Badge)
    ensures b == Neutral <==> !Present(premium) || !Present(percentage)
    ensures b == High <==>
              && Present(premium) && Present(percentage)
              && AboveThirty(Decimal.ParseFloat(percentage.value))
  {
    if !Present(premium) || !Present(percentage) then Neutral
    else if AboveThirty(Decimal.ParseFloat(percentage.value)) then High
    else Positive
  }

  /** The comparison `x > 30` on a JavaScript number. */
  predicate AboveThirty(x: Decimal.Number) {
    x == Decimal.Infinity(false) || (x.Finite? && x.value > 30.0)
  }

  /** For a percentage the ingestion stored (the rendering of a non-zero decimal),
      the badge is high exactly when that decimal is above 30. */
  lemma {:induction false} BadgeOfStoredPercentage(premium: string, d: Decimal.Dec)
    requires premium != [] && Decimal.Valid(d)
    ensures PremiumBadge(Some(premium), Some(Decimal.Render(d))) == High <==> Decimal.Value(d) > 30.0
    ensures PremiumBadge(Some(premium), Some(Decimal.Render(d))) != Neutral
  {
    Decimal.ParseFloatOfRender(d);
  }

  /** An exponent counts: a percentage written `<decimal>e<n>` is high exactly when
      the decimal times ten to the `n` is above 30 ("5e1" is fifty, not five). */
  lemma {:induction false} BadgeReadsExponent(premium: string, d: Decimal.Dec, digits: string)
    requires premium != [] && Decimal.Valid(d)
    requires digits != [] && AllDigits(digits)
    ensures PremiumBadge(Some(premium), Some(Decimal.Render(d) + "e" + digits)) == High
            <==> Decimal.Scale(Decimal.Value(d), DigitsValue(digits)) > 30.0
  {
    Decimal.ExponentScales(d, digits);
  }

  // ---------------------------------------------------------------------------
  // Action button

  datatype Action = Apply | PreApply | Upcoming | CheckAllotment(link: string) | Waiting | NotAvailable

  predicate Disabled(a: Action) {
    a.Upcoming? || a.Waiting? || a.NotAvailable?
  }

  /** `getActionButton` as a decision table. */
  function ActionFor(status: string, isPreApply: Option<bool>, allotmentLink: Option<string>): (a: Action)
    ensures a == Apply <==> status == "open"
    ensures a == PreApply <==> status == "upcoming" && isPreApply == Some(true)
    ensures a == Upcoming <==> status == "upcoming" && isPreApply != Some(true)
    ensures a.CheckAllotment? <==> status == "closed" && Present(allotmentLink)
    ensures a.CheckAllotment? ==> allotmentLink == Some(a.link)
    ensures a == Waiting <==> status == "closed" && !Present(allotmentLink)
    ensures a == NotAvailable <==> status != "open" && status != "upcoming" && status != "closed"
  {
    if status == "open" then Apply
    else if status == "upcoming" then (if isPreApply == Some(true) then PreApply else Upcoming)
    else if status == "closed" then (if Present(allotmentLink) then CheckAllotment(allotmentLink.value) else Waiting)
    else NotAvailable
  }

  function ActionOf(r: Ipo): Action {
    ActionFor(r.data.currentStatus, r.data.isPreApply, r.data.allotmentLink)
  }

  /** The button is enabled exactly for an open issue, a pre-apply upcoming one
      and a closed one with an allotment link. */
  lemma {:induction false} ActionEnabledIff(r: Ipo)
    ensures !Disabled(ActionOf(r)) <==>
              || r.data.currentStatus == "open"
              || (r.data.currentStatus == "upcoming" && r.data.isPreApply == Some(true))
              || (r.data.currentStatus == "closed" && Present(r.data.allotmentLink))
  {
  }

  /** A row gets a status colour exactly when its button is not the "N/A" one. */
  lemma {:induction false} StatusClassMatchesAction(r: Ipo)
    ensures StatusClass(r.data.currentStatus) == "" <==> ActionOf(r) == NotAvailable
  {
  }
}

=== FILE: js_value.dfy ===
/** A loosely typed JavaScript value as it arrives in a scraped item, with the two
    conversions the normaliser applies to it: truthiness (`if (x)`, `x || y`,
    `x ? … : …`) and `String(x)` (`x.toString()`). Numbers are integral; see the
    README for what that leaves out. */
module JsValue {
  import opened Text

  datatype Value = Undefined | Null | Bool(b: bool) | Num(n: int) | Str(s: string)

  predicate Truthy(v: Value) {
    match v
    case Undefined => false
    case Null => false
    case Bool(b) => b
    case Num(n) => n != 0
    case Str(s) => s != ""
  }

  /** `String(v)`. */
  function ToText(v: Value): (r: string)
    ensures v.Str? ==> r == v.s
    ensures v.Num? ==> r == IntToString(v.n)
  {
    match v
    case Undefined => "undefined"
    case Null => "null"
    case Bool(b) => if b then "true" else "false"
    case Num(n) => IntToString(n)
    case Str(s) => s
  }

  /** A truthy value never renders as the empty string. */
  lemma {:induction false} TruthyTextNonEmpty(v: Value)
    requires Truthy(v)
    ensures ToText(v) != ""
  {
  }
}

=== FILE: name_extraction.dfy ===
/** Company-name extraction of `parseAndStoreIpo`: an ordered chain of strategies,
    first match wins (text of the first `<a …>TEXT</a>`, else the first `>TEXT<`
    fragment, else the raw string), then six HTML-entity replacements in a fixed
    order, whitespace collapse and trim. The two regular expressions are modelled by
    hand-written scanners, each proved equal to a declarative description of a match. */
module NameExtraction {
  import opened Wrappers
  import opened Text
  import opened JsValue

  const UnknownCompany: string := "Unknown Company"

  /** The first index at or after `from` holding `c`. */
  function IndexOf(s: string, c: char, from: nat): (r: Option<nat>)
    ensures r.Some? ==> from <= r.value < |s| && s[r.value] == c
    ensures r.Some? ==> forall m :: from <= m < r.value ==> s[m] != c
    ensures r.None? ==> forall m :: from <= m < |s| ==> s[m] != c
    decreases |s| - from
  {
    if from >= |s| then None
    else if s[from] == c then Some(from)
    else IndexOf(s, c, from + 1)
  }

  // ---------------------------------------------------------------------------
  // /<a[^>]*>([^<]+)<\/a>/

  /** A match of the anchor pattern starts at `i`, its `>` is at `j` and its closing
      `</a>` at `k`; the captured text is `s[j + 1..k]`. */
  ghost predicate AnchorAt(s: string, i: int, j: int, k: int) {
    && 0 <= i && i + 2 <= j && j + 1 < k && k + 4 <= |s|
    && s[i] == '<' && s[i + 1] == 'a'
    && (forall m :: i + 2 <= m < j ==> s[m] != '>')
    && s[j] == '>'
    && (forall m :: j + 1 <= m < k ==> s[m] != '<')
    && s[k..k + 4] == "</a>"
  }

  /** Tries the anchor pattern at position `i`. The pattern leaves no choice: `[^>]*`
      must stop at the first `>`, and `[^<]+` at the first `<` after it. */
  function MatchAnchorAt(s: string, i: nat): Option<(nat, nat)> {
    if i + 2 <= |s| && s[i] == '<' && s[i + 1] == 'a' then
      match IndexOf(s, '>', i + 2)
      case None => None
      case Some(j) =>
        match IndexOf(s, '<', j + 1)
        case None => None
        case Some(k) => if j + 1 < k && k + 4 <= |s| && s[k..k + 4] == "</a>" then Some((j, k)) else None
    else None
  }

  /** The scanner finds a match at `i` exactly when one exists there. */
  lemma {:induction false} AnchorAtIff(s: string, i: nat, j: int, k: int)
    ensures MatchAnchorAt(s, i) == Some((j, k)) <==> AnchorAt(s, i, j, k)
  {
    if AnchorAt(s, i, j, k) {
      assert IndexOf(s, '>', i + 2) == Some(j);
      assert s[k] == "</a>"[0];
      assert IndexOf(s, '<', j + 1) == Some(k);
    }
  }

  /** The leftmost anchor match at or after `from`: start, `>` and `</a>` positions. */
  function FindAnchor(s: string, from: nat): (r: Option<(nat, nat, nat)>)
    ensures r.Some? ==> from <= r.value.0 && MatchAnchorAt(s, r.value.0) == Some((r.value.1, r.value.2))
    ensures r.Some? ==> forall i :: from <= i < r.value.0 ==> MatchAnchorAt(s, i).None?
    ensures r.None? ==> forall i :: from <= i <= |s| ==> MatchAnchorAt(s, i).None?
    decreases |s| - from
  {
    if from > |s| then None
    else match MatchAnchorAt(s, from)
      case Some((j, k)) => Some((from, j, k))
      case None => FindAnchor(s, from + 1)
  }

  // ---------------------------------------------------------------------------
  // />([^<]+)</

  /** A match of the fragment pattern starts with `>` at `i` and ends with `<` at
      `k`; the captured text is `s[i + 1..k]`. */
  ghost predicate FragmentAt(s: string, i: int, k: int) {
    && 0 <= i && i + 1 < k < |s|
    && s[i] == '>' && s[k] == '<'
    && (forall m :: i + 1 <= m < k ==> s[m] != '<')
  }

  function MatchFragmentAt(s: string, i: nat): Option<nat> {
    if i < |s| && s[i] == '>' then
      match IndexOf(s, '<', i + 1)
      case None => None
      case Some(k) => if i + 1 < k then Some(k) else None
    else None
  }

  lemma {:induction false} FragmentAtIff(s: string, i: nat, k: int)
    ensures MatchFragmentAt(s, i) == Some(k) <==> FragmentAt(s, i, k)
  {
    if FragmentAt(s, i, k) {
      assert IndexOf(s, '<', i + 1) == Some(k);
    }
  }

  function FindFragment(s: string, from: nat): (r: Option<(nat, nat)>)
    ensures r.Some? ==> from <= r.value.0 && MatchFragmentAt(s, r.value.0) == Some(r.value.1)
    ensures r.Some? ==> forall i :: from <= i < r.value.0 ==> MatchFragmentAt(s, i).None?
    ensures r.None? ==> forall i :: from <= i <= |s| ==> MatchFragmentAt(s, i).None?
    decreases |s| - from
  {
    if from > |s| then None
    else match MatchFragmentAt(s, from)
      case Some(k) => Some((from, k))
      case None => FindFragment(s, from + 1)
  }

  // ---------------------------------------------------------------------------
  // The strategy chain

  datatype Strategy = Anchor | Fragment | Raw

  /** Which strategy wins on `html`: the first that matches. */
  function Winner(html: string): (w: Strategy)
    ensures w == Anchor <==> FindAnchor(html, 0).Some?
    ensures w == Fragment <==> FindAnchor(html, 0).None? && FindFragment(html, 0).Some?
  {
    if FindAnchor(html, 0).Some? then Anchor
    else if FindFragment(html, 0).Some? then Fragment
    else Raw
  }

  /** The bounds of the text the winning strategy captures. */
  function SelectRange(html: string): (r: (nat, nat))
    ensures r.0 <= r.1 <= |html|
  {
    match FindAnchor(html, 0)
    case Some((_, j, k)) => (j + 1, k)
    case None =>
      match FindFragment(html, 0)
      case Some((i, k)) => (i + 1, k)
      case None => (0, |html|)
  }

  /** The text the winning strategy selects, trimmed. */
  function SelectText(html: string): string {
    var (a, b) := SelectRange(html);
    Trim(html[a..b])
  }

  /** No anchor match anywhere. */
  ghost predicate NoAnchor(html: string) {
    forall i :: 0 <= i <= |html| ==> MatchAnchorAt(html, i).None?
  }

  /** No fragment match anywhere. */
  ghost predicate NoFragment(html: string) {
    forall i :: 0 <= i <= |html| ==> MatchFragmentAt(html, i).None?
  }

  /** First match wins, first strategy: the leftmost anchor match supplies the text. */
  lemma {:induction false} SelectAnchor(html: string, i: nat, j: int, k: int)
    requires AnchorAt(html, i, j, k)
    requires forall i' :: 0 <= i' < i ==> MatchAnchorAt(html, i').None?
    ensures SelectText(html) == Trim(html[j + 1..k])
  {
    AnchorAtIff(html, i, j, k);
    FirstAnchor(html, i, j, k);
    AnchorSelects(html, i, j, k);
  }

  /** Once the scan has found an anchor, its captured text is the one selected. */
  lemma {:induction false} AnchorSelects(html: string, i: nat, j: nat, k: nat)
    requires FindAnchor(html, 0) == Some((i, j, k))
    ensures SelectText(html) == Trim(html[j + 1..k])
  {
    assert SelectRange(html) == (j + 1, k);
    RangeSelects(html, j + 1, k);
  }

  lemma {:induction false} RangeSelects(html: string, a: nat, b: nat)
    requires SelectRange(html) == (a, b)
    ensures a <= b <= |html|
    ensures SelectText(html) == Trim(html[a..b])
  {
  }

  /** The scanner stops at the first position where the anchor pattern matches. */
  lemma {:induction false} FirstAnchor(html: string, i: nat, j: int, k: int)
    requires MatchAnchorAt(html, i) == Some((j, k))
    requires forall i' :: 0 <= i' < i ==> MatchAnchorAt(html, i').None?
    ensures FindAnchor(html, 0) == Some((i, j, k))
  {
    var a := FindAnchor(html, 0);
    assert a.Some?;
    assert a.value.0 == i;
  }

  /** Second strategy: with no anchor anywhere, the leftmost `>TEXT<` fragment. */
  lemma {:induction false} SelectFragment(html: string, i: nat, k: int)
    requires NoAnchor(html)
    requires FragmentAt(html, i, k)
    requires forall i' :: 0 <= i' < i ==> MatchFragmentAt(html, i').None?
    ensures SelectText(html) == Trim(html[i + 1..k])
  {
    FragmentAtIff(html, i, k);
    assert MatchFragmentAt(html, i) == Some(k);
    assert FindAnchor(html, 0).None?;
    var f := FindFragment(html, 0);
    assert f.Some?;
    assert f.value.0 == i;
    assert SelectRange(html) == (i + 1, k);
  }

  /** Last strategy: with neither pattern matching, the whole string. */
  lemma {:induction false} SelectRaw(html: string)
    requires NoAnchor(html) && NoFragment(html)
    ensures SelectText(html) == Trim(html)
  {
    assert FindAnchor(html, 0).None?;
    assert FindFragment(html, 0).None?;
    assert SelectRange(html) == (0, |html|);
    assert html[0..|html|] == html;
  }

  // ---------------------------------------------------------------------------
  // Entities and whitespace

  /** The six replacements, in the order `parseAndStoreIpo` applies them. */
  function DecodeEntities(s: string): (r: string)
    ensures |r| <= |s|
  {
    var s1 := ReplaceAll(s, "&nbsp;", " ");
    var s2 := ReplaceAll(s1, "&amp;", "&");
    var s3 := ReplaceAll(s2, "&lt;", "<");
    var s4 := ReplaceAll(s3, "&gt;", ">");
    var s5 := ReplaceAll(s4, "&quot;", "\"");
    ReplaceAll(s5, "&#39;", "'")
  }

  /** Entities, then `\s+` to one space, then trim. */
  function CleanName(s: string): (r: string)
    ensures IsNormalized(r)
  {
    CollapseTrimNormalizes(DecodeEntities(s));
    Trim(CollapseSpaces(DecodeEntities(s)))
  }

  /** The company name of a scraped item. */
  function CompanyName(name: Value): (r: string)
    ensures !Truthy(name) ==> r == UnknownCompany
    ensures Truthy(name) ==> r == CleanName(SelectText(ToText(name)))
    ensures IsNormalized(r)
  {
    if !Truthy(name) then
      assert IsNormalized(UnknownCompany) by {
        assert forall i :: 0 <= i < |UnknownCompany| && IsSpace(UnknownCompany[i]) ==> i == 7;
      }
      UnknownCompany
    else CleanName(SelectText(ToText(name)))
  }

  /** Text without an ampersand has no entity to decode. */
  lemma {:induction false} DecodeWithoutAmpersand(s: string)
    requires forall i :: 0 <= i < |s| ==> s[i] != '&'
    ensures DecodeEntities(s) == s
  {
    ReplaceAllNoLead(s, "&nbsp;", " ");
    ReplaceAllNoLead(s, "&amp;", "&");
    ReplaceAllNoLead(s, "&lt;", "<");
    ReplaceAllNoLead(s, "&gt;", ">");
    ReplaceAllNoLead(s, "&quot;", "\"");
    ReplaceAllNoLead(s, "&#39;", "'");
  }

  /** A name that is already clean comes out unchanged. */
  lemma {:induction false} CleanNameFixedPoint(s: string)
    requires forall i :: 0 <= i < |s| ==> s[i] != '&'
    requires IsNormalized(s)
    ensures CleanName(s) == s
  {
    DecodeWithoutAmpersand(s);
    CollapseTrimNormalizes(s);
  }

  /** A name of whitespace only is truthy when non-empty, yet cleans to the empty
      string. */
  lemma {:induction false} BlankNameCleansEmpty(s: string)
    requires forall i :: 0 <= i < |s| ==> IsSpace(s[i])
    ensures CleanName(s) == ""
  {
    DecodeWithoutAmpersand(s);
    if s != [] {
      assert CollapseSpaces(s) == [' '];
    }
  }

  /** Markup that shows as blank: whitespace characters and `&nbsp;` entities. */
  predicate BlankMarkup(s: string)
    decreases |s|
  {
    || s == []
    || (IsSpace(s[0]) && BlankMarkup(s[1..]))
    || (StartsWith(s, "&nbsp;") && BlankMarkup(s[6..]))
  }

  /** Replacing `&nbsp;` in blank markup leaves whitespace only. */
  lemma {:induction false} NbspToSpaces(s: string)
    requires BlankMarkup(s)
    ensures forall i :: 0 <= i < |ReplaceAll(s, "&nbsp;", " ")| ==> IsSpace(ReplaceAll(s, "&nbsp;", " ")[i])
    decreases |s|
  {
    if s == [] {
    } else if StartsWith(s, "&nbsp;") {
      NbspToSpaces(s[6..]);
      assert ReplaceAll(s, "&nbsp;", " ") == " " + ReplaceAll(s[6..], "&nbsp;", " ");
    } else {
      assert IsSpace(s[0]) && BlankMarkup(s[1..]);
      NbspToSpaces(s[1..]);
      assert ReplaceAll(s, "&nbsp;", " ") == [s[0]] + ReplaceAll(s[1..], "&nbsp;", " ");
    }
  }

  /** A name made of whitespace and `&nbsp;` only is truthy when non-empty, yet
      cleans to the empty string. */
  lemma {:induction false} BlankMarkupCleansEmpty(s: string)
    requires BlankMarkup(s)
    ensures CleanName(s) == ""
  {
    var t := ReplaceAll(s, "&nbsp;", " ");
    NbspToSpaces(s);
    DecodeWithoutAmpersand(t);
    ReplaceAllNoLead(t, "&amp;", "&");
    ReplaceAllNoLead(t, "&lt;", "<");
    ReplaceAllNoLead(t, "&gt;", ">");
    ReplaceAllNoLead(t, "&quot;", "\"");
    ReplaceAllNoLead(t, "&#39;", "'");
    assert DecodeEntities(s) == t;
    BlankNameCleansEmpty(t);
  }

  lemma {:induction false} ReplaceAtHead(t: string, pat: string, rep: string)
    requires |pat| > 0
    ensures ReplaceAll(pat + t, pat, rep) == rep + ReplaceAll(t, pat, rep)
  {
    assert (pat + t)[..|pat|] == pat;
    assert (pat + t)[|pat|..] == t;
  }

  lemma {:induction false} ReplaceSkipHead(c: char, t: string, pat: string, rep: string)
    requires |pat| > 0
    requires !StartsWith([c] + t, pat)
    ensures ReplaceAll([c] + t, pat, rep) == [c] + ReplaceAll(t, pat, rep)
  {
    assert ([c] + t)[1..] == t;
  }

  /** `&amp;` is decoded before `&lt;`, so a doubly escaped `&amp;lt;` ends as `<`. */
  lemma {:induction false} AmpersandFirst()
    ensures DecodeEntities("&amp;lt;") == "<"
  {
    var s0 := "&amp;lt;";
    NoSpaceEntity(s0);
    AmpersandEntity(s0);
    LessThanEntity("&lt;");
    ReplaceAllNoLead("<", "&gt;", ">");
    ReplaceAllNoLead("<", "&quot;", "\"");
    ReplaceAllNoLead("<", "&#39;", "'");
  }

  lemma {:induction false} NoSpaceEntity(s0: string)
    requires s0 == "&amp;lt;"
    ensures ReplaceAll(s0, "&nbsp;", " ") == s0
  {
    assert s0 == ['&'] + "amp;lt;";
    assert !StartsWith(s0, "&nbsp;") by {
      assert s0[..6][1] == 'a';
    }
    ReplaceSkipHead('&', "amp;lt;", "&nbsp;", " ");
    AmpLtTail();
  }

  /** The rest of "&amp;lt;" after its first character holds no further `&`. */
  lemma {:induction false} AmpLtTail()
    ensures ReplaceAll("amp;lt;", "&nbsp;", " ") == "amp;lt;"
  {
    var t := "amp;lt;";
    assert forall i :: 0 <= i < |t| ==> t[i] != '&';
    ReplaceAllNoLead(t, "&nbsp;", " ");
  }

  lemma {:induction false} AmpersandEntity(s0: string)
    requires s0 == "&amp;lt;"
    ensures ReplaceAll(s0, "&amp;", "&") == "&lt;"
  {
    assert s0 == "&amp;" + "lt;";
    ReplaceAtHead("lt;", "&amp;", "&");
    ReplaceAllNoLead("lt;", "&amp;", "&");
  }

  lemma {:induction false} LessThanEntity(s2: string)
    requires s2 == "&lt;"
    ensures ReplaceAll(s2, "&lt;", "<") == "<"
  {
    assert s2 == "&lt;" + "";
    ReplaceAtHead("", "&lt;", "<");
  }
}

=== FILE: ordering.dfy ===
/** Listing order of the store: `Array.from(map.values())` walks a JavaScript `Map`
    in insertion order, then `Array.prototype.sort` (stable) orders by creation time,
    newest first. Written once, generically, for IPO records and contact messages. */
module Ordering {

  /** Non-increasing in `key`. */
  ghost predicate NewestFirst<T>(s: seq<T>, key: T -> int) {
    forall i, j :: 0 <= i < j < |s| ==> key(s[i]) >= key(s[j])
  }

  /** `s.filter(p)`. */
  function Filter<T>(s: seq<T>, p: T -> bool): (r: seq<T>)
    ensures |r| <= |s|
  {
    if s == [] then [] else (if p(s[0]) then [s[0]] else []) + Filter(s[1..], p)
  }

  /** An element is kept by the filter exactly when it is in the list and satisfies
      the predicate. */
  lemma {:induction false} FilterMembers<T>(s: seq<T>, p: T -> bool, y: T)
    ensures y in Filter(s, p) <==> y in s && p(y)
  {
    if s != [] {
      FilterMembers(s[1..], p, y);
      assert s == [s[0]] + s[1..];
    }
  }

  /** The elements whose key is `k`, in order. */
  function WithKey<T>(s: seq<T>, key: T -> int, k: int): seq<T> {
    if s == [] then [] else (if key(s[0]) == k then [s[0]] else []) + WithKey(s[1..], key, k)
  }

  /** Places `x` before the first element that is not newer than it. */
  function Insert<T>(x: T, s: seq<T>, key: T -> int): (r: seq<T>)
    ensures multiset(r) == multiset(s) + multiset{x}
  {
    if s == [] then [x]
    else if key(s[0]) <= key(x) then [x] + s
    else
      var r := [s[0]] + Insert(x, s[1..], key);
      assert s == [s[0]] + s[1..];
      r
  }

  /** Inserting into a newest-first list keeps it newest-first. */
  lemma {:induction false} InsertSorted<T>(x: T, s: seq<T>, key: T -> int)
    requires NewestFirst(s, key)
    ensures NewestFirst(Insert(x, s, key), key)
  {
    if s == [] {
    } else if key(s[0]) <= key(x) {
      var r := [x] + s;
      assert Insert(x, s, key) == r;
      forall i, j | 0 <= i < j < |r|
        ensures key(r[i]) >= key(r[j])
      {
        if i == 0 {
          assert r[j] == s[j - 1];
          assert key(s[0]) >= key(s[j - 1]);
        } else {
          assert r[i] == s[i - 1] && r[j] == s[j - 1];
        }
      }
    } else {
      var t := Insert(x, s[1..], key);
      InsertSorted(x, s[1..], key);
      var r := [s[0]] + t;
      assert Insert(x, s, key) == r;
      forall i, j | 0 <= i < j < |r|
        ensures key(r[i]) >= key(r[j])
      {
        if i == 0 {
          var y := t[j - 1];
          assert y in multiset(t);
          assert y in multiset(s[1..]) || y == x;
          if y != x {
            var k :| 0 <= k < |s[1..]| && s[1..][k] == y;
            assert y == s[k + 1];
          }
        } else {
          assert r[i] == t[i - 1] && r[j] == t[j - 1];
        }
      }
    }
  }

  /** Stable sort by `key`, largest first. */
  function SortNewest<T>(s: seq<T>, key: T -> int): (r: seq<T>)
    ensures multiset(r) == multiset(s)
    ensures NewestFirst(r, key)
  {
    if s == [] then []
    else
      assert s == [s[0]] + s[1..];
      var t := SortNewest(s[1..], key);
      InsertSorted(s[0], t, key);
      Insert(s[0], t, key)
  }

  lemma {:induction false} InsertWithKey<T>(x: T, s: seq<T>, key: T -> int, k: int)
    ensures WithKey(Insert(x, s, key), key, k)
         == (if key(x) == k then [x] else []) + WithKey(s, key, k)
  {
    if s != [] && key(s[0]) > key(x) {
      InsertWithKey(x, s[1..], key, k);
      InsertWithKeyDeep(x, s, key, k);
    } else if s != [] {
      var r := Insert(x, s, key);
      assert r[0] == x && r[1..] == s;
    }
  }

  /** The step of `InsertWithKey` where `x` goes past the head. */
  lemma {:induction false} InsertWithKeyDeep<T>(x: T, s: seq<T>, key: T -> int, k: int)
    requires s != [] && key(s[0]) > key(x)
    requires WithKey(Insert(x, s[1..], key), key, k)
          == (if key(x) == k then [x] else []) + WithKey(s[1..], key, k)
    ensures WithKey(Insert(x, s, key), key, k)
         == (if key(x) == k then [x] else []) + WithKey(s, key, k)
  {
    var t := Insert(x, s[1..], key);
    var rest := WithKey(s[1..], key, k);
    assert Insert(x, s, key) == [s[0]] + t;
    WithKeyCons(s[0], t, key, k);
    assert WithKey(s, key, k) == (if key(s[0]) == k then [s[0]] else []) + rest;
    SwapPrefixes(if key(x) == k then [x] else [], if key(s[0]) == k then [s[0]] else [], rest);
  }

  lemma {:induction false} WithKeyCons<T>(y: T, s: seq<T>, key: T -> int, k: int)
    ensures WithKey([y] + s, key, k) == (if key(y) == k then [y] else []) + WithKey(s, key, k)
  {
    assert ([y] + s)[1..] == s;
  }

  /** Two prefixes commute when one of them is empty. */
  lemma {:induction false} SwapPrefixes<T>(a: seq<T>, b: seq<T>, c: seq<T>)
    requires a == [] || b == []
    ensures a + (b + c) == b + (a + c)
  {
    if a == [] {
      assert a + (b + c) == b + c;
      assert a + c == c;
    } else {
      assert b + c == c;
      assert b + (a + c) == a + c;
    }
  }

  /** The sort is stable: the records that share a creation time keep the order
      they had before sorting. */
  lemma {:induction false} SortStable<T>(s: seq<T>, key: T -> int, k: int)
    ensures WithKey(SortNewest(s, key), key, k) == WithKey(s, key, k)
  {
    if s != [] {
      SortStable(s[1..], key, k);
      InsertWithKey(s[0], SortNewest(s[1..], key), key, k);
    }
  }

  lemma {:induction false} FilterAppend<T>(a: seq<T>, b: seq<T>, p: T -> bool)
    ensures Filter(a + b, p) == Filter(a, p) + Filter(b, p)
  {
    if a == [] {
      assert a + b == b;
    } else {
      var ab := a + b;
      assert ab != [] && ab[0] == a[0];
      assert ab[1..] == a[1..] + b;
      var h := if p(a[0]) then [a[0]] else [];
      assert Filter(ab, p) == h + Filter(a[1..] + b, p);
      assert Filter(a, p) == h + Filter(a[1..], p);
      FilterAppend(a[1..], b, p);
      assert h + (Filter(a[1..], p) + Filter(b, p)) == (h + Filter(a[1..], p)) + Filter(b, p);
    }
  }

  /** In a newest-first list the head is at least as new as every element. */
  lemma {:induction false} HeadIsNewest<T>(s: seq<T>, key: T -> int, y: T)
    requires NewestFirst(s, key)
    requires y in s
    ensures key(y) <= key(s[0])
  {
    var j :| 0 <= j < |s| && s[j] == y;
    if j > 0 {
      assert key(s[0]) >= key(s[j]);
    }
  }

  lemma {:induction false} TailNewestFirst<T>(s: seq<T>, key: T -> int)
    requires NewestFirst(s, key) && s != []
    ensures NewestFirst(s[1..], key)
  {
    forall i, j | 0 <= i < j < |s| - 1
      ensures key(s[1..][i]) >= key(s[1..][j])
    {
      assert s[1..][i] == s[i + 1] && s[1..][j] == s[j + 1];
    }
  }

  lemma {:induction false} InsertFilter<T>(x: T, s: seq<T>, key: T -> int, p: T -> bool)
    requires NewestFirst(s, key)
    ensures Filter(Insert(x, s, key), p)
         == (if p(x) then Insert(x, Filter(s, p), key) else Filter(s, p))
    decreases |s|, 1
  {
    if s == [] {
    } else if key(s[0]) <= key(x) {
      InsertFilterFront(x, s, key, p);
    } else {
      InsertFilterBehind(x, s, key, p);
    }
  }

  lemma {:induction false} InsertFilterFront<T>(x: T, s: seq<T>, key: T -> int, p: T -> bool)
    requires NewestFirst(s, key)
    requires s != [] && key(s[0]) <= key(x)
    ensures Filter(Insert(x, s, key), p)
         == (if p(x) then Insert(x, Filter(s, p), key) else Filter(s, p))
  {
    var f := Filter(s, p);
    assert Insert(x, s, key) == [x] + s;
    FilterAppend([x], s, p);
    assert Filter([x], p) == if p(x) then [x] else [];
    if p(x) && f != [] {
      FilterMembers(s, p, f[0]);
      HeadIsNewest(s, key, f[0]);
      assert Insert(x, f, key) == [x] + f;
    }
  }

  lemma {:induction false} InsertFilterBehind<T>(x: T, s: seq<T>, key: T -> int, p: T -> bool)
    requires NewestFirst(s, key)
    requires s != [] && key(s[0]) > key(x)
    ensures Filter(Insert(x, s, key), p)
         == (if p(x) then Insert(x, Filter(s, p), key) else Filter(s, p))
    decreases |s|, 0
  {
    var t := s[1..];
    TailNewestFirst(s, key);
    InsertFilter(x, t, key, p);
    var i := Insert(x, t, key);
    assert Insert(x, s, key) == [s[0]] + i;
    FilterAppend([s[0]], i, p);
    assert s == [s[0]] + t;
    FilterAppend([s[0]], t, p);
    assert Filter([s[0]], p) == if p(s[0]) then [s[0]] else [];
    if p(x) && p(s[0]) {
      var f1 := Filter(t, p);
      var g := [s[0]] + f1;
      assert g[0] == s[0] && g[1..] == f1;
      assert Insert(x, g, key) == [s[0]] + Insert(x, f1, key);
      assert Filter(s, p) == g;
      assert Filter(Insert(x, s, key), p) == [s[0]] + Filter(i, p);
    } else if p(x) {
      assert Filter(s, p) == Filter(t, p);
      assert Filter(Insert(x, s, key), p) == Filter(i, p);
    } else if p(s[0]) {
      assert Filter(Insert(x, s, key), p) == [s[0]] + Filter(i, p);
    } else {
      assert Filter(Insert(x, s, key), p) == Filter(i, p);
    }
  }

  /** Filtering before or after the sort gives the same list: a filtered listing is
      exactly the full listing with the other records dropped. */
  lemma {:induction false} SortFilterCommute<T>(s: seq<T>, key: T -> int, p: T -> bool)
    ensures SortNewest(Filter(s, p), key) == Filter(SortNewest(s, key), p)
  {
    if s != [] {
      var t := s[1..];
      var st := SortNewest(t, key);
      SortFilterCommute(t, key, p);
      InsertFilter(s[0], st, key, p);
      assert SortNewest(s, key) == Insert(s[0], st, key);
      assert s == [s[0]] + t;
      FilterAppend([s[0]], t, p);
      assert Filter([s[0]], p) == if p(s[0]) then [s[0]] else [];
      var f1 := Filter(t, p);
      if p(s[0]) {
        var g := [s[0]] + f1;
        assert Filter(s, p) == g;
        assert g[0] == s[0] && g[1..] == f1;
        assert SortNewest(g, key) == Insert(s[0], SortNewest(f1, key), key);
      } else {
        assert Filter(s, p) == f1;
      }
    }
  }

  /** The number of elements satisfying `p` is unchanged by sorting. */
  lemma {:induction false} SortKeepsCount<T>(s: seq<T>, key: T -> int, p: T -> bool)
    ensures |Filter(SortNewest(s, key), p)| == |Filter(s, p)|
  {
    SortFilterCommute(s, key, p);
    var f := Filter(s, p);
    assert |multiset(SortNewest(f, key))| == |multiset(f)|;
  }

  /** Three pairwise-exclusive filters select at most all elements together, and
      exactly all when every element satisfies one of them. */
  lemma {:induction false} DisjointCounts<T>(s: seq<T>, p: T -> bool, q: T -> bool, u: T -> bool)
    requires forall x :: x in s ==> !(p(x) && q(x)) && !(p(x) && u(x)) && !(q(x) && u(x))
    ensures |Filter(s, p)| + |Filter(s, q)| + |Filter(s, u)| <= |s|
    ensures |Filter(s, p)| + |Filter(s, q)| + |Filter(s, u)| == |s|
            <==> forall x :: x in s ==> p(x) || q(x) || u(x)
  {
    if s != [] {
      var t := s[1..];
      assert forall x :: x in t ==> x in s;
      DisjointCounts(t, p, q, u);
      var n := |Filter(t, p)| + |Filter(t, q)| + |Filter(t, u)|;
      var d := (if p(s[0]) then 1 else 0) + (if q(s[0]) then 1 else 0) + (if u(s[0]) then 1 else 0);
      assert |Filter(s, p)| + |Filter(s, q)| + |Filter(s, u)| == d + n;
      assert d <= 1;
      assert (forall x :: x in s ==> p(x) || q(x) || u(x))
         <==> d == 1 && (forall x :: x in t ==> p(x) || q(x) || u(x));
    }
  }
}

=== FILE: premium.dfy ===
/** Premium parsing of `parseAndStoreIpo`: the trimmed premium text is either "no
    premium", or matched against `(\d+)\s*\(([0-9.]+)%\)` (absolute premium and
    percentage), or else against `(\d+)` (absolute premium only). Both regular
    expressions are hand-written scanners proved equal to declarative matches. */
module Premium {
  import opened Wrappers
  import opened Text
  import opened JsValue
  import Decimal

  predicate IsNumberChar(c: char) {
    IsDigit(c) || c == '.'
  }

  /** End of the longest run of `p`-characters starting at `from`. */
  function RunEnd(s: string, from: nat, p: char -> bool): (e: nat)
    requires from <= |s|
    ensures from <= e <= |s|
    ensures forall m :: from <= m < e ==> p(s[m])
    ensures e < |s| ==> !p(s[e])
    decreases |s| - from
  {
    if from < |s| && p(s[from]) then RunEnd(s, from + 1, p) else from
  }

  // ---------------------------------------------------------------------------
  // /(\d+)\s*\(([0-9.]+)%\)/

  /** A match starting at `i`: digits `s[i..e]`, whitespace `s[e..w]`, `(` at `w`,
      digits and dots `s[w + 1..f]`, then `%)`. Groups 1 and 2 are `s[i..e]` and
      `s[w + 1..f]`. */
  ghost predicate PercentAt(s: string, i: int, e: int, w: int, f: int) {
    && 0 <= i < e <= w && w + 1 < f && f + 2 <= |s|
    && (forall m :: i <= m < e ==> IsDigit(s[m]))
    && (forall m :: e <= m < w ==> IsSpace(s[m]))
    && s[w] == '('
    && (forall m :: w + 1 <= m < f ==> IsNumberChar(s[m]))
    && s[f] == '%' && s[f + 1] == ')'
  }

  /** Tries the pattern at `i`. Each quantifier must take its longest run: a shorter
      one would leave a digit, a space or a number character where the pattern
      continues with something else. */
  function MatchPercentAt(s: string, i: nat): Option<(nat, nat, nat)> {
    if i >= |s| then None
    else
      var e := RunEnd(s, i, IsDigit);
      var w := RunEnd(s, e, IsSpace);
      if e > i && w < |s| && s[w] == '(' then
        var f := RunEnd(s, w + 1, IsNumberChar);
        if f > w + 1 && f + 2 <= |s| && s[f] == '%' && s[f + 1] == ')' then Some((e, w, f)) else None
      else None
  }

  lemma {:induction false} PercentAtIff(s: string, i: nat, e: int, w: int, f: int)
    ensures MatchPercentAt(s, i) == Some((e, w, f)) <==> PercentAt(s, i, e, w, f)
  {
    if PercentAt(s, i, e, w, f) {
      PercentAtMatches(s, i, e, w, f);
    } else if MatchPercentAt(s, i) == Some((e, w, f)) {
      MatchIsPercentAt(s, i, e, w, f);
    }
  }

  lemma {:induction false} MatchIsPercentAt(s: string, i: nat, e: int, w: int, f: int)
    requires MatchPercentAt(s, i) == Some((e, w, f))
    ensures PercentAt(s, i, e, w, f)
  {
    assert i < |s|;
    var e' := RunEnd(s, i, IsDigit);
    var w' := RunEnd(s, e', IsSpace);
    var f' := RunEnd(s, w' + 1, IsNumberChar);
    assert e == e' && w == w' && f == f';
  }

  lemma {:induction false} PercentAtMatches(s: string, i: nat, e: int, w: int, f: int)
    requires PercentAt(s, i, e, w, f)
    ensures MatchPercentAt(s, i) == Some((e, w, f))
  {
    RunEndExact(s, i, e, IsDigit);
    RunEndExact(s, e, w, IsSpace);
    RunEndExact(s, w + 1, f, IsNumberChar);
  }

  /** A run that is followed by a non-member ends exactly there. */
  lemma {:induction false} RunEndExact(s: string, from: nat, e: nat, p: char -> bool)
    requires from <= e <= |s|
    requires forall m :: from <= m < e ==> p(s[m])
    requires e < |s| ==> !p(s[e])
    ensures RunEnd(s, from, p) == e
    decreases e - from
  {
    if from < e {
      assert p(s[from]);
      RunEndExact(s, from + 1, e, p);
    }
  }

  /** The leftmost match at or after `from`: start and the three group bounds. */
  function FindPercent(s: string, from: nat): (r: Option<(nat, nat, nat, nat)>)
    ensures r.Some? ==> from <= r.value.0 && MatchPercentAt(s, r.value.0) == Some((r.value.1, r.value.2, r.value.3))
    ensures r.Some? ==> forall i :: from <= i < r.value.0 ==> MatchPercentAt(s, i).None?
    ensures r.None? ==> forall i :: from <= i ==> MatchPercentAt(s, i).None?
    decreases |s| - from
  {
    if from >= |s| then
      assert forall i :: from <= i ==> MatchPercentAt(s, i).None?;
      None
    else
      var m := MatchPercentAt(s, from);
      if m.Some? then Some((from, m.value.0, m.value.1, m.value.2))
      else
        var r := FindPercent(s, from + 1);
        assert forall i :: from <= i < from + 1 ==> MatchPercentAt(s, i).None?;
        r
  }

  /** The leftmost match's first group is a whole digit run: a digit just before it
      would have started an earlier match. */
  lemma {:induction false} PercentGroupIsMaximal(s: string, i: nat, e: nat, w: nat, f: nat)
    requires MatchPercentAt(s, i) == Some((e, w, f))
    requires 0 < i && IsDigit(s[i - 1])
    ensures MatchPercentAt(s, i - 1) == Some((e, w, f))
  {
    PercentAtIff(s, i, e, w, f);
    PercentAtIff(s, i - 1, e, w, f);
  }

  // ---------------------------------------------------------------------------
  // /(\d+)/

  /** The first digit run: its start and end. */
  function FirstDigitRun(s: string, from: nat): (r: Option<(nat, nat)>)
    requires from <= |s|
    ensures r.Some? ==> from <= r.value.0 < r.value.1 <= |s|
    ensures r.Some? ==> forall m :: from <= m < r.value.0 ==> !IsDigit(s[m])
    ensures r.Some? ==> forall m :: r.value.0 <= m < r.value.1 ==> IsDigit(s[m])
    ensures r.Some? ==> r.value.1 == |s| || !IsDigit(s[r.value.1])
    ensures r.None? ==> forall m :: from <= m < |s| ==> !IsDigit(s[m])
    decreases |s| - from
  {
    if from == |s| then None
    else if IsDigit(s[from]) then Some((from, RunEnd(s, from, IsDigit)))
    else FirstDigitRun(s, from + 1)
  }

  // ---------------------------------------------------------------------------
  // The premium fields

  /** `(item.premium || '').toString().trim()`. */
  function PremiumText(raw: Value): (t: string)
    ensures !Truthy(raw) ==> t == ""
    ensures t == [] || (!IsSpace(t[0]) && !IsSpace(t[|t| - 1]))
  {
    Trim(if Truthy(raw) then ToText(raw) else "")
  }

  /** The guard of `parseAndStoreIpo`: empty, "0", anything containing "N/A", or "0  ". */
  predicate NoPremium(t: string)
    ensures Contains(t, "N/A") ==> NoPremium(t)
    ensures t == [] || !IsSpace(t[|t| - 1]) ==>
              (NoPremium(t) <==> t == "" || t == "0" || Contains(t, "N/A"))
  {
    t == "" || t == "0" || Contains(t, "N/A") || t == "0  "
  }

  /** `premiumPercentage ? premiumPercentage.toString() : null` after
      `parseFloat(group2)`: `NaN` and zero are both falsy and give null. */
  function PercentText(g: string): (r: Option<string>)
    ensures r.Some? <==> Decimal.ParseUnsigned(g).Some? && Decimal.Value(Decimal.ParseUnsigned(g).value) != 0.0
    ensures r.Some? ==> r.value == Decimal.Render(Decimal.ParseUnsigned(g).value)
  {
    match Decimal.ParseUnsigned(g)
    case None => None
    case Some(d) => if Decimal.Value(d) == 0.0 then None else Some(Decimal.Render(d))
  }

  datatype PremiumInfo = PremiumInfo(premium: Option<string>, percentage: Option<string>)

  /** A slice of a digit run is all digits and occurs where it was cut. */
  lemma {:induction false} DigitSlice(t: string, i: nat, e: nat)
    requires i < e <= |t|
    requires forall m :: i <= m < e ==> IsDigit(t[m])
    ensures t[i..e] != [] && AllDigits(t[i..e])
    ensures OccursAt(t, t[i..e], i)
  {
    forall m | 0 <= m < e - i
      ensures IsDigit(t[i..e][m])
    {
      assert t[i..e][m] == t[i + m];
    }
  }

  /** The captures of the two regular expressions: the absolute premium and, from
      the percent pattern only, the percentage group. */
  datatype Groups = Groups(premium: Option<string>, percent: Option<string>)

  /** Both regular expressions applied to the trimmed, non-empty premium text. */
  function ScanGroups(t: string): (g: Groups)
    ensures g.percent.Some? ==> g.premium.Some?
  {
    var m := FindPercent(t, 0);
    if m.Some? then
      Groups(Some(t[m.value.0..m.value.1]), Some(t[m.value.2 + 1..m.value.3]))
    else
      var d := FirstDigitRun(t, 0);
      if d.Some? then Groups(Some(t[d.value.0..d.value.1]), None) else Groups(None, None)
  }

  /** The fields stored for the captures: the percentage group goes through
      `parseFloat` and back to text. */
  function Stored(g: Groups): (r: PremiumInfo)
    ensures r.premium == g.premium
    ensures r.percentage.Some? ==> g.percent.Some?
  {
    PremiumInfo(g.premium, if g.percent.Some? then PercentText(g.percent.value) else None)
  }

  /** Premium and percentage from the text past the guard. */
  function ScanPremium(t: string): (r: PremiumInfo)
    ensures r.percentage.Some? ==> r.premium.Some?
  {
    Stored(ScanGroups(t))
  }

  /** The premium is a non-empty digit string taken from the text. */
  lemma {:induction false} ScanPremiumDigits(t: string)
    ensures ScanPremium(t).premium.Some? ==> ScanPremium(t).premium.value != []
    ensures ScanPremium(t).premium.Some? ==> AllDigits(ScanPremium(t).premium.value)
    ensures ScanPremium(t).premium.Some? ==> exists i :: OccursAt(t, ScanPremium(t).premium.value, i)
  {
    var m := FindPercent(t, 0);
    if m.Some? {
      var (i, e, w, f) := m.value;
      PercentAtIff(t, i, e, w, f);
      DigitSlice(t, i, e);
    } else {
      var d := FirstDigitRun(t, 0);
      if d.Some? {
        DigitSlice(t, d.value.0, d.value.1);
      }
    }
  }

  /** Premium and stored percentage text of a scraped item. */
  function ParsePremium(raw: Value): (r: PremiumInfo)
    ensures NoPremium(PremiumText(raw)) ==> r == PremiumInfo(None, None)
    ensures r.percentage.Some? ==> r.premium.Some?
    ensures r.premium.Some? ==> r.premium.value != [] && AllDigits(r.premium.value)
    ensures r.premium.Some? ==> exists i :: OccursAt(PremiumText(raw), r.premium.value, i)
  {
    var t := PremiumText(raw);
    if NoPremium(t) then PremiumInfo(None, None)
    else
      ScanPremiumDigits(t);
      ScanPremium(t)
  }

  // ---------------------------------------------------------------------------
  // Lemmas

  /** Past the guard, the two patterns decide. */
  lemma {:induction false} ParsePremiumScans(raw: Value)
    requires !NoPremium(PremiumText(raw))
    ensures ParsePremium(raw) == ScanPremium(PremiumText(raw))
  {
  }

  /** After trimming, the text cannot end with a space, so the "0  " test is dead. */
  lemma {:induction false} ZeroSpacesTestIsDead(raw: Value)
    ensures PremiumText(raw) != "0  "
  {
    var t := PremiumText(raw);
    if |t| == 3 {
      assert !IsSpace(t[2]);
    }
  }

  /** A premium is only found in text that holds a digit. */
  lemma {:induction false} PremiumNeedsDigit(t: string)
    ensures ScanPremium(t).premium.Some? ==> exists m :: 0 <= m < |t| && IsDigit(t[m])
  {
    var r := FindPercent(t, 0);
    if r.Some? {
      var (i, e, w, f) := r.value;
      PercentAtIff(t, i, e, w, f);
      assert 0 <= i < |t| && IsDigit(t[i]);
    } else {
      var d := FirstDigitRun(t, 0);
      if d.Some? {
        assert 0 <= d.value.0 < |t| && IsDigit(t[d.value.0]);
      }
    }
  }

  /** When the percent pattern matches, the premium is the leftmost match's first
      group and the percentage comes from its second group. */
  lemma {:induction false} PercentBranch(t: string, i: nat, e: nat, w: nat, f: nat)
    requires FindPercent(t, 0) == Some((i, e, w, f))
    ensures ScanPremium(t).premium == Some(t[i..e])
    ensures ScanPremium(t).percentage == PercentText(t[w + 1..f])
  {
    var g := ScanGroups(t);
    var pct := t[w + 1..f];
    assert g == Groups(Some(t[i..e]), Some(pct));
    assert ScanPremium(t) == Stored(g);
    assert Stored(g).percentage == PercentText(pct);
  }

  /** `PercentBranch` with the two captures named. */
  lemma {:induction false} PercentCapture(t: string, i: nat, e: nat, w: nat, f: nat, premium: string, percent: string)
    requires FindPercent(t, 0) == Some((i, e, w, f))
    requires t[i..e] == premium && t[w + 1..f] == percent
    ensures ScanPremium(t) == PremiumInfo(Some(premium), PercentText(percent))
  {
    PercentBranch(t, i, e, w, f);
  }

  /** The leftmost percent match is a match in the declarative sense, and its first
      group is a whole digit run. */
  lemma {:induction false} LeftmostPercentMatch(t: string, i: nat, e: nat, w: nat, f: nat)
    requires FindPercent(t, 0) == Some((i, e, w, f))
    ensures PercentAt(t, i, e, w, f)
    ensures i == 0 || !IsDigit(t[i - 1])
  {
    PercentAtIff(t, i, e, w, f);
    if i > 0 && IsDigit(t[i - 1]) {
      PercentGroupIsMaximal(t, i, e, w, f);
    }
  }

  /** Without a percent match the premium is the first digit run and no percentage
      is stored. */
  lemma {:induction false} DigitBranch(t: string)
    requires FindPercent(t, 0).None?
    ensures forall i :: MatchPercentAt(t, i).None?
    ensures ScanPremium(t).percentage.None?
    ensures match FirstDigitRun(t, 0)
            case Some((i, e)) => ScanPremium(t).premium == Some(t[i..e])
            case None => ScanPremium(t).premium.None?
  {
  }

  /** A percentage of zero is stored as null, never as "0". */
  lemma {:induction false} ZeroPercentIsNull(g: string)
    requires Decimal.ParseUnsigned(g).Some?
    requires Decimal.Value(Decimal.ParseUnsigned(g).value) == 0.0
    ensures PercentText(g) == None
  {
  }

  /** The stored percentage reads back (with `parseFloat`) as the parsed number. */
  lemma {:induction false} PercentTextRoundTrip(g: string)
    requires PercentText(g).Some?
    ensures Decimal.ParseUnsigned(PercentText(g).value).Some?
    ensures Decimal.Value(Decimal.ParseUnsigned(PercentText(g).value).value)
         == Decimal.Value(Decimal.ParseUnsigned(g).value)
  {
    Decimal.RenderRoundTrip(Decimal.ParseUnsigned(g).value);
  }

  /** The pattern in "35 (14.3%)" is found at the start. */
  lemma {:induction false} PercentExampleMatch()
    ensures FindPercent("35 (14.3%)", 0) == Some((0, 2, 3, 8))
  {
    var t := "35 (14.3%)";
    RunEndExact(t, 0, 2, IsDigit);
    RunEndExact(t, 2, 3, IsSpace);
    RunEndExact(t, 4, 8, IsNumberChar);
    assert MatchPercentAt(t, 0) == Some((2, 3, 8));
  }

  /** "14.3" parses to the whole part "14" and the fraction "3". */
  lemma {:induction false} PercentExampleParse()
    ensures Decimal.ParseUnsigned("14.3") == Some(Decimal.Dec("14", "3"))
  {
    var g := "14.3";
    assert g[1..] == "4.3" && g[2..] == ".3" && g[3..] == "3" && g[4..] == "";
    assert DigitPrefix(g[2..]) == 0;
    assert DigitPrefix(g) == 2;
    assert DigitPrefix(g[3..]) == 1;
    assert g[..2] == "14" && g[3..][..1] == "3";
  }

  /** "14.3" is stored as "14.3". */
  lemma {:induction false} PercentExampleNumber()
    ensures PercentText("14.3") == Some("14.3")
  {
    var d := Decimal.Dec("14", "3");
    PercentExampleParse();
    assert "14"[1..] == "4";
    assert Decimal.StripLeadingZeros("14") == "14";
    assert Decimal.StripTrailingZeros("3") == "3";
    assert Decimal.Canonical(d) == d;
    assert Decimal.Render(d) == "14.3";
    assert "14"[..1] == "1";
    assert DigitsValue("14") == 14;
    assert Decimal.Value(d) != 0.0;
  }

  /** The example the comment in `parseAndStoreIpo` names: "35 (14.3%)" gives premium "35" and a
      percentage of "14.3". */
  lemma {:induction false} PercentExample()
    ensures ScanPremium("35 (14.3%)") == PremiumInfo(Some("35"), Some("14.3"))
  {
    var t := "35 (14.3%)";
    PercentExampleMatch();
    assert t[0..2] == "35" && t[4..8] == "14.3";
    PercentExampleNumber();
    PercentCapture(t, 0, 2, 3, 8, "35", "14.3");
  }

  /** A bare number is an absolute premium without a percentage. */
  lemma {:induction false} BareNumberExample()
    ensures ScanPremium("120") == PremiumInfo(Some("120"), None)
  {
    var t := "120";
    RunEndExact(t, 3, 3, IsSpace);
    forall i | 0 <= i < |t|
      ensures MatchPercentAt(t, i).None?
    {
      RunEndExact(t, i, 3, IsDigit);
    }
    assert FindPercent(t, 3).None?;
    assert FindPercent(t, 2).None?;
    assert FindPercent(t, 1).None?;
    assert FindPercent(t, 0).None?;
    RunEndExact(t, 0, 3, IsDigit);
    assert FirstDigitRun(t, 0) == Some((0, 3));
    assert t[0..3] == t;
  }

  /** A premium of "N/A" is not parsed. */
  lemma {:induction false} NotAvailableExample()
    ensures ParsePremium(Str("N/A")) == PremiumInfo(None, None)
  {
    NotAvailableGuarded("N/A");
    GuardedPremium(Str("N/A"), "N/A");
  }

  lemma {:induction false} NotAvailableGuarded(t: string)
    requires t == "N/A"
    ensures NoPremium(t)
  {
    assert OccursAt(t, "N/A", 0);
    ContainsIff(t, "N/A");
  }

  /** A premium of "0" is not parsed. */
  lemma {:induction false} ZeroPremiumExample()
    ensures ParsePremium(Str("0")) == PremiumInfo(None, None)
  {
    GuardedPremium(Str("0"), "0");
  }

  /** A string premium without edge whitespace that the guard rejects gives no
      premium and no percentage. */
  lemma {:induction false} GuardedPremium(raw: Value, t: string)
    requires raw == Str(t) && t != [] && !IsSpace(t[0]) && !IsSpace(t[|t| - 1])
    requires NoPremium(t)
    ensures ParsePremium(raw) == PremiumInfo(None, None)
  {
    assert Truthy(raw) && ToText(raw) == t;
    TrimIdentity(t);
    var pt := PremiumText(raw);
    assert pt == t;
    assert NoPremium(pt);
  }

  /** A missing premium is not parsed. */
  lemma {:induction false} NullPremiumExample()
    ensures ParsePremium(Null) == PremiumInfo(None, None)
  {
    TrimIdentity("");
    assert NoPremium(PremiumText(Null));
  }
}

=== FILE: schema.dfy ===
/** The record shapes of the three tables. A stored record is its insert shape plus
    the fields the store fills in (the id and the timestamps), so "the insert type is
    the full record minus id and timestamps" holds by construction. JavaScript's
    `null` and `undefined` are both `None`; timestamps are instants supplied by the
    caller. */
module Schema {
  import opened Wrappers

  /** `InsertIpo`: name, scriptCode, openDate, closeDate and currentStatus are
      required (non-null); every other column may be null. */
  datatype InsertIpo = InsertIpo(
    name: string,
    scriptCode: string,
    iconUrl: Option<string>,
    minPrice: Option<string>,
    maxPrice: Option<string>,
    lotSize: Option<int>,
    premium: Option<string>,
    premiumPercentage: Option<string>,
    openDate: string,
    closeDate: string,
    allotmentDate: Option<string>,
    listingDate: Option<string>,
    allotmentLink: Option<string>,
    currentStatus: string,
    exchange: Option<string>,
    premiumLastUpdated: Option<string>,
    listingPrice: Option<string>,
    isBuyer: Option<bool>,
    isSeller: Option<bool>,
    isPreApply: Option<bool>)

  /** `Ipo`: a stored row. */
  datatype Ipo = Ipo(id: nat, data: InsertIpo, createdAt: nat, updatedAt: nat)

  /** `Partial<InsertIpo>`: `None` means the key is not supplied; for a nullable
      column `Some(None)` sets it to null. */
  datatype IpoPatch = IpoPatch(
    name: Option<string>,
    scriptCode: Option<string>,
    iconUrl: Option<Option<string>>,
    minPrice: Option<Option<string>>,
    maxPrice: Option<Option<string>>,
    lotSize: Option<Option<int>>,
    premium: Option<Option<string>>,
    premiumPercentage: Option<Option<string>>,
    openDate: Option<string>,
    closeDate: Option<string>,
    allotmentDate: Option<Option<string>>,
    listingDate: Option<Option<string>>,
    allotmentLink: Option<Option<string>>,
    currentStatus: Option<string>,
    exchange: Option<Option<string>>,
    premiumLastUpdated: Option<Option<string>>,
    listingPrice: Option<Option<string>>,
    isBuyer: Option<Option<bool>>,
    isSeller: Option<Option<bool>>,
    isPreApply: Option<Option<bool>>)

  /** `InsertContact`: name, email and message are all required. */
  datatype InsertContact = InsertContact(name: string, email: string, message: string)

  /** `Contact`: a stored contact message. */
  datatype Contact = Contact(id: nat, data: InsertContact, createdAt: nat)

  /** `InsertUser`: the picked columns username and password. */
  datatype InsertUser = InsertUser(username: string, password: string)

  /** `User`: a stored user. The table declares `username` unique, but nothing in
      the in-memory store enforces it. */
  datatype User = User(id: nat, data: InsertUser)

  /** The column default of the three flags (`.default(false)`). */
  const FlagDefault: bool := false
}

=== FILE: storage.dfy ===
/** `MemStorage`: three maps keyed by sequential integer ids, one counter per entity
    kind. The class's mutable fields become one immutable state value; every
    operation takes the state and returns the new state with its result. `new Date()`
    becomes a caller-supplied instant `now`. */
module Storage {
  import opened Wrappers
  import opened Schema
  import opened Text
  import Ordering

  datatype MemStorage = MemStorage(
    users: map<nat, User>,
    ipos: map<nat, Ipo>,
    contacts: map<nat, Contact>,
    currentUserId: nat,
    currentIpoId: nat,
    currentContactId: nat)

  /** Every stored record sits under its own id, and every id in use is below the
      counter that will issue the next one; counters start at 1. */
  ghost predicate Valid(st: MemStorage) {
    && st.currentUserId >= 1 && st.currentIpoId >= 1 && st.currentContactId >= 1
    && (forall k :: k in st.users ==> 1 <= k < st.currentUserId && st.users[k].id == k)
    && (forall k :: k in st.ipos ==> 1 <= k < st.currentIpoId && st.ipos[k].id == k)
    && (forall k :: k in st.contacts ==> 1 <= k < st.currentContactId && st.contacts[k].id == k)
  }

  /** The constructor: empty maps and all three counters at 1. */
  function NewStorage(): (st: MemStorage)
    ensures Valid(st)
    ensures |st.users| == 0 && |st.ipos| == 0 && |st.contacts| == 0
    ensures st.currentUserId == 1 && st.currentIpoId == 1 && st.currentContactId == 1
  {
    MemStorage(map[], map[], map[], 1, 1, 1)
  }

  // ---------------------------------------------------------------------------
  // Map iteration order

  /** The keys of `m` below `n`, ascending. A JavaScript `Map` iterates in insertion
      order; ids are inserted in increasing order and `set` on an existing key keeps
      its place, so insertion order is ascending id order. */
  function KeysBelow<T>(m: map<nat, T>, n: nat): (ks: seq<nat>)
    ensures forall i :: 0 <= i < |ks| ==> ks[i] in m && ks[i] < n
    ensures forall i, j :: 0 <= i < j < |ks| ==> ks[i] < ks[j]
    ensures forall k :: k in m && k < n ==> k in ks
  {
    if n == 0 then []
    else KeysBelow(m, n - 1) + (if n - 1 in m then [n - 1] else [])
  }

  /** `Array.from(m.values())`. */
  function Listing<T>(m: map<nat, T>, n: nat): (r: seq<T>)
  {
    var ks := KeysBelow(m, n);
    seq(|ks|, i requires 0 <= i < |ks| => m[ks[i]])
  }

  /** The ids below `n` that are in use. */
  ghost function KeySet<T>(m: map<nat, T>, n: nat): set<nat> {
    set k | k in m && k < n
  }

  /** The listing holds each stored value exactly once: its length is the number of
      ids in use. */
  lemma {:induction false} KeysBelowCount<T>(m: map<nat, T>, n: nat)
    ensures |KeysBelow(m, n)| == |KeySet(m, n)|
  {
    if n > 0 {
      KeysBelowCount(m, n - 1);
      KeySetStep(m, n);
      var ks := KeysBelow(m, n - 1);
      if n - 1 in m {
        assert KeysBelow(m, n) == ks + [n - 1];
      } else {
        assert KeysBelow(m, n) == ks + [];
      }
    }
  }

  /** Raising the bound by one adds the id `n - 1` exactly when it is in use. */
  lemma {:induction false} KeySetStep<T>(m: map<nat, T>, n: nat)
    requires n > 0
    ensures n - 1 in m ==> |KeySet(m, n)| == |KeySet(m, n - 1)| + 1
    ensures n - 1 !in m ==> |KeySet(m, n)| == |KeySet(m, n - 1)|
  {
    var below := KeySet(m, n - 1);
    var all := KeySet(m, n);
    if n - 1 in m {
      assert all == below + {n - 1} by {
        forall k ensures k in all <==> k in below + {n - 1} {
        }
      }
      assert n - 1 !in below;
    } else {
      assert all == below by {
        forall k ensures k in all <==> k in below {
        }
      }
    }
  }

  lemma {:induction false} ListingSize<T>(m: map<nat, T>, n: nat)
    requires forall k :: k in m ==> k < n
    ensures |Listing(m, n)| == |m|
  {
    KeysBelowCount(m, n);
    assert KeySet(m, n) == m.Keys;
  }

  // ---------------------------------------------------------------------------
  // Users

  function GetUser(st: MemStorage, id: nat): (r: Option<User>)
    ensures r.Some? <==> id in st.users
    ensures r.Some? ==> r.value == st.users[id]
  {
    if id in st.users then Some(st.users[id]) else None
  }

  /** The position of the first user with `username`, or `|us|` when there is none. */
  function FirstWithUsername(us: seq<User>, username: string): (i: nat)
    ensures i <= |us|
    ensures forall j :: 0 <= j < i ==> us[j].data.username != username
    ensures i < |us| ==> us[i].data.username == username
  {
    if us == [] then 0
    else if us[0].data.username == username then 0
    else 1 + FirstWithUsername(us[1..], username)
  }

  /** `find` over the users in insertion order: the first user with that username,
      or none. Uniqueness is not assumed. */
  function GetUserByUsername(st: MemStorage, username: string): (r: Option<User>)
    ensures r.Some? ==> r.value.data.username == username
    ensures Valid(st) && r.Some? ==> r.value.id in st.users && st.users[r.value.id] == r.value
    ensures Valid(st) && r.Some? ==>
              forall k :: k in st.users && k < r.value.id ==> st.users[k].data.username != username
    ensures Valid(st) && r.None? ==>
              forall k :: k in st.users ==> st.users[k].data.username != username
  {
    var us := Listing(st.users, st.currentUserId);
    var i := FirstWithUsername(us, username);
    FirstUserFacts(st, username);
    if i < |us| then Some(us[i]) else None
  }

  lemma {:induction false} FirstUserFacts(st: MemStorage, username: string)
    ensures var us := Listing(st.users, st.currentUserId);
            var i := FirstWithUsername(us, username);
            && (Valid(st) && i < |us| ==>
                  && us[i].id in st.users && st.users[us[i].id] == us[i]
                  && forall k :: k in st.users && k < us[i].id ==> st.users[k].data.username != username)
            && (Valid(st) && i == |us| ==>
                  forall k :: k in st.users ==> st.users[k].data.username != username)
  {
    var us := Listing(st.users, st.currentUserId);
    var i := FirstWithUsername(us, username);
    if Valid(st) {
      if i < |us| {
        FirstUserFound(st, username, us, i);
      } else {
        NoUserFound(st, username, us);
      }
    }
  }

  /** Where a stored id sits in the listing. */
  lemma {:induction false} KeyPosition<T>(m: map<nat, T>, n: nat, k: nat) returns (j: nat)
    requires k in m && k < n
    ensures j < |KeysBelow(m, n)| == |Listing(m, n)|
    ensures KeysBelow(m, n)[j] == k && Listing(m, n)[j] == m[k]
  {
    var ks := KeysBelow(m, n);
    assert k in ks;
    j :| 0 <= j < |ks| && ks[j] == k;
  }

  /** A stored id below the one at position `i` of the listing sits before `i`. */
  lemma {:induction false} EarlierPosition<T>(m: map<nat, T>, n: nat, i: nat, k: nat) returns (j: nat)
    requires i < |KeysBelow(m, n)|
    requires k in m && k < KeysBelow(m, n)[i]
    ensures j < i && Listing(m, n)[j] == m[k]
  {
    var ks := KeysBelow(m, n);
    j := KeyPosition(m, n, k);
    assert ks[j] < ks[i];
  }

  lemma {:induction false} FirstUserFound(st: MemStorage, username: string, us: seq<User>, i: nat)
    requires Valid(st)
    requires us == Listing(st.users, st.currentUserId)
    requires i < |us| && i == FirstWithUsername(us, username)
    ensures us[i].id in st.users && st.users[us[i].id] == us[i]
    ensures forall k :: k in st.users && k < us[i].id ==> st.users[k].data.username != username
  {
    var ks := KeysBelow(st.users, st.currentUserId);
    assert |us| == |ks|;
    var id := ks[i];
    assert us[i] == st.users[id];
    assert us[i].id == id;
    forall k | k in st.users && k < id
      ensures st.users[k].data.username != username
    {
      var j := EarlierPosition(st.users, st.currentUserId, i, k);
      assert us[j].data.username != username;
    }
  }

  lemma {:induction false} NoUserFound(st: MemStorage, username: string, us: seq<User>)
    requires Valid(st)
    requires us == Listing(st.users, st.currentUserId)
    requires FirstWithUsername(us, username) == |us|
    ensures forall k :: k in st.users ==> st.users[k].data.username != username
  {
    forall k | k in st.users
      ensures st.users[k].data.username != username
    {
      var j := KeyPosition(st.users, st.currentUserId, k);
      assert us[j].data.username != username;
    }
  }

  /** Issues the next user id. */
  function CreateUser(st: MemStorage, x: InsertUser): (res: (MemStorage, User))
    ensures res.1 == User(st.currentUserId, x)
    ensures res.0 == st.(users := st.users[st.currentUserId := res.1], currentUserId := st.currentUserId + 1)
    ensures Valid(st) ==> Valid(res.0) && res.1.id !in st.users
  {
    var u := User(st.currentUserId, x);
    (st.(users := st.users[u.id := u], currentUserId := st.currentUserId + 1), u)
  }

  // ---------------------------------------------------------------------------
  // IPO records

  function CreatedAt(r: Ipo): int { r.createdAt }

  /** The stored records in insertion (ascending id) order. */
  function IpoListing(st: MemStorage): seq<Ipo> {
    Listing(st.ipos, st.currentIpoId)
  }

  lemma {:induction false} IpoListingMembers(st: MemStorage, x: Ipo)
    requires Valid(st)
    ensures x in IpoListing(st) <==> x.id in st.ipos && st.ipos[x.id] == x
  {
    var ks := KeysBelow(st.ipos, st.currentIpoId);
    if x.id in st.ipos && st.ipos[x.id] == x {
      var j :| 0 <= j < |ks| && ks[j] == x.id;
      assert IpoListing(st)[j] == x;
    }
  }

  /** `getAllIpos`: every stored record once, newest first; records created at the
      same instant stay in insertion order. */
  function GetAllIpos(st: MemStorage): (r: seq<Ipo>)
    ensures Ordering.NewestFirst(r, CreatedAt)
    ensures multiset(r) == multiset(IpoListing(st))
    ensures Valid(st) ==> |r| == |st.ipos|
    ensures Valid(st) ==> forall x :: x in r <==> x.id in st.ipos && st.ipos[x.id] == x
  {
    SortedIpoListing(st);
    Ordering.SortNewest(IpoListing(st), CreatedAt)
  }

  lemma {:induction false} SortedIpoListing(st: MemStorage)
    ensures var r := Ordering.SortNewest(IpoListing(st), CreatedAt);
            && (Valid(st) ==> |r| == |st.ipos|)
            && (Valid(st) ==> forall x :: x in r <==> x.id in st.ipos && st.ipos[x.id] == x)
  {
    var l := IpoListing(st);
    var r := Ordering.SortNewest(l, CreatedAt);
    assert |r| == |multiset(r)| == |multiset(l)| == |l|;
    if Valid(st) {
      ListingSize(st.ipos, st.currentIpoId);
      forall x
        ensures x in r <==> x.id in st.ipos && st.ipos[x.id] == x
      {
        IpoListingMembers(st, x);
        assert x in r <==> x in multiset(r);
        assert x in l <==> x in multiset(l);
      }
    }
  }

  function HasStatus(status: string): Ipo -> bool {
    (r: Ipo) => r.data.currentStatus == status
  }

  /** `getIposByStatus`: exactly the records whose status equals `status`, in the
      order `getAllIpos` lists them. */
  function GetIposByStatus(st: MemStorage, status: string): (r: seq<Ipo>)
    ensures r == Ordering.Filter(GetAllIpos(st), HasStatus(status))
    ensures Ordering.NewestFirst(r, CreatedAt)
  {
    var l := IpoListing(st);
    Ordering.SortFilterCommute(l, CreatedAt, HasStatus(status));
    Ordering.SortNewest(Ordering.Filter(l, HasStatus(status)), CreatedAt)
  }

  /** The search predicate: the lower-cased query occurs in the lower-cased name,
      script code, or non-empty exchange. */
  predicate Matches(r: Ipo, query: string)
    ensures query == [] ==> Matches(r, query)
  {
    var q := Lower(query);
    ContainsEmpty(Lower(r.data.name));
    || Contains(Lower(r.data.name), q)
    || Contains(Lower(r.data.scriptCode), q)
    || (r.data.exchange.Some? && r.data.exchange.value != "" && Contains(Lower(r.data.exchange.value), q))
  }

  function MatchesQuery(query: string): Ipo -> bool {
    (r: Ipo) => Matches(r, query)
  }

  /** `searchIpos`: the records that match the query, in listing order. */
  function SearchIpos(st: MemStorage, query: string): (r: seq<Ipo>)
    ensures r == Ordering.Filter(GetAllIpos(st), MatchesQuery(query))
    ensures Ordering.NewestFirst(r, CreatedAt)
  {
    var l := IpoListing(st);
    Ordering.SortFilterCommute(l, CreatedAt, MatchesQuery(query));
    Ordering.SortNewest(Ordering.Filter(l, MatchesQuery(query)), CreatedAt)
  }

  function GetIpoById(st: MemStorage, id: nat): (r: Option<Ipo>)
    ensures r.Some? <==> id in st.ipos
    ensures r.Some? ==> r.value == st.ipos[id]
    ensures Valid(st) && r.Some? ==> r.value.id == id
  {
    if id in st.ipos then Some(st.ipos[id]) else None
  }

  /** `createIpo`: takes the current counter as the id, then advances it; both
      timestamps are the same instant. */
  function CreateIpo(st: MemStorage, x: InsertIpo, now: nat): (res: (MemStorage, Ipo))
    ensures res.1 == Ipo(st.currentIpoId, x, now, now)
    ensures res.0 == st.(ipos := st.ipos[st.currentIpoId := res.1], currentIpoId := st.currentIpoId + 1)
    ensures Valid(st) ==> Valid(res.0) && res.1.id !in st.ipos
    ensures Valid(st) ==> forall k :: k in st.ipos ==> k < res.1.id
  {
    var r := Ipo(st.currentIpoId, x, now, now);
    (st.(ipos := st.ipos[r.id := r], currentIpoId := st.currentIpoId + 1), r)
  }

  /** A supplied key replaces the old value; an absent key keeps it. */
  function Over<T>(prev: T, supplied: Option<T>): T {
    supplied.GetOr(prev)
  }

  /** One column after a spread: the supplied value when the key is present, the
      previous value when it is absent. */
  predicate Takes<T(==)>(prev: T, supplied: Option<T>, now: T) {
    && (supplied.Some? ==> now == supplied.value)
    && (supplied.None? ==> now == prev)
  }

  /** `r` is `d` with exactly the keys of `p` replaced, column by column. */
  predicate Merged(d: InsertIpo, p: IpoPatch, r: InsertIpo) {
    && Takes(d.name, p.name, r.name)
    && Takes(d.scriptCode, p.scriptCode, r.scriptCode)
    && Takes(d.iconUrl, p.iconUrl, r.iconUrl)
    && Takes(d.minPrice, p.minPrice, r.minPrice)
    && Takes(d.maxPrice, p.maxPrice, r.maxPrice)
    && Takes(d.lotSize, p.lotSize, r.lotSize)
    && Takes(d.premium, p.premium, r.premium)
    && Takes(d.premiumPercentage, p.premiumPercentage, r.premiumPercentage)
    && Takes(d.openDate, p.openDate, r.openDate)
    && Takes(d.closeDate, p.closeDate, r.closeDate)
    && Takes(d.allotmentDate, p.allotmentDate, r.allotmentDate)
    && Takes(d.listingDate, p.listingDate, r.listingDate)
    && Takes(d.allotmentLink, p.allotmentLink, r.allotmentLink)
    && Takes(d.currentStatus, p.currentStatus, r.currentStatus)
    && Takes(d.exchange, p.exchange, r.exchange)
    && Takes(d.premiumLastUpdated, p.premiumLastUpdated, r.premiumLastUpdated)
    && Takes(d.listingPrice, p.listingPrice, r.listingPrice)
    && Takes(d.isBuyer, p.isBuyer, r.isBuyer)
    && Takes(d.isSeller, p.isSeller, r.isSeller)
    && Takes(d.isPreApply, p.isPreApply, r.isPreApply)
  }

  /** `{ ...existing, ...updates }` on the insert fields. */
  function ApplyPatch(d: InsertIpo, p: IpoPatch): (r: InsertIpo)
    ensures Merged(d, p, r)
    ensures p == EmptyPatch ==> r == d
    ensures forall e :: p == FullPatch(e) ==> r == e
    ensures p.currentStatus.Some? ==> r.currentStatus == p.currentStatus.value
    ensures p.currentStatus.None? ==> r.currentStatus == d.currentStatus
    ensures p.name.Some? ==> r.name == p.name.value
    ensures p.name.None? ==> r.name == d.name
  {
    InsertIpo(
      Over(d.name, p.name),
      Over(d.scriptCode, p.scriptCode),
      Over(d.iconUrl, p.iconUrl),
      Over(d.minPrice, p.minPrice),
      Over(d.maxPrice, p.maxPrice),
      Over(d.lotSize, p.lotSize),
      Over(d.premium, p.premium),
      Over(d.premiumPercentage, p.premiumPercentage),
      Over(d.openDate, p.openDate),
      Over(d.closeDate, p.closeDate),
      Over(d.allotmentDate, p.allotmentDate),
      Over(d.listingDate, p.listingDate),
      Over(d.allotmentLink, p.allotmentLink),
      Over(d.currentStatus, p.currentStatus),
      Over(d.exchange, p.exchange),
      Over(d.premiumLastUpdated, p.premiumLastUpdated),
      Over(d.listingPrice, p.listingPrice),
      Over(d.isBuyer, p.isBuyer),
      Over(d.isSeller, p.isSeller),
      Over(d.isPreApply, p.isPreApply))
  }

  /** The patch that supplies no key. */
  const EmptyPatch: IpoPatch :=
    IpoPatch(None, None, None, None, None, None, None, None, None, None,
             None, None, None, None, None, None, None, None, None, None)

  /** The patch that supplies every field of `d`. */
  function FullPatch(d: InsertIpo): IpoPatch {
    IpoPatch(Some(d.name), Some(d.scriptCode), Some(d.iconUrl), Some(d.minPrice),
             Some(d.maxPrice), Some(d.lotSize), Some(d.premium), Some(d.premiumPercentage),
             Some(d.openDate), Some(d.closeDate), Some(d.allotmentDate), Some(d.listingDate),
             Some(d.allotmentLink), Some(d.currentStatus), Some(d.exchange),
             Some(d.premiumLastUpdated), Some(d.listingPrice), Some(d.isBuyer),
             Some(d.isSeller), Some(d.isPreApply))
  }

  /** Merging laws of the spread: an empty patch changes nothing, applying the same
      patch twice is the same as once, and a patch naming every field replaces the
      record's data wholesale. */
  lemma {:induction false} PatchLaws(d: InsertIpo, p: IpoPatch, e: InsertIpo)
    ensures ApplyPatch(d, EmptyPatch) == d
    ensures ApplyPatch(ApplyPatch(d, p), p) == ApplyPatch(d, p)
    ensures ApplyPatch(d, FullPatch(e)) == e
  {
  }

  /** The spread is the only merge: any record that takes exactly the supplied keys
      of `p` over `d` is `ApplyPatch(d, p)`. */
  lemma {:induction false} MergedUnique(d: InsertIpo, p: IpoPatch, r: InsertIpo)
    ensures Merged(d, p, r) <==> r == ApplyPatch(d, p)
  {
  }

  /** `updateIpo`: an absent id yields nothing and leaves the store as it was; a
      present id gets the supplied fields, keeps its id and creation time, takes
      `now` as its update time, and no other record changes. */
  function UpdateIpo(st: MemStorage, id: nat, p: IpoPatch, now: nat): (res: (MemStorage, Option<Ipo>))
    ensures id !in st.ipos ==> res == (st, None)
    ensures id in st.ipos ==>
              var prev := st.ipos[id];
              && res.1 == Some(Ipo(prev.id, ApplyPatch(prev.data, p), prev.createdAt, now))
              && res.0 == st.(ipos := st.ipos[id := res.1.value])
    ensures id in st.ipos ==> res.1.Some? && Merged(st.ipos[id].data, p, res.1.value.data)
    ensures Valid(st) ==> Valid(res.0)
  {
    if id !in st.ipos then (st, None)
    else
      var prev := st.ipos[id];
      var r := Ipo(prev.id, ApplyPatch(prev.data, p), prev.createdAt, now);
      (st.(ipos := st.ipos[id := r]), Some(r))
  }

  // ---------------------------------------------------------------------------
  // Contacts

  function ContactCreatedAt(c: Contact): int { c.createdAt }

  /** `createContact`: the contact counter issues the id; the creation time is `now`. */
  function CreateContact(st: MemStorage, x: InsertContact, now: nat): (res: (MemStorage, Contact))
    ensures res.1 == Contact(st.currentContactId, x, now)
    ensures res.0 == st.(contacts := st.contacts[st.currentContactId := res.1],
                         currentContactId := st.currentContactId + 1)
    ensures Valid(st) ==> Valid(res.0) && res.1.id !in st.contacts
  {
    var c := Contact(st.currentContactId, x, now);
    (st.(contacts := st.contacts[c.id := c], currentContactId := st.currentContactId + 1), c)
  }

  /** `getAllContacts`: every stored message once, newest first, ties in
      insertion order. */
  function GetAllContacts(st: MemStorage): (r: seq<Contact>)
    ensures Ordering.NewestFirst(r, ContactCreatedAt)
    ensures multiset(r) == multiset(Listing(st.contacts, st.currentContactId))
    ensures Valid(st) ==> |r| == |st.contacts|
  {
    SortedContactListing(st);
    Ordering.SortNewest(Listing(st.contacts, st.currentContactId), ContactCreatedAt)
  }

  lemma {:induction false} SortedContactListing(st: MemStorage)
    ensures Valid(st) ==>
              |Ordering.SortNewest(Listing(st.contacts, st.currentContactId), ContactCreatedAt)| == |st.contacts|
  {
    var l := Listing(st.contacts, st.currentContactId);
    var r := Ordering.SortNewest(l, ContactCreatedAt);
    assert |r| == |multiset(r)| == |multiset(l)| == |l|;
    if Valid(st) {
      ListingSize(st.contacts, st.currentContactId);
    }
  }

  // ---------------------------------------------------------------------------
  // Properties across operations

  /** `st'` holds everything `st` held: no key is ever removed and no counter goes
      back, so no id is ever issued twice. */
  ghost predicate Grows(st: MemStorage, st': MemStorage) {
    && st.users.Keys <= st'.users.Keys
    && st.ipos.Keys <= st'.ipos.Keys
    && st.contacts.Keys <= st'.contacts.Keys
    && st.currentUserId <= st'.currentUserId
    && st.currentIpoId <= st'.currentIpoId
    && st.currentContactId <= st'.currentContactId
  }

  /** The interface has no delete: every mutating operation only grows the store,
      and only `updateIpo` changes a value already stored. */
  lemma {:induction false} OnlyGrows(st: MemStorage, ux: InsertUser, x: InsertIpo, id: nat, p: IpoPatch,
                  cx: InsertContact, now: nat)
    requires Valid(st)
    ensures Grows(st, CreateUser(st, ux).0)
    ensures Grows(st, CreateIpo(st, x, now).0)
    ensures Grows(st, UpdateIpo(st, id, p, now).0)
    ensures Grows(st, CreateContact(st, cx, now).0)
    ensures forall k :: k in st.ipos ==> CreateIpo(st, x, now).0.ipos[k] == st.ipos[k]
    ensures forall k :: k in st.ipos && k != id ==> UpdateIpo(st, id, p, now).0.ipos[k] == st.ipos[k]
  {
  }

  /** Each kind of record counts its own ids from 1: the first IPO, user and
      contact of a new store all get id 1, and the second IPO gets 2. */
  lemma {:induction false} IdsStartAtOne(x: InsertIpo, y: InsertIpo, ux: InsertUser, cx: InsertContact, t1: nat, t2: nat)
    ensures CreateIpo(NewStorage(), x, t1).1.id == 1
    ensures CreateIpo(CreateIpo(NewStorage(), x, t1).0, y, t2).1.id == 2
    ensures CreateUser(CreateIpo(NewStorage(), x, t1).0, ux).1.id == 1
    ensures CreateContact(CreateIpo(NewStorage(), x, t1).0, cx, t2).1.id == 1
  {
  }

  /** Lookup after create returns the created record, equal to the input plus the
      issued id and the creation instant in both timestamps. */
  lemma {:induction false} CreateThenGet(st: MemStorage, x: InsertIpo, now: nat)
    requires Valid(st)
    ensures var res := CreateIpo(st, x, now);
            && GetIpoById(res.0, res.1.id) == Some(res.1)
            && res.1.data == x && res.1.createdAt == res.1.updatedAt == now
            && |GetAllIpos(res.0)| == |GetAllIpos(st)| + 1
  {
    var res := CreateIpo(st, x, now);
    assert res.0.ipos.Keys == st.ipos.Keys + {res.1.id};
    assert |GetAllIpos(res.0)| == |res.0.ipos|;
  }

  /** An update of an existing record is visible to a lookup; an update of a
      missing id is not an insertion. */
  lemma {:induction false} UpdateThenGet(st: MemStorage, id: nat, p: IpoPatch, now: nat)
    ensures id in st.ipos ==>
              GetIpoById(UpdateIpo(st, id, p, now).0, id) == UpdateIpo(st, id, p, now).1
    ensures id !in st.ipos ==> GetIpoById(UpdateIpo(st, id, p, now).0, id) == None
  {
  }

  /** An empty query matches every record (the empty string is in every string),
      so searching for "" lists everything. */
  lemma {:induction false} EmptySearchListsAll(st: MemStorage)
    ensures SearchIpos(st, "") == GetAllIpos(st)
  {
    var all := GetAllIpos(st);
    forall r | r in all
      ensures MatchesQuery("")(r)
    {
      ContainsEmpty(Lower(r.data.name));
    }
    FilterAll(all, MatchesQuery(""));
  }

  lemma {:induction false} FilterAll<T>(s: seq<T>, p: T -> bool)
    requires forall x :: x in s ==> p(x)
    ensures Ordering.Filter(s, p) == s
  {
    if s != [] {
      assert forall x :: x in s[1..] ==> x in s;
      FilterAll(s[1..], p);
    }
  }

  /** A record is in the search result exactly when it is stored and its name,
      script code or non-empty exchange has the query as a substring, ignoring
      ASCII case. */
  lemma {:induction false} SearchMembers(st: MemStorage, query: string, r: Ipo)
    requires Valid(st)
    ensures r in SearchIpos(st, query) <==>
              && r.id in st.ipos && st.ipos[r.id] == r
              && (|| (exists i :: OccursAt(Lower(r.data.name), Lower(query), i))
                  || (exists i :: OccursAt(Lower(r.data.scriptCode), Lower(query), i))
                  || (r.data.exchange.Some? && r.data.exchange.value != ""
                      && exists i :: OccursAt(Lower(r.data.exchange.value), Lower(query), i)))
  {
    Ordering.FilterMembers(GetAllIpos(st), MatchesQuery(query), r);
    ContainsIff(Lower(r.data.name), Lower(query));
    ContainsIff(Lower(r.data.scriptCode), Lower(query));
    if r.data.exchange.Some? {
      ContainsIff(Lower(r.data.exchange.value), Lower(query));
    }
  }

  /** A record is listed for a status exactly when it is stored with that status. */
  lemma {:induction false} StatusMembers(st: MemStorage, status: string, r: Ipo)
    requires Valid(st)
    ensures r in GetIposByStatus(st, status) <==>
              r.id in st.ipos && st.ipos[r.id] == r && r.data.currentStatus == status
  {
    Ordering.FilterMembers(GetAllIpos(st), HasStatus(status), r);
  }
}

=== FILE: text.dfy ===
/** The JavaScript string primitives the server and client code rely on, written out
    for the specific patterns used: the `\s` character class and `trim`, `includes`,
    a global replacement of a literal pattern, the `\s+` collapse, ASCII case folding
    and the decimal rendering of an integer. */
module Text {

  /** The ECMAScript WhiteSpace and LineTerminator code points: exactly the set that
      the regular-expression class `\s` matches and that `String.prototype.trim` strips. */
  predicate IsSpace(c: char) {
    || c == ' ' || c == '\t' || c == '\n' || c == '\r' || c == '\U{000B}' || c == '\U{000C}'
    || c == '\U{00A0}' || c == '\U{1680}' || ('\U{2000}' <= c <= '\U{200A}')
    || c == '\U{2028}' || c == '\U{2029}' || c == '\U{202F}' || c == '\U{205F}'
    || c == '\U{3000}' || c == '\U{FEFF}'
  }

  /** The regular-expression class `\d`: ASCII digits only. */
  predicate IsDigit(c: char) {
    '0' <= c <= '9'
  }

  predicate AllDigits(s: string) {
    forall i :: 0 <= i < |s| ==> IsDigit(s[i])
  }

  predicate NoSpace(s: string) {
    forall i :: 0 <= i < |s| ==> !IsSpace(s[i])
  }

  // ---------------------------------------------------------------------------
  // trim

  /** Drops the leading whitespace run. */
  function TrimStart(s: string): (r: string)
    ensures |r| <= |s| && r == s[|s| - |r|..]
    ensures forall i :: 0 <= i < |s| - |r| ==> IsSpace(s[i])
    ensures r == [] || !IsSpace(r[0])
    ensures s != [] && IsSpace(s[0]) ==> |r| < |s|
  {
    if s != [] && IsSpace(s[0]) then TrimStart(s[1..]) else s
  }

  /** Drops the trailing whitespace run. */
  function TrimEnd(s: string): (r: string)
    ensures |r| <= |s| && r == s[..|r|]
    ensures forall i :: |r| <= i < |s| ==> IsSpace(s[i])
    ensures r == [] || !IsSpace(r[|r| - 1])
  {
    if s != [] && IsSpace(s[|s| - 1]) then TrimEnd(s[..|s| - 1]) else s
  }

  /** The length of the leading whitespace run. */
  function LeadingSpaces(s: string): (n: nat)
    ensures n <= |s|
    ensures forall i :: 0 <= i < n ==> IsSpace(s[i])
    ensures n < |s| ==> !IsSpace(s[n])
  {
    |s| - |TrimStart(s)|
  }

  /** `String.prototype.trim`: the result is the slice of `s` that starts after the
      leading whitespace run, is followed only by whitespace, and does not end with
      whitespace. These facts determine the result uniquely. */
  function Trim(s: string): (r: string)
    ensures LeadingSpaces(s) + |r| <= |s|
    ensures r == s[LeadingSpaces(s)..LeadingSpaces(s) + |r|]
    ensures forall i :: LeadingSpaces(s) + |r| <= i < |s| ==> IsSpace(s[i])
    ensures r == [] || (!IsSpace(r[0]) && !IsSpace(r[|r| - 1]))
  {
    TrimEnd(TrimStart(s))
  }

  /** A string whose whitespace is only single interior ASCII spaces: the shape the
      name cleaner promises. */
  predicate IsNormalized(s: string) {
    && (s == [] || (!IsSpace(s[0]) && !IsSpace(s[|s| - 1])))
    && SingleSpaced(s)
  }

  /** Whitespace is only single ASCII spaces. */
  predicate SingleSpaced(s: string) {
    && (forall i :: 0 <= i < |s| && IsSpace(s[i]) ==> s[i] == ' ')
    && (forall i :: 0 <= i < |s| - 1 ==> !(IsSpace(s[i]) && IsSpace(s[i + 1])))
  }

  lemma {:induction false} TrimStartOfNonSpace(s: string)
    requires s == [] || !IsSpace(s[0])
    ensures TrimStart(s) == s
  {
  }

  lemma {:induction false} TrimEndOfNonSpace(s: string)
    requires s == [] || !IsSpace(s[|s| - 1])
    ensures TrimEnd(s) == s
  {
  }

  /** Trimming a string that has no outer whitespace changes nothing. */
  lemma {:induction false} TrimIdentity(s: string)
    requires s == [] || (!IsSpace(s[0]) && !IsSpace(s[|s| - 1]))
    ensures Trim(s) == s
  {
    TrimStartOfNonSpace(s);
    TrimEndOfNonSpace(s);
  }

  /** The length of the leading run of ASCII digits. */
  function DigitPrefix(s: string): (n: nat)
    ensures n <= |s|
    ensures forall i :: 0 <= i < n ==> IsDigit(s[i])
    ensures n < |s| ==> !IsDigit(s[n])
  {
    if s != [] && IsDigit(s[0]) then 1 + DigitPrefix(s[1..]) else 0
  }

  // ---------------------------------------------------------------------------
  // includes

  predicate StartsWith(s: string, p: string) {
    |p| <= |s| && s[..|p|] == p
  }

  /** `s.includes(p)`, as a left-to-right scan. */
  predicate Contains(s: string, p: string)
    decreases |s|
  {
    StartsWith(s, p) || (s != [] && Contains(s[1..], p))
  }

  /** `p` occurs in `s` starting at index `i`. */
  predicate OccursAt(s: string, p: string, i: int) {
    0 <= i && i + |p| <= |s| && s[i..i + |p|] == p
  }

  /** The scan agrees with the declarative meaning of "is a substring of". */
  lemma {:induction false} ContainsIff(s: string, p: string)
    ensures Contains(s, p) <==> exists i :: OccursAt(s, p, i)
    decreases |s|
  {
    if StartsWith(s, p) {
      assert OccursAt(s, p, 0);
    } else if s == [] {
      forall i
        ensures !OccursAt(s, p, i)
      {
      }
    } else {
      ContainsIff(s[1..], p);
      if exists i :: OccursAt(s[1..], p, i) {
        var i :| OccursAt(s[1..], p, i);
        assert s[i + 1..i + 1 + |p|] == s[1..][i..i + |p|];
        assert OccursAt(s, p, i + 1);
      }
      if exists i :: OccursAt(s, p, i) {
        var i :| OccursAt(s, p, i);
        assert s[0..|p|] == s[..|p|];
        assert i != 0;
        assert s[1..][i - 1..i - 1 + |p|] == s[i..i + |p|];
        assert OccursAt(s[1..], p, i - 1);
      }
    }
  }

  /** The empty string occurs in every string. */
  lemma {:induction false} ContainsEmpty(s: string)
    ensures Contains(s, "")
  {
    assert StartsWith(s, "");
  }

  /** A pattern whose first character never appears does not occur. */
  lemma {:induction false} AbsentLead(s: string, p: string)
    requires |p| > 0
    requires forall i :: 0 <= i < |s| ==> s[i] != p[0]
    ensures !Contains(s, p)
  {
    forall i | 0 <= i
      ensures !OccursAt(s, p, i)
    {
      if i + |p| <= |s| {
        assert s[i..i + |p|][0] == s[i];
      }
    }
    ContainsIff(s, p);
  }

  // ---------------------------------------------------------------------------
  // replace(/literal/g, replacement)

  /** `s.replace(/pat/g, rep)` for a literal pattern: leftmost, non-overlapping
      occurrences are replaced, and the inserted text is never scanned again. */
  function ReplaceAll(s: string, pat: string, rep: string): (r: string)
    requires |pat| > 0
    ensures |rep| <= |pat| ==> |r| <= |s|
    ensures s == [] ==> r == []
    decreases |s|
  {
    if StartsWith(s, pat) then rep + ReplaceAll(s[|pat|..], pat, rep)
    else if s == [] then []
    else [s[0]] + ReplaceAll(s[1..], pat, rep)
  }

  /** A string without any occurrence of the pattern is returned unchanged. */
  lemma {:induction false} ReplaceAllAbsent(s: string, pat: string, rep: string)
    requires |pat| > 0
    requires !Contains(s, pat)
    ensures ReplaceAll(s, pat, rep) == s
    decreases |s|
  {
    if s != [] {
      ReplaceAllAbsent(s[1..], pat, rep);
    }
  }

  /** A string without the pattern's first character cannot be changed. */
  lemma {:induction false} ReplaceAllNoLead(s: string, pat: string, rep: string)
    requires |pat| > 0
    requires forall i :: 0 <= i < |s| ==> s[i] != pat[0]
    ensures ReplaceAll(s, pat, rep) == s
    decreases |s|
  {
    if s != [] {
      assert !StartsWith(s, pat) by {
        if |pat| <= |s| {
          assert s[..|pat|][0] == s[0];
        }
      }
      ReplaceAllNoLead(s[1..], pat, rep);
    }
  }

  // ---------------------------------------------------------------------------
  // replace(/\s+/g, ' ')

  /** Every maximal run of whitespace becomes one ASCII space. */
  function CollapseSpaces(s: string): (r: string)
    ensures |r| <= |s|
    ensures s == [] <==> r == []
    ensures s != [] ==> (IsSpace(s[0]) <==> r[0] == ' ') && (!IsSpace(s[0]) ==> r[0] == s[0])
    ensures SingleSpaced(r)
    decreases |s|
  {
    if s == [] then []
    else if IsSpace(s[0]) then [' '] + CollapseSpaces(TrimStart(s))
    else [s[0]] + CollapseSpaces(s[1..])
  }

  /** The characters that are not whitespace, in order. */
  function Visible(s: string): string {
    if s == [] then [] else (if IsSpace(s[0]) then [] else [s[0]]) + Visible(s[1..])
  }

  lemma {:induction false} VisibleOfSpaces(s: string)
    requires forall i :: 0 <= i < |s| ==> IsSpace(s[i])
    ensures Visible(s) == []
  {
    if s != [] {
      VisibleOfSpaces(s[1..]);
    }
  }

  lemma {:induction false} VisibleAppend(a: string, b: string)
    ensures Visible(a + b) == Visible(a) + Visible(b)
  {
    if a == [] {
      assert a + b == b;
    } else {
      assert (a + b)[0] == a[0];
      assert (a + b)[1..] == a[1..] + b;
      VisibleAppend(a[1..], b);
    }
  }

  /** Collapsing whitespace keeps every visible character, in order. */
  lemma {:induction false} CollapseKeepsVisible(s: string)
    ensures Visible(CollapseSpaces(s)) == Visible(s)
    decreases |s|
  {
    if s != [] {
      if IsSpace(s[0]) {
        var t := TrimStart(s);
        CollapseKeepsVisible(t);
        VisibleAppend([' '], CollapseSpaces(t));
        assert s == s[..|s| - |t|] + t;
        VisibleAppend(s[..|s| - |t|], t);
        VisibleOfSpaces(s[..|s| - |t|]);
      } else {
        CollapseKeepsVisible(s[1..]);
        VisibleAppend([s[0]], CollapseSpaces(s[1..]));
      }
    }
  }

  /** Collapsing a string that already has only single ASCII spaces changes nothing. */
  lemma {:induction false} CollapseIdentity(s: string)
    requires SingleSpaced(s)
    ensures CollapseSpaces(s) == s
    decreases |s|
  {
    if s != [] {
      var t := s[1..];
      SliceKeepsSpacing(s, t, 1, |s|);
      CollapseIdentity(t);
      assert s == [s[0]] + t;
      if IsSpace(s[0]) {
        assert s[0] == ' ';
        assert t == [] || !IsSpace(t[0]) by {
          if t != [] {
            assert t[0] == s[1];
          }
        }
        TrimStartOfNonSpace(t);
        assert TrimStart(s) == t;
        assert CollapseSpaces(s) == [' '] + CollapseSpaces(t);
      } else {
        assert CollapseSpaces(s) == [s[0]] + CollapseSpaces(t);
      }
    }
  }

  /** A slice of a single-spaced string is single-spaced. */
  lemma {:induction false} SliceKeepsSpacing(s: string, t: string, a: int, b: int)
    requires 0 <= a <= b <= |s| && t == s[a..b]
    requires SingleSpaced(s)
    ensures SingleSpaced(t)
  {
    forall i | 0 <= i < |t| && IsSpace(t[i])
      ensures t[i] == ' '
    {
      assert t[i] == s[a + i];
    }
    forall i | 0 <= i < |t| - 1
      ensures !(IsSpace(t[i]) && IsSpace(t[i + 1]))
    {
      assert t[i] == s[a + i] && t[i + 1] == s[a + i + 1];
    }
  }

  /** Trimming a single-spaced string gives a normalized one. */
  lemma {:induction false} TrimSingleSpaced(c: string)
    requires SingleSpaced(c)
    ensures IsNormalized(Trim(c))
  {
    var r := Trim(c);
    var a := LeadingSpaces(c);
    SliceKeepsSpacing(c, r, a, a + |r|);
  }

  /** `.replace(/\s+/g, ' ').trim()` always yields a normalized string, and leaves a
      normalized string as it is. */
  lemma {:induction false} CollapseTrimNormalizes(s: string)
    ensures IsNormalized(Trim(CollapseSpaces(s)))
    ensures IsNormalized(s) ==> Trim(CollapseSpaces(s)) == s
  {
    TrimSingleSpaced(CollapseSpaces(s));
    if IsNormalized(s) {
      CollapseIdentity(s);
      TrimIdentity(s);
    }
  }

  // ---------------------------------------------------------------------------
  // toLowerCase (ASCII)

  function LowerChar(c: char): (r: char)
    ensures ('A' <= c <= 'Z') ==> 'a' <= r <= 'z'
    ensures !('A' <= c <= 'Z') ==> r == c
  {
    if 'A' <= c <= 'Z' then (c as int + 32) as char else c
  }

  /** `toLowerCase` restricted to ASCII letters. */
  function Lower(s: string): (r: string)
    ensures |r| == |s|
    ensures forall i :: 0 <= i < |s| ==> r[i] == LowerChar(s[i])
  {
    seq(|s|, i requires 0 <= i < |s| => LowerChar(s[i]))
  }

  // ---------------------------------------------------------------------------
  // Number -> String for integers, and the digit-string value

  function DigitChar(d: nat): (c: char)
    requires d < 10
    ensures IsDigit(c)
  {
    ('0' as int + d) as char
  }

  function DigitValue(c: char): (d: nat)
    requires IsDigit(c)
    ensures d < 10
  {
    c as int - '0' as int
  }

  /** The natural number a string of ASCII digits denotes (leading zeros allowed). */
  function DigitsValue(s: string): (n: nat)
    requires AllDigits(s)
  {
    if s == [] then 0 else DigitsValue(s[..|s| - 1]) * 10 + DigitValue(s[|s| - 1])
  }

  /** Decimal rendering of a natural number, without leading zeros. */
  function NatToString(n: nat): (r: string)
    ensures r != [] && AllDigits(r)
    ensures |r| > 1 ==> r[0] != '0'
    ensures DigitsValue(r) == n
  {
    if n < 10 then [DigitChar(n)]
    else
      var r := NatToString(n / 10) + [DigitChar(n % 10)];
      assert r[..|r| - 1] == NatToString(n / 10);
      r
  }

  /** `String(n)` for an integral JavaScript number. */
  function IntToString(n: int): (r: string)
    ensures n >= 0 ==> r == NatToString(n)
    ensures n < 0 ==> r == "-" + NatToString(-n)
  {
    if n >= 0 then NatToString(n) else "-" + NatToString(-n)
  }

  /** Rendering and reading back a natural number is the identity, and the rendering
      is the only digit string without leading zeros that denotes it. */
  lemma {:induction false} NatToStringUnique(s: string)
    requires s != [] && AllDigits(s) && (|s| > 1 ==> s[0] != '0')
    ensures NatToString(DigitsValue(s)) == s
    decreases |s|
  {
    var n := DigitsValue(s);
    if |s| == 1 {
      assert s[..|s| - 1] == [];
      assert DigitsValue(s) == DigitsValue(s[..|s| - 1]) * 10 + DigitValue(s[|s| - 1]);
      assert DigitsValue([]) == 0;
      assert n == DigitValue(s[0]);
    } else {
      var p := s[..|s| - 1];
      assert p[0] == s[0];
      assert DigitsValue(p) >= 1 by { LeadingDigitPositive(p); }
      NatToStringUnique(p);
      assert n / 10 == DigitsValue(p) && n % 10 == DigitValue(s[|s| - 1]);
      assert s == p + [s[|s| - 1]];
    }
  }

  lemma {:induction false} LeadingDigitPositive(s: string)
    requires s != [] && AllDigits(s) && s[0] != '0'
    ensures DigitsValue(s) >= 1
    decreases |s|
  {
    if |s| > 1 {
      var p := s[..|s| - 1];
      assert p[0] == s[0];
      LeadingDigitPositive(p);
    }
  }
}

=== FILE: wrappers.dfy ===
/** Failure-compatible wrappers used throughout the model: `Option` stands for a
    JavaScript value that may be `null`/`undefined`, `Result` for an operation that
    can throw. */
module Wrappers {

  datatype Option<+T> = None | Some(value: T) {

    /** Returns the wrapped value, or `default` when there is none (`x ?? default`). */
    function GetOr(default: T): T {
      match this
      case Some(v) => v
      case None => default
    }
  }

  datatype Result<+R, +E> = Ok(value: R) | Err(error: E)
}
